=== FILE: README.md ===
# AnnWebots neural-network engine in Dafny

This project models the core of the AnnWebots network engine. That engine
builds artificial neural networks for a Webots robot controller. It covers:

- **arcs and nodes** (`arc.py`, `node.py`): an arc registers itself on its
  two endpoint nodes and can be reset to its initial weight; a node keeps
  exactly one round of activation history and computes its membrane
  potential as a weighted sum over its incoming arcs;
- **layers** (`layer.py`): the integer-tagged catalogue of activation
  functions, the constructor defaults, and the single-pass `update`;
- **the network** (`ann.py`): `init_nodes` (name map, input/output node
  collection, execution-order resolution and completion), `update`,
  `set_inputs` and `get_output`;
- **module motifs** (`ann_modules.py`): the Competitive, Inhibitory,
  Associative and Transformer constructors as link-completion rules, and
  the Associative train/test toggles;
- **the configuration side** (`parser.py`): section classification, layer
  names, the `fail` wrapper, the getters, case-insensitive layer lookup,
  the activation name table and its reverse lookup, and the fields the
  exporter writes for a layer or a link.

The Python object graph becomes a flat, index-addressed store
(`Graph.Net`): nodes, arcs and layers refer to each other by position, and
every operation is a pure function from one store to the next. A raised
exception becomes `Results.Result.Err` carrying the exception; Python's
`None` becomes `Results.Option.None`. The two sigmoids need `exp`, so they
stay uninterpreted: the caller passes them in as an `Activations.Sigmoids`
record.

Files: `results.dfy` (Option, Result, exceptions), `text.dfy` (Python 2
string helpers), `activations.dfy`, `graph.dfy` (the store and its
well-formedness predicates), `nodes.dfy`, `arcs.dfy`, `layers.dfy`,
`links.dfy` (the link record), `network.dfy`, `motifs.dfy`, `parser.dfy`.

## Where the model follows the evident intent

The source mixes several revisions and has typos that would make it crash
at once. The model follows the intent in each of these places:

- `reset_levels` assigns through `this`, not `self` (node.py:24-26). The
  model resets the node's own levels.
- `activate` binds the source node as `con_node = 0`; the comment says
  `arc.from` (node.py:49). The model reads the arc's `pre` node.
- `Node` creates lists named `encoders`/`decoders` (node.py:17-18), but
  `Arc` appends to `outgoing`/`incomming` (arc.py:9-10). The model has one
  pair, `incoming` and `outgoing`, used by both.
- `activate` multiplies by `arc.weight`, an attribute `Arc` never sets
  (node.py:54,56). The model uses the arc's current weight.
- `init_nodes` calls `.lowercase()` (ann.py:32). The model uses `str.lower`
  on ASCII letters.
- The output branch compares `layer.lowercase()` with `"input"`
  (ann.py:35). The model collects layers whose role is "output".
- `init_nodes` reads `layer.type`, the constructor's keyword is `io_type`.
  The model has one field, `ioType`.
- The callers build layers as `Layer(name, nodes, activation, io_type)`,
  while layer.py's `Layer.__init__` takes `(nodes, activation)`
  (layer.py:18). The model follows the callers.
- `Associative` tests an undefined `up_inh` and formats the inhibitor's
  name with `"%_Inhibitory" % name` (ann_modules.py:205,210). The model
  uses `up_inhibitory` and the name followed by `_Inhibitory`.
- `Inhibitory` reads `up.pre_layer` and `down.post_layer` before checking
  for `None` (ann_modules.py:96-97). The model reads them after the
  defaults are filled in, so a missing up-link gives no source layer.
- `Inhibitory` and `Associative` use `Activation.linear` and
  `Activation.step`, and `Competitive` uses `Layer.linear`; none of these
  exist as such. The model uses the catalogue's linear and step (threshold
  0.5) functions.
- The parser's function table names `Activation.sigmoid_log`,
  `.sigmoid_tanh`, `.step`, `.linear` and `.pos_linear` (parser.py:8-16,
  106), but the `Activation` class of layer.py:5-12 defines only the
  integer tags, so loading parser.py raises `AttributeError`. The model's
  table maps the seven names to the catalogue's functions instead.
- `insert_layer` reverse-looks-up `layer.activation_function`
  (parser.py:181), which layer.py:76 defines as the dispatch method, so as
  written no name matches and `None` is written. The model looks up the
  layer's own catalogue function, so a table function is written under its
  table name.
- The keyword names of `Link(...)` calls inside the modules are mapped
  onto the link record: `weights=` is the initial weights, `rate` and
  `learning_rate` the learning rate, `rule` the learning rule, `initial`
  the arc range.

Behaviour of the code a reader may not expect, which the model follows:

- A node with no incoming arcs gets potential 0 and activation f(0)
  (node.py:46-59).
- `Ann.update` updates the layers in the order of the layer list
  (ann.py:53-54); the execution order plays no part in it.
- Execution-order names are looked up by exact, case-sensitive name
  (ann.py:20-22,40).
- Only the role tags "input" and "output" are recognised (ann.py:32-36).
- `Layer.update` runs a single pass over its nodes; settling in quiescent
  mode is a TODO comment (layer.py:69-70).

## Model

| member | source | states |
|---|---|---|
| Activations.StepFn | controllers/webann/ann/layer.py:115-116 | the step gives 1 exactly when the input reaches the threshold and 0 otherwise |
| Activations.StepMonotone | controllers/webann/ann/layer.py:115-116 | the step output never decreases as the input grows |
| Activations.StepShift | controllers/webann/ann/layer.py:115-116 | a step at threshold T is the zero-threshold step of the input shifted by T |
| Activations.LinearProperties | controllers/webann/ann/layer.py:118-119 | linear gives its input back, is additive and homogeneous, and dispatching its tag returns the input |
| Activations.PosLinearFn | controllers/webann/ann/layer.py:121-124 | the ramp is never negative, never below its input, and is either the input or 0 |
| Activations.PosLinearProperties | controllers/webann/ann/layer.py:118-124 | the ramp is idempotent, agrees with the identity on non-negative inputs and is 0 on negative ones |
| Activations.FromCode | controllers/webann/ann/layer.py:8-12 | exactly the five tags 0..4 name a catalogue entry, and that entry's tag is the code |
| Activations.CodeOf | controllers/webann/ann/layer.py:8-12 | every catalogue entry has a tag in 0..4 |
| Activations.CodeRoundTrip | controllers/webann/ann/layer.py:8-12 | decoding an entry's tag gives the entry back, a step with the default threshold 0.5 |
| Activations.Dispatch | controllers/webann/ann/layer.py:89-104 | a valid tag applies the function it names; any other tag raises ValueError with the source's message |
| Nodes.NewNode | controllers/webann/ann/node.py:12-18 | a new node belongs to its layer, has no arcs and all three levels at zero |
| Nodes.ResetLevels | controllers/webann/ann/node.py:20-26 | reset zeroes potential, level and previous level and keeps the layer and arc lists |
| Nodes.ResetProperties | controllers/webann/ann/node.py:12-26 | resetting is idempotent and a new node is already reset |
| Nodes.SetActivation | controllers/webann/ann/node.py:32-38 | the setter stores the new level and moves the old level into the history slot, nothing else changes |
| Nodes.TwoWrites | controllers/webann/ann/node.py:32-38 | after writing a then b the level is b and the history is a, whatever the node held before |
| Nodes.ReadAfterWrite | controllers/webann/ann/node.py:50-56 | after a source is written through the setter, a node of the same layer (itself included) reads the level from before the write, a node of another layer the written level; an arc from an inactive layer contributes nothing, any other the read level times the weight |
| Nodes.WeightedInputAppend | controllers/webann/ann/node.py:46-56 | the weighted input is a sum over the arc list: splitting the list splits the sum, and a single arc gives its own contribution |
| Nodes.ActiveArcs | controllers/webann/ann/node.py:50-51 | an arc is kept exactly when it is one of the node's arcs and its source layer is active |
| Nodes.WeightedInputSkipsInactive | controllers/webann/ann/node.py:48-56 | the weighted sum that skips inactive sources equals the plain sum over the arcs from active layers |
| Nodes.Activated | controllers/webann/ann/node.py:46-59 | after activate the potential is the weighted sum, the level is the layer function of it and the history is the old level |
| Nodes.Activate | controllers/webann/ann/node.py:40-59 | activate changes only the activated node and keeps the store well formed |
| Nodes.ActivateUnconnected | controllers/webann/ann/node.py:46-59 | a node without incoming arcs gets potential 0 and the layer function of 0 |
| Arcs.NewArc | controllers/webann/ann/arc.py:5-14 | the arc is appended to the arc store, to the end of its source's outgoing list and its target's incoming list; its initial weight equals its weight; no other node changes |
| Arcs.SelfArc | controllers/webann/ann/arc.py:9-10 | a self-arc ends up in both arc lists of its single node |
| Arcs.Reset | controllers/webann/ann/arc.py:16-20 | reset restores the initial weight and keeps the endpoints, the link and the initial weight |
| Arcs.ResetProperties | controllers/webann/ann/arc.py:12-20 | resetting twice is resetting once, and a new arc is already reset |
| Layers.NewLayer | controllers/webann/ann/layer.py:39-59 | a new layer gets the next index, exactly n fresh nodes it owns, empty link lists, learning, quiescent and active flags set and no settling rounds; the rest of the store is kept |
| Layers.AppendedOwned | controllers/webann/ann/layer.py:39-40 | adding a layer keeps every node owned by the layer that lists it |
| Layers.UpdatePass | controllers/webann/ann/layer.py:73-74 | a pass changes only the levels of the nodes it visits |
| Layers.UpdateAsWritten | controllers/webann/ann/layer.py:64-74 | update leaves an inactive layer's store unchanged and touches only the layer's own nodes |
| Layers.PassVisit | controllers/webann/ann/layer.py:73-74 | in a pass each node is activated exactly once, in the state its predecessors in node order left |
| Layers.PassHistory | controllers/webann/ann/layer.py:73-74 | after a pass every visited node remembers the level it had before the pass |
| Layers.UpdateAsWrittenReads | controllers/webann/ann/layer.py:64-74 | a node of an active layer reads visited same-layer nodes at their pre-pass level and unvisited ones at the level from the round before |
| Layers.Update | controllers/webann/ann/layer.py:64-74 | the corrected update leaves inactive layers alone and moves each node's pre-pass level into its history |
| Layers.UpdateReadsSnapshot | controllers/webann/ann/node.py:53-56 | in the corrected update every node reads each active source at its pre-pass level, independently of node order |
| Layers.FeedForwardAgree | controllers/webann/ann/layer.py:73-74 | without arcs inside the layer the written and the corrected update give the same store |
| Layers.SelfLoopLags | controllers/webann/ann/node.py:53-54 | a self-exciting node at level 1 drops to 0 as written and stays at 1 when corrected |
| Network.NameMap | controllers/webann/ann/ann.py:20-22 | every layer's name is a key, and each key maps to a layer carrying that name |
| Network.NameMapLastWins | controllers/webann/ann/ann.py:20-22 | of two layers sharing a name, the later one is in the map |
| Network.TaggedNodes | controllers/webann/ann/ann.py:28-36 | a node is collected exactly when a layer with that role lists it |
| Network.TaggedNodesSingle | controllers/webann/ann/ann.py:30-36 | one layer adds its whole node list, in order and with repetitions, exactly when its role matches; with the append law the collected list is the exact concatenation of the tagged layers' node lists in layer order |
| Network.TaggedNodesAppend | controllers/webann/ann/ann.py:28-36 | collection concatenates in layer order: collecting over two runs of layers is collecting over each |
| Network.ResolveEntry | controllers/webann/ann/ann.py:39-40 | a name resolves to the layer mapped under it or raises KeyError with that name; a layer entry raises as written and resolves to itself when corrected |
| Network.ResolveOrder | controllers/webann/ann/ann.py:39-40 | the order resolves exactly when each entry does, entry by entry; a failure is the error of the first entry that fails, every entry before it resolving |
| Network.Missing | controllers/webann/ann/ann.py:44 | the missing layers are exactly the listed layers absent from the order |
| Network.MissingAppend | controllers/webann/ann/ann.py:44 | the missing layers of two runs of the layer list are those of the first followed by those of the second, so they keep layer-list order |
| Network.MissingSingle | controllers/webann/ann/ann.py:44 | a single layer is missing exactly when the order lacks it |
| Network.Complete | controllers/webann/ann/ann.py:43-45 | the resolved prefix is kept; when shorter than the layer list it is followed by the missing layers, so every layer appears |
| Network.InitWith | controllers/webann/ann/ann.py:16-45 | init succeeds exactly when every entry resolves, otherwise fails with the error of the first entry that fails; on success the layers and links are kept, the node lists are the tagged layers' nodes, and the order is resolved entry by entry and completed with every layer only when shorter than the layer list |
| Network.InitNodesAsWritten | controllers/webann/ann/ann.py:16-45 | the as-written call succeeds exactly when every entry is a known name |
| Network.InitOutcome | controllers/webann/ann/ann.py:39-40 | init fails exactly when some named entry is unknown, with KeyError of the first unknown name |
| Network.InitOrder | controllers/webann/ann/ann.py:39-45 | the final order holds layers only, maps each name to its layer, keeps layer entries, and holds every layer when the order was short |
| Network.InitNodes | controllers/webann/ann/ann.py:16-45 | init creates the input and output node lists from the tagged layers, resolves and completes the order, and raises KeyError exactly when a name is unknown, for the first unknown name |
| Network.ReinitFailsAsWritten | controllers/webann/ann/ann.py:39-40 | as written, a second init on a network with a layer raises |
| Network.AsWrittenAgreesOnNames | controllers/webann/ann/ann.py:39-40 | on an order of names the written and corrected init agree |
| Network.InitIdempotent | controllers/webann/ann/ann.py:39-45 | the corrected init changes nothing when run again |
| Network.InitExactlyOnce | controllers/webann/ann/ann.py:39-45 | with distinct layers and distinct resolvable names, every layer is scheduled exactly once, whether the order names fewer layers than there are or all of them |
| Network.Pigeonhole | controllers/webann/ann/ann.py:43-45 | a repetition-free order drawn from the layers and at least as long as the layer list holds every layer, so nothing needs appending |
| Network.UpdateLayers | controllers/webann/ann/ann.py:53-54 | updating a run of layers changes only nodes of those layers, and only their levels |
| Network.UpdateLayersAppend | controllers/webann/ann/ann.py:53-54 | updating two runs of layers is updating the first and then the second |
| Network.VisitedPrefix | controllers/webann/ann/ann.py:53-54 | updating the layers up to the i-th ends with the i-th layer's update, applied to the store the earlier layers left |
| Network.UpdateLayersVisit | controllers/webann/ann/ann.py:53-54 | with each node owned by one layer and no layer listed twice, a node of the i-th layer ends as the i-th layer's update left it, run after the layers before it; later layers do not touch it |
| Network.Update | controllers/webann/ann/ann.py:51-54 | each node of a listed layer ends as its own layer's update left it, applied after every layer listed before it (one update per layer, in layer-list order); nodes of no listed layer are untouched; arcs and layers are kept |
| Network.UpdateSkipsInactive | controllers/webann/ann/ann.py:51-54 | updating every layer is the same as updating only the active ones |
| Network.WriteLevels | controllers/webann/ann/ann.py:59-60 | writing levels in order changes only the written nodes, and only their levels |
| Network.WriteLevelsAll | controllers/webann/ann/ann.py:59-60 | each node holds the value of its last write, and a node written once remembers its old level as history |
| Network.SetInputs | controllers/webann/ann/ann.py:57-60 | input i goes to input node i; too few inputs raise IndexError, an uninitialised network raises AttributeError; only input nodes change |
| Network.SetInputsKeepsHistory | controllers/webann/ann/ann.py:57-60 | with distinct input nodes each keeps its pre-call level as history |
| Network.GetOutput | controllers/webann/ann/ann.py:62-63 | the output is the output nodes' levels, in order and of the same length; an uninitialised network raises AttributeError |
| Network.SetThenGet | controllers/webann/ann/ann.py:57-63 | an output node that is also input node j reads back input j, other output nodes read their old level |
| Motifs.Settling | controllers/webann/ann/ann_modules.py:82-83 | only the chosen layer's quiescent flag and settling rounds change |
| Motifs.CompetitiveLinks | controllers/webann/ann/ann_modules.py:61-78 | the links are the triangulate self-link with one neg weight per node, the 1-1 self-link with one pos weight per node, both not learning, then up into and down out of the layer |
| Motifs.NewCompetitive | controllers/webann/ann/ann_modules.py:29-83 | a linear-by-default layer of the given size, quiescent with the given settling rounds, with exactly those four links |
| Motifs.CompetitiveLinksTouch | controllers/webann/ann/ann_modules.py:61-78 | every competitive link touches the layer, and both self-links are fixed with one weight per node |
| Motifs.InhibitoryUp | controllers/webann/ann/ann_modules.py:124-134 | the up-link enters the inhibitor, is "full" unless the caller chose a topology, never learns and has range (pos, pos) |
| Motifs.InhibitoryDown | controllers/webann/ann/ann_modules.py:137-146 | the down-link leaves the inhibitor, is "full" unless chosen, never learns and has range (neg, neg) |
| Motifs.NewInhibitory | controllers/webann/ann/ann_modules.py:92-146 | a one-node, linear-by-default layer with its up-link then its down-link, remembering the layers they come from and go to |
| Motifs.AssociativeSelf | controllers/webann/ann/ann_modules.py:189-191 | the self-link is full and plastic at the given rate, general Hebbian unless a rule is given, with the initial range |
| Motifs.AssociativeUp | controllers/webann/ann/ann_modules.py:194-202 | the up-link enters the layer, is 1-1 unless chosen, and is otherwise as the caller left it |
| Motifs.AssociativeDown | controllers/webann/ann/ann_modules.py:215-228 | the down-link leaves the layer, is 1-1 unless chosen, never learns, and has range (1, 1) unless chosen |
| Motifs.NewAssociative | controllers/webann/ann/ann_modules.py:158-230 | a step-by-default layer with the settling rounds, links self, up, down in order, and an owned one-node inhibitor named after it that inhibits the layer |
| Motifs.ResetForTraining | controllers/webann/ann/ann_modules.py:232-236 | training deactivates the inhibitor and leaves quiescent mode; nothing else changes |
| Motifs.ResetForTesting | controllers/webann/ann/ann_modules.py:238-242 | testing reactivates the inhibitor and returns to quiescent mode; nothing else changes |
| Motifs.TestingUndoesTraining | controllers/webann/ann/ann_modules.py:232-242 | on a new associative module, training then testing restores the network |
| Motifs.ResetsIdempotent | controllers/webann/ann/ann_modules.py:232-242 | each reset is idempotent and the later of two resets decides the mode |
| Motifs.TransformerUp | controllers/webann/ann/ann_modules.py:259-270 | the up-link enters the layer, is always 1-1, never learns, and has range (1, 1) unless chosen |
| Motifs.NewTransformer | controllers/webann/ann/ann_modules.py:247-278 | a layer with the caller's activation, its up-link then its down-link out of the layer |
| Motifs.CompletionsIdempotent | controllers/webann/ann/ann_modules.py:124-270 | completing an already completed link changes nothing |
| Motifs.ChainedLink | controllers/webann/ann/ann_modules.py:197-276 | a link completed as one module's down-link and then passed as the next module's up-link has both ends set, keeping the fields the first module forced |
| Motifs.CallerTopology | controllers/webann/ann/ann_modules.py:129-264 | the inhibitory and associative up-links keep the caller's topology; the transformer overrides it |
| Parser.Titles | controllers/webann/ann/parser.py:38-40 | a title is listed exactly when some section has it and it passes the filter, each title once, in the order of its first section |
| Parser.LayerSections | controllers/webann/ann/parser.py:38 | layer sections are exactly the titles starting with "Layer", each once, in the order of their first section |
| Parser.LinkSections | controllers/webann/ann/parser.py:39 | link sections are exactly the titles starting with "Link", each once, in the order of their first section |
| Parser.ExecutionOrderSections | controllers/webann/ann/parser.py:40 | the execution-order section matches "Execution Order" exactly |
| Parser.SectionKindsDisjoint | controllers/webann/ann/parser.py:38-40 | no title is both a layer and a link section, and "Execution Order" is neither |
| Parser.LayerName | controllers/webann/ann/parser.py:102 | removing "Layer " never lengthens the title |
| Parser.LayerNameRoundTrip | controllers/webann/ann/parser.py:102 | a name without "Layer " in it comes back from its section title |
| Parser.Fail | controllers/webann/ann/parser.py:18-30 | an exception gives the default, "None" and falsy values give None, anything else passes unchanged |
| Parser.FailIdempotent | controllers/webann/ann/parser.py:21-28 | normalising twice is normalising once, and a normalised value is None or truthy |
| Parser.Get | controllers/webann/ann/parser.py:61 | the value the last section with the title gives the key, as the merged section holds it; NoSectionError exactly when no section has the title, NoOptionError when none of them sets the key |
| Parser.GetString | controllers/webann/ann/parser.py:59-61 | the option's text, None for "None" or empty, the default when the lookup raises |
| Parser.GetInt | controllers/webann/ann/parser.py:63-65 | the option's integer, None for 0, the default when the lookup or the conversion raises |
| Parser.Lookup | controllers/webann/ann/parser.py:8-16 | a name finds a function exactly when the table lists it, and the function is the one listed with it |
| Parser.ReverseLookup | controllers/webann/ann/parser.py:130-137 | a function gets a name the table lists with it, and None exactly when the table does not hold it |
| Parser.TableRoundTrip | controllers/webann/ann/parser.py:8-16 | name to function to name and function to name to function are identities on the seven entries; other steps have no name |
| Parser.GetFunc | controllers/webann/ann/parser.py:71-74 | the function the option names, or the default when the option or the name is missing |
| Parser.ParseLayer | controllers/webann/ann/parser.py:100-107 | the layer gets its name from the title, tanh unless a known function is named, no role for missing, empty or "None"; a missing or zero node count raises TypeError |
| Parser.FindLayer | controllers/webann/ann/parser.py:93-98 | the first layer whose name matches ignoring case, and None exactly when none matches |
| Parser.GetLayer | controllers/webann/ann/parser.py:82-90 | the matching layer, or ValueError naming section.key when none matches |
| Parser.InsertLayer | controllers/webann/ann/parser.py:177-185 | the section holds exactly the activation's table name and the node count, followed by the role only when the layer has one |
| Parser.LayerSectionOptions | controllers/webann/ann/parser.py:181-185 | the exported layer section reads back with exactly the options activation, nodes and, only when set, io_type: the node count as text, the activation name and the role |
| Parser.LayerExportRoundTrip | controllers/webann/ann/parser.py:100-107 | parsing an exported layer gives its name, node count, role and (table-named) activation back; an empty layer cannot be read back |
| Parser.InsertLink | controllers/webann/ann/parser.py:139-169 | section "Link i" holds each chosen field once, exactly the fields the rules select, with their values; a link missing an end raises |
| Parser.LinkFieldChoice | controllers/webann/ann/parser.py:144-169 | the arc range and both ends are always set; rule, rate and topology only when truthy; weights and arcs always for an updated export, otherwise only when the initial ones are non-empty |
| Parser.LinkFieldValues | controllers/webann/ann/parser.py:157-169 | each end is set to its layer's name, and the weights and arcs to the learned ones for an updated export and to the initial ones otherwise |
| Parser.ExportedWeights | controllers/webann/ann/parser.py:156-169 | updated export always writes learned weights and arcs; with no initial ones the plain export writes neither; range and both ends are always written |
| Parser.ExportedTitlesClassify | controllers/webann/ann/parser.py:141-179 | exported layer and link titles are classified back as layer and link sections |
| Text.ParseShowInt | controllers/webann/ann/parser.py:65 | reading back a printed integer gives the integer |

## Left out

- The two sigmoids (layer.py:108-113) need `exp`; they are parameters of the update, not computed.
- `link.py` is a broken stub whose only behaviour is a random weight draw; it is not part of this model. Links are records of their settings, and no arcs are generated from them.
- Quiescent settling, learning rules and back-propagation are not implemented in the source; only the single pass is modelled.
- ConfigParser file syntax, file reading and writing, option-name lower-casing and the DEFAULT section are not modelled; a configuration is a list of titled sections. Python 2's `RawConfigParser` merges sections that repeat a title, and the model reads such a list the same way: the section is listed once and a later value overrides an earlier one.
- `get_float`, `get_array` (which calls `eval`), `_parse_link`, `extract_*`, `parse_execution_order`, `create_ann`, `insert_execution_order` and the file writing in `export` are left out: they are library calls or `eval` on file text.
- The argparse demo in parser.py and the module-level demo at the end of ann.py are not modelled.
- `fill_learning_data.py`, the example scripts, `test.py`, `webann.py` and the `backup/` files are robot I/O, timing and training drivers, not part of this model.
- `Associative.reset_for_training` and `reset_for_testing` first call methods the base `Layer` does not define (ann_modules.py:234,240); the model keeps only their own effects.
- The shared mutable default `execution_order = []` (ann.py:8) is not modelled; every network gets its own order.
- `find_layer` ignores its `layers` argument and reads `self.layers`; the model searches the parsed layer list it is given, which is what every caller passes.
- The `Layer` branch that takes an existing node list (layer.py:41-43) never stores the list; only the integer count is modelled.
- `functools.partial` identity in the function table becomes structural equality of `Step` thresholds.
- Parser.GetInt: Python's `int` also accepts surrounding spaces and a leading `+`; the model reads only an optional minus sign followed by decimal digits, and other text gives the default.
- Parser.InsertLink: values are stored as Python values; their `str` rendering (for ranges, reals and lists) is not modelled, and an error leaves no partial section behind.
- Parser.ReadBack: only `None`, strings and integers are rendered as text.
- Network.SetInputs: when Python raises part-way, the nodes written before the error stay written; the model returns the error and drops the partial store.
- Network.Update: uses the corrected layer update (see Findings), not the as-written pass; its per-layer law assumes each node is owned by one layer and no layer is listed twice, the way layers are built.
- Motifs: Python completes the caller's `Link` object in place, so a link passed as one module's down-link and the next module's up-link is one shared object with both ends set, listed in both modules. The model is value-based: each module lists its own completed copy and the caller's link is unchanged, so the caller threads a completed link into the next module to get both ends (Motifs.ChainedLink), and the first module's copy keeps only its own end.
- Parser.InsertLayer: `add_section` raises `DuplicateSectionError` when two layers share a name, so exporting such a network fails in Python; the model builds each layer's section on its own and does not raise that error.
- Network.InitNodes: when an execution-order name is unknown, Python has already reset `input_nodes` and `output_nodes` to the collected lists and replaced the entries before the failing one when the `KeyError` is raised; the model returns the error and drops that partial state.
- Execution-order entries are layer names or layers; the integer indices the comment at ann.py:38 mentions are not modelled (the code looks them up in the name map, where they would raise `KeyError`).
- Default arguments are not applied on their own: every constructor takes all its arguments, so `activation_function=SIGMOID_LOG` (layer.py:18), `rounds=10` and `initial=(0,1)` (ann_modules.py:29,158) are whatever the caller passes.
- Nodes.Activated: reals stand for Python floats; rounding is not modelled.

## Findings

| source | as written | input that shows it | evidently intended | confidence | as-written member | corrected member |
|---|---|---|---|---|---|---|
| controllers/webann/ann/node.py:53-54 | in the node-by-node pass a same-layer source not yet visited is read at its level from the round before last, so intra-layer arcs are not read simultaneously | one-node linear layer, self-arc of weight 1, level 1 and previous level 0: the update gives 0 | every same-layer source is read at the level it had before the pass, so the self-exciting node stays at 1 and node order does not matter | not executed | Layers.UpdateAsWritten, Layers.SelfLoopLags | Layers.Update, Layers.UpdateReadsSnapshot |
| controllers/webann/ann/ann.py:39-40 | init_nodes overwrites the execution order in place with layer objects, so a second call looks a layer object up in the name map and raises KeyError | any network with at least one layer whose first init succeeded, initialised again | re-initialising keeps the resolved order: layer entries resolve to themselves | not executed | Network.InitNodesAsWritten, Network.ReinitFailsAsWritten | Network.InitNodes, Network.InitIdempotent |

=== FILE: activations.dfy ===
/** The activation-function catalogue of a layer: logistic and hyperbolic
    sigmoids, a threshold step, the identity and the positive-linear ramp.
    The two sigmoids need `exp`, which this model does not interpret: they
    are supplied by the caller as a `Sigmoids` record.
 */
module Activations {
  import opened Results

  /** The integer selector codes accepted by a layer's dispatch. */
  const SIGMOID_LOG: int := 0
  const SIGMOID_TANH: int := 1
  const STEP: int := 2
  const LINEAR: int := 3
  const POS_LINEAR: int := 4

  /** The threshold `step` uses when the caller gives none. */
  const DefaultThreshold: real := 0.5

  /** The closed catalogue; a step function carries its threshold. */
  datatype Activation =
    | SigmoidLog
    | SigmoidTanh
    | Step(threshold: real)
    | Linear
    | PosLinear

  /** The uninterpreted transcendental functions of the catalogue. */
  datatype Sigmoids = Sigmoids(logistic: real -> real, tanh: real -> real)

  /** `step(x, T)`: 1 once the input reaches the threshold, 0 below it. */
  function StepFn(x: real, threshold: real): (r: real)
    ensures r == 0.0 || r == 1.0
    ensures r == 1.0 <==> threshold <= x
  {
    if x < threshold then 0.0 else 1.0
  }

  /** `linear(x)`: the identity. */
  function LinearFn(x: real): real {
    x
  }

  /** `pos_linear(x)`: the ramp max(0, x). */
  function PosLinearFn(x: real): (r: real)
    ensures 0.0 <= r && x <= r
    ensures r == x || r == 0.0
  {
    if x < 0.0 then 0.0 else x
  }

  /** The value the selected function gives for the weighted input `x`. */
  function Apply(f: Activation, sig: Sigmoids, x: real): real {
    match f
    case SigmoidLog => sig.logistic(x)
    case SigmoidTanh => sig.tanh(x)
    case Step(t) => StepFn(x, t)
    case Linear => LinearFn(x)
    case PosLinear => PosLinearFn(x)
  }

  /** The catalogue entry an integer selector names; `step` takes its default
      threshold. */
  function FromCode(code: int): (r: Option<Activation>)
    ensures r.Some? <==> SIGMOID_LOG <= code <= POS_LINEAR
    ensures r.Some? ==> CodeOf(r.value) == code
  {
    if code == SIGMOID_LOG then Some(SigmoidLog)
    else if code == SIGMOID_TANH then Some(SigmoidTanh)
    else if code == STEP then Some(Step(DefaultThreshold))
    else if code == LINEAR then Some(Linear)
    else if code == POS_LINEAR then Some(PosLinear)
    else None
  }

  /** The selector code of a catalogue entry (a step's threshold is dropped). */
  function CodeOf(f: Activation): (code: int)
    ensures SIGMOID_LOG <= code <= POS_LINEAR
  {
    match f
    case SigmoidLog => SIGMOID_LOG
    case SigmoidTanh => SIGMOID_TANH
    case Step(_) => STEP
    case Linear => LINEAR
    case PosLinear => POS_LINEAR
  }

  const InvalidActivation: string := "No valid activation function passed to the layer"

  /** A layer's `activation_function`: tests the selector against each of the
      five codes in turn and raises `ValueError` when none matches. */
  function Dispatch(code: int, sig: Sigmoids, x: real): (r: Result<real>)
    ensures r.Err? <==> FromCode(code).None?
    ensures r.Err? ==> r.error == ValueError(InvalidActivation)
    ensures r.Ok? ==> r.value == Apply(FromCode(code).value, sig, x)
  {
    if code == SIGMOID_LOG then Ok(sig.logistic(x))
    else if code == SIGMOID_TANH then Ok(sig.tanh(x))
    else if code == STEP then Ok(StepFn(x, DefaultThreshold))
    else if code == LINEAR then Ok(LinearFn(x))
    else if code == POS_LINEAR then Ok(PosLinearFn(x))
    else Err(ValueError(InvalidActivation))
  }

  /** Decoding the code of an entry gives the entry back, except that a step
      comes back with the default threshold. */
  lemma CodeRoundTrip(f: Activation)
    ensures FromCode(CodeOf(f)) == Some(if f.Step? then Step(DefaultThreshold) else f)
  {
  }

  /** The step output never decreases as its input grows. */
  lemma StepMonotone(x: real, y: real, threshold: real)
    requires x <= y
    ensures StepFn(x, threshold) <= StepFn(y, threshold)
  {
  }

  /** A step with threshold T is the zero-threshold step of the shifted input. */
  lemma StepShift(x: real, threshold: real)
    ensures StepFn(x, threshold) == StepFn(x - threshold, 0.0)
  {
  }

  /** `linear` passes its input through: it is additive and homogeneous,
      and the dispatch on its code gives the input back. */
  lemma LinearProperties(sig: Sigmoids, x: real, y: real, c: real)
    ensures LinearFn(x) == x
    ensures LinearFn(x + y) == LinearFn(x) + LinearFn(y) && LinearFn(c * x) == c * LinearFn(x)
    ensures Dispatch(LINEAR, sig, x) == Ok(x)
  {
  }

  /** The ramp is idempotent and agrees with the identity on non-negative
      inputs. */
  lemma PosLinearProperties(x: real)
    ensures PosLinearFn(PosLinearFn(x)) == PosLinearFn(x)
    ensures 0.0 <= x ==> PosLinearFn(x) == LinearFn(x)
    ensures x < 0.0 ==> PosLinearFn(x) == 0.0
  {
  }
}

=== FILE: arcs.dfy ===
/** Arc construction and reset (arc.py). */
module Arcs {
  import opened Results
  import opened Graph

  /** `Arc(pre, post, w, link)`: the new arc gets the next index, starts with
      equal current and initial weights, and is appended to the outgoing list
      of `pre` and then to the incoming list of `post`. */
  function NewArc(net: Net, pre: nat, post: nat, weight: real, link: Option<nat>): (r: (Net, nat))
    requires Valid(net) && pre < |net.nodes| && post < |net.nodes|
    ensures var (net', a) := r;
      && a == |net.arcs| && |net'.arcs| == a + 1
      && net'.arcs[..a] == net.arcs
      && net'.arcs[a].pre == pre && net'.arcs[a].post == post && net'.arcs[a].link == link
      && net'.arcs[a].currentWeight == weight
      && net'.arcs[a].initWeight == net'.arcs[a].currentWeight
    ensures var (net', a) := r;
      && Valid(net') && net'.layers == net.layers && |net'.nodes| == |net.nodes|
      && net'.nodes[pre].outgoing == net.nodes[pre].outgoing + [a]
      && net'.nodes[post].incoming == net.nodes[post].incoming + [a]
      && (pre != post ==> net'.nodes[pre].incoming == net.nodes[pre].incoming)
      && (pre != post ==> net'.nodes[post].outgoing == net.nodes[post].outgoing)
    ensures var (net', a) := r;
      forall k :: 0 <= k < |net.nodes| ==>
        && net'.nodes[k].layer == net.nodes[k].layer
        && net'.nodes[k].membranePotential == net.nodes[k].membranePotential
        && net'.nodes[k].activationLevel == net.nodes[k].activationLevel
        && net'.nodes[k].prevActivationLevel == net.nodes[k].prevActivationLevel
        && (k != pre && k != post ==> net'.nodes[k] == net.nodes[k])
  {
    var a := |net.arcs|;
    var nodes1 := net.nodes[pre := net.nodes[pre].(outgoing := net.nodes[pre].outgoing + [a])];
    var nodes2 := nodes1[post := nodes1[post].(incoming := nodes1[post].incoming + [a])];
    (Net(nodes2, net.arcs + [Arc(pre, post, weight, weight, link)], net.layers), a)
  }

  /** A self-arc is registered on its single node in both directions. */
  lemma SelfArc(net: Net, k: nat, weight: real, link: Option<nat>)
    requires Valid(net) && k < |net.nodes|
    ensures var (net', a) := NewArc(net, k, k, weight, link);
      && net'.nodes[k].outgoing == net.nodes[k].outgoing + [a]
      && net'.nodes[k].incoming == net.nodes[k].incoming + [a]
  {
  }

  /** `reset`: the current weight returns to the initial one; the endpoints,
      the owning link and the initial weight are kept. */
  function Reset(arc: Arc): (r: Arc)
    ensures r.currentWeight == arc.initWeight
    ensures r.initWeight == arc.initWeight
    ensures r.pre == arc.pre && r.post == arc.post && r.link == arc.link
  {
    arc.(currentWeight := arc.initWeight)
  }

  /** Resetting twice is resetting once, and a just-built arc is already
      reset, whatever weight it was built with. */
  lemma ResetProperties(net: Net, arc: Arc, pre: nat, post: nat, weight: real, link: Option<nat>)
    requires Valid(net) && pre < |net.nodes| && post < |net.nodes|
    ensures Reset(Reset(arc)) == Reset(arc)
    ensures var (net', a) := NewArc(net, pre, post, weight, link); Reset(net'.arcs[a]) == net'.arcs[a]
  {
  }
}

=== FILE: graph.dfy ===
/** The network's object graph as a flat, index-addressed store. Nodes,
    arcs and layers refer to one another by their position in `Net`, which
    stands for the Python object references of the source.
 */
module Graph {
  import opened Results
  import opened Activations

  /** A unit: its layer, its membrane potential, its activation level with
      exactly one round of history, and the indices of its arcs. */
  datatype Node = Node(
    layer: nat,
    membranePotential: real,
    activationLevel: real,
    prevActivationLevel: real,
    incoming: seq<nat>,
    outgoing: seq<nat>)

  /** A directed, weighted edge between two nodes, remembering the weight it
      started with and the link that owns it. */
  datatype Arc = Arc(
    pre: nat,
    post: nat,
    currentWeight: real,
    initWeight: real,
    link: Option<nat>)

  /** A named group of nodes sharing one activation function. */
  datatype Layer = Layer(
    name: string,
    nodes: seq<nat>,
    activation: Activation,
    ioType: Option<string>,
    entering: seq<nat>,
    exiting: seq<nat>,
    learningMode: bool,
    quiescentMode: bool,
    maxSettling: int,
    active: bool)

  datatype Net = Net(nodes: seq<Node>, arcs: seq<Arc>, layers: seq<Layer>)

  /** Every arc joins two existing nodes. */
  ghost predicate ArcsValid(net: Net) {
    forall a :: 0 <= a < |net.arcs| ==> net.arcs[a].pre < |net.nodes| && net.arcs[a].post < |net.nodes|
  }

  /** Every node belongs to an existing layer and lists existing arcs. */
  ghost predicate NodesValid(net: Net) {
    forall k :: 0 <= k < |net.nodes| ==>
      && net.nodes[k].layer < |net.layers|
      && (forall i :: 0 <= i < |net.nodes[k].incoming| ==> net.nodes[k].incoming[i] < |net.arcs|)
      && (forall i :: 0 <= i < |net.nodes[k].outgoing| ==> net.nodes[k].outgoing[i] < |net.arcs|)
  }

  /** Every layer lists existing nodes. */
  ghost predicate LayersValid(net: Net) {
    forall l :: 0 <= l < |net.layers| ==>
      forall j :: 0 <= j < |net.layers[l].nodes| ==> net.layers[l].nodes[j] < |net.nodes|
  }

  /** All indices in the store point at existing entries. */
  ghost predicate Valid(net: Net) {
    ArcsValid(net) && NodesValid(net) && LayersValid(net)
  }

  /** The nodes of every layer are distinct and name that layer as their
      owner, and every node is listed by the layer it names. */
  ghost predicate Owned(net: Net)
    requires Valid(net)
  {
    && (forall l :: 0 <= l < |net.layers| ==>
         && (forall j :: 0 <= j < |net.layers[l].nodes| ==> net.nodes[net.layers[l].nodes[j]].layer == l)
         && Distinct(net.layers[l].nodes))
    && (forall k :: 0 <= k < |net.nodes| ==> k in net.layers[net.nodes[k].layer].nodes)
  }

  ghost predicate Distinct<T>(s: seq<T>) {
    forall i, j :: 0 <= i < j < |s| ==> s[i] != s[j]
  }

  /** Every index in `ks` names an existing node. */
  ghost predicate NodeIndices(net: Net, ks: seq<nat>) {
    forall i :: 0 <= i < |ks| ==> ks[i] < |net.nodes|
  }

  /** Every index in `ids` names an existing layer. */
  ghost predicate LayerIndices(net: Net, ids: seq<nat>) {
    forall i :: 0 <= i < |ids| ==> ids[i] < |net.layers|
  }

  /** Two nodes with the same layer and arc lists: only levels differ. */
  predicate SameWiring(a: Node, b: Node) {
    a.layer == b.layer && a.incoming == b.incoming && a.outgoing == b.outgoing
  }
}

=== FILE: layers.dfy ===
/** Layer construction and the single-pass layer update (layer.py). */
module Layers {
  import opened Results
  import opened Activations
  import opened Graph
  import opened Nodes

  /** How many nodes `range(count)` yields. */
  function NodeCount(count: int): nat {
    if count < 0 then 0 else count
  }

  /** The store after a layer of `n` fresh nodes is appended. */
  function Appended(net: Net, name: string, n: nat, act: Activation, ioType: Option<string>): Net {
    var l := |net.layers|;
    var base := |net.nodes|;
    var layer := Layer(name, seq(n, j requires 0 <= j < n => base + j), act, ioType, [], [], true, true, 0, true);
    Net(net.nodes + seq(n, j => NewNode(l)), net.arcs, net.layers + [layer])
  }

  lemma AppendedValid(net: Net, name: string, n: nat, act: Activation, ioType: Option<string>)
    requires Valid(net)
    ensures Valid(Appended(net, name, n, act, ioType))
  {
    var net' := Appended(net, name, n, act, ioType);
    assert ArcsValid(net');
    assert LayersValid(net') by {
      forall l | 0 <= l < |net'.layers| ensures forall j :: 0 <= j < |net'.layers[l].nodes| ==> net'.layers[l].nodes[j] < |net'.nodes| {
        if l < |net.layers| {
          assert net'.layers[l] == net.layers[l];
        }
      }
    }
    assert NodesValid(net') by {
      forall k | 0 <= k < |net'.nodes|
        ensures net'.nodes[k].layer < |net'.layers|
        ensures forall i :: 0 <= i < |net'.nodes[k].incoming| ==> net'.nodes[k].incoming[i] < |net'.arcs|
        ensures forall i :: 0 <= i < |net'.nodes[k].outgoing| ==> net'.nodes[k].outgoing[i] < |net'.arcs|
      {
        if k < |net.nodes| {
          assert net'.nodes[k] == net.nodes[k];
        }
      }
    }
  }

  lemma AppendedOwned(net: Net, name: string, n: nat, act: Activation, ioType: Option<string>)
    requires Valid(net)
    ensures Valid(Appended(net, name, n, act, ioType))
    ensures Owned(net) ==> Owned(Appended(net, name, n, act, ioType))
  {
    AppendedValid(net, name, n, act, ioType);
    if !Owned(net) {
      return;
    }
    var net' := Appended(net, name, n, act, ioType);
    var base := |net.nodes|;
    var nl := |net.layers|;
    forall l | 0 <= l < |net'.layers|
      ensures forall j :: 0 <= j < |net'.layers[l].nodes| ==> net'.nodes[net'.layers[l].nodes[j]].layer == l
      ensures Distinct(net'.layers[l].nodes)
    {
      if l < nl {
        assert net'.layers[l] == net.layers[l];
        forall j | 0 <= j < |net'.layers[l].nodes| ensures net'.nodes[net'.layers[l].nodes[j]].layer == l {
          assert net'.nodes[net.layers[l].nodes[j]] == net.nodes[net.layers[l].nodes[j]];
        }
      }
    }
    forall k | 0 <= k < |net'.nodes|
      ensures k in net'.layers[net'.nodes[k].layer].nodes
    {
      if k >= base {
        assert net'.layers[nl].nodes[k - base] == k;
      } else {
        assert net'.nodes[k] == net.nodes[k];
        assert net'.layers[net.nodes[k].layer] == net.layers[net.nodes[k].layer];
      }
    }
  }

  /** `Layer(name, count, activation, io_type)` with an integer node count:
      the layer gets the next layer index and `count` fresh nodes it owns,
      appended to the store; its links lists are empty, it is learning,
      quiescent, active, and allows no settling rounds. */
  function NewLayer(net: Net, name: string, count: int, act: Activation, ioType: Option<string>): (r: (Net, nat))
    requires Valid(net)
    ensures var (net', l) := r;
      && l == |net.layers| && |net'.layers| == l + 1 && net'.layers[..l] == net.layers
      && net'.arcs == net.arcs
      && |net'.nodes| == |net.nodes| + NodeCount(count)
      && net'.nodes[..|net.nodes|] == net.nodes
    ensures var (net', l) := r; var layer := net'.layers[l];
      && layer.name == name && layer.activation == act && layer.ioType == ioType
      && layer.entering == [] && layer.exiting == []
      && layer.learningMode && layer.quiescentMode && layer.maxSettling == 0 && layer.active
      && |layer.nodes| == NodeCount(count)
      && (forall j :: 0 <= j < |layer.nodes| ==>
            layer.nodes[j] == |net.nodes| + j && net'.nodes[layer.nodes[j]] == NewNode(l))
    ensures Valid(r.0)
    ensures Owned(net) ==> Owned(r.0)
  {
    AppendedOwned(net, name, NodeCount(count), act, ioType);
    (Appended(net, name, NodeCount(count), act, ioType), |net.layers|)
  }

  /** One pass of `activate` over the nodes `ks`, in order. Only the levels
      of nodes in `ks` change. */
  function UpdatePass(net: Net, sig: Sigmoids, ks: seq<nat>): (r: Net)
    requires Valid(net) && NodeIndices(net, ks)
    ensures Valid(r) && r.arcs == net.arcs && r.layers == net.layers && |r.nodes| == |net.nodes|
    ensures forall k :: 0 <= k < |net.nodes| ==> SameWiring(r.nodes[k], net.nodes[k])
    ensures forall k :: 0 <= k < |net.nodes| && k !in ks ==> r.nodes[k] == net.nodes[k]
    decreases |ks|
  {
    if |ks| == 0 then net else UpdatePass(Activate(net, sig, ks[0]), sig, ks[1..])
  }

  /** `update` exactly as layer.py runs it: nothing when the layer is
      inactive, otherwise `activate` on each node in node order, each node
      seeing the levels its predecessors in the pass have just written. */
  function UpdateAsWritten(net: Net, sig: Sigmoids, l: nat): (r: Net)
    requires Valid(net) && l < |net.layers|
    ensures Valid(r) && r.arcs == net.arcs && r.layers == net.layers && |r.nodes| == |net.nodes|
    ensures !net.layers[l].active ==> r == net
    ensures forall k :: 0 <= k < |net.nodes| ==> SameWiring(r.nodes[k], net.nodes[k])
    ensures forall k :: 0 <= k < |net.nodes| && k !in net.layers[l].nodes ==> r.nodes[k] == net.nodes[k]
  {
    if !net.layers[l].active then net else UpdatePass(net, sig, net.layers[l].nodes)
  }

  lemma DistinctParts(ks: seq<nat>, j: nat)
    requires Distinct(ks) && j < |ks|
    ensures Distinct(ks[1..]) && Distinct(ks[..j])
    ensures ks[j] !in ks[..j] && ks[0] !in ks[1..]
  {
    forall x, y | 0 <= x < y < |ks[1..]| ensures ks[1..][x] != ks[1..][y] {
      assert ks[1..][x] == ks[x + 1] && ks[1..][y] == ks[y + 1];
    }
    forall x, y | 0 <= x < y < j ensures ks[..j][x] != ks[..j][y] {
      assert ks[..j][x] == ks[x] && ks[..j][y] == ks[y];
    }
    forall x | 0 <= x < j ensures ks[..j][x] != ks[j] {
      assert ks[..j][x] == ks[x];
    }
    forall x | 0 <= x < |ks[1..]| ensures ks[1..][x] != ks[0] {
      assert ks[1..][x] == ks[x + 1];
    }
  }

  /** In a pass over distinct nodes, node `ks[j]` is activated exactly once,
      in the state the first `j` activations of the pass left, and nothing
      later in the pass touches it again. */
  lemma {:induction false} PassVisit(net: Net, sig: Sigmoids, ks: seq<nat>, j: nat)
    requires Valid(net) && NodeIndices(net, ks) && Distinct(ks) && j < |ks|
    ensures UpdatePass(net, sig, ks).nodes[ks[j]] == Activated(UpdatePass(net, sig, ks[..j]), sig, ks[j])
    decreases j
  {
    DistinctParts(ks, j);
    if j == 0 {
      PassVisitFirst(net, sig, ks);
    } else {
      var net1 := Activate(net, sig, ks[0]);
      PassVisit(net1, sig, ks[1..], j - 1);
      PassPrefixStep(net, sig, ks, j);
      assert ks[1..][j - 1] == ks[j];
    }
  }

  lemma PassVisitFirst(net: Net, sig: Sigmoids, ks: seq<nat>)
    requires Valid(net) && NodeIndices(net, ks) && |ks| > 0 && ks[0] !in ks[1..]
    ensures UpdatePass(net, sig, ks).nodes[ks[0]] == Activated(UpdatePass(net, sig, ks[..0]), sig, ks[0])
  {
    var net1 := Activate(net, sig, ks[0]);
    assert UpdatePass(net, sig, ks).nodes[ks[0]] == net1.nodes[ks[0]];
    assert ks[..0] == [];
  }

  /** The first `j` steps of a pass are its first step followed by the next
      `j - 1`. */
  lemma PassPrefixStep(net: Net, sig: Sigmoids, ks: seq<nat>, j: nat)
    requires Valid(net) && NodeIndices(net, ks) && 0 < j <= |ks|
    ensures UpdatePass(net, sig, ks[..j]) == UpdatePass(Activate(net, sig, ks[0]), sig, ks[1..][..j - 1])
  {
    assert ks[..j][1..] == ks[1..][..j - 1];
    assert ks[..j][0] == ks[0];
  }

  /** After a pass over distinct nodes, each of them remembers, as its
      previous level, the level it had before the pass. */
  lemma PassHistory(net: Net, sig: Sigmoids, ks: seq<nat>, j: nat)
    requires Valid(net) && NodeIndices(net, ks) && Distinct(ks) && j < |ks|
    ensures UpdatePass(net, sig, ks).nodes[ks[j]].prevActivationLevel == net.nodes[ks[j]].activationLevel
  {
    PassVisit(net, sig, ks, j);
    DistinctParts(ks, j);
    assert UpdatePass(net, sig, ks[..j]).nodes[ks[j]] == net.nodes[ks[j]];
  }

  /** The level node `ks[i]` reads through arc `a` in a pass over `ks`
      started in `net`: a node of its own layer that the pass has already
      visited is read at the level it had before the pass, one not yet
      visited (itself included) at the level before that; a node of another
      layer is read at its current level. */
  function PassLevel(net: Net, ks: seq<nat>, i: nat, a: nat): real
    requires Valid(net) && NodeIndices(net, ks) && i < |ks| && a < |net.arcs|
  {
    var src := net.arcs[a].pre;
    var n := net.nodes[src];
    if n.layer != net.nodes[ks[i]].layer then n.activationLevel
    else if src in ks[..i] then n.activationLevel
    else n.prevActivationLevel
  }

  /** The weighted sum node `ks[i]` forms in that pass over the arcs `ins`. */
  function PassInput(net: Net, ks: seq<nat>, i: nat, ins: seq<nat>): real
    requires Valid(net) && NodeIndices(net, ks) && i < |ks| && ArcIndices(net, ins)
  {
    if |ins| == 0 then 0.0
    else
      var a := ins[0];
      (if FromActive(net, a) then PassLevel(net, ks, i, a) * net.arcs[a].currentWeight else 0.0)
      + PassInput(net, ks, i, ins[1..])
  }

  /** All nodes of `ks` name one layer. */
  ghost predicate OneLayer(net: Net, ks: seq<nat>)
    requires NodeIndices(net, ks)
  {
    forall i, j :: 0 <= i < |ks| && 0 <= j < |ks| ==> net.nodes[ks[i]].layer == net.nodes[ks[j]].layer
  }

  /** The weighted sum in the state after the first `i` nodes of the pass is
      the sum `PassInput` reads off the starting state. */
  lemma {:induction false} MidPassInput(net: Net, m: Net, ks: seq<nat>, i: nat, ins: seq<nat>)
    requires Valid(net) && Valid(m) && NodeIndices(net, ks) && i < |ks| && ArcIndices(net, ins)
    requires m.arcs == net.arcs && m.layers == net.layers && |m.nodes| == |net.nodes|
    requires forall k :: 0 <= k < |net.nodes| ==> SameWiring(m.nodes[k], net.nodes[k])
    requires forall k :: 0 <= k < |net.nodes| && k !in ks[..i] ==> m.nodes[k] == net.nodes[k]
    requires forall j :: 0 <= j < i ==> m.nodes[ks[j]].prevActivationLevel == net.nodes[ks[j]].activationLevel
    requires OneLayer(net, ks) && ks[i] !in ks[..i]
    ensures WeightedInput(m, ks[i], ins) == PassInput(net, ks, i, ins)
    decreases |ins|
  {
    if |ins| > 0 {
      MidPassInput(net, m, ks, i, ins[1..]);
      var a := ins[0];
      var src := net.arcs[a].pre;
      assert m.nodes[ks[i]] == net.nodes[ks[i]];
      assert m.nodes[src].layer == net.nodes[src].layer;
      if src in ks[..i] {
        var j :| 0 <= j < i && ks[..i][j] == src;
        assert ks[j] == src;
        assert net.nodes[src].layer == net.nodes[ks[i]].layer;
      }
      assert Contribution(m, ks[i], a) ==
        (if FromActive(net, a) then PassLevel(net, ks, i, a) * net.arcs[a].currentWeight else 0.0);
    }
  }

  /** What node `ks[i]` of an active layer computes in the as-written update:
      its potential is `PassInput`, its level the layer's function of it, and
      it remembers the level it had before. */
  lemma UpdateAsWrittenReads(net: Net, sig: Sigmoids, l: nat, i: nat)
    requires Valid(net) && Owned(net) && l < |net.layers| && net.layers[l].active
    requires i < |net.layers[l].nodes|
    ensures var ks := net.layers[l].nodes; var r := UpdateAsWritten(net, sig, l);
      && r.nodes[ks[i]].membranePotential == PassInput(net, ks, i, net.nodes[ks[i]].incoming)
      && r.nodes[ks[i]].activationLevel == Apply(net.layers[l].activation, sig, r.nodes[ks[i]].membranePotential)
      && r.nodes[ks[i]].prevActivationLevel == net.nodes[ks[i]].activationLevel
  {
    var ks := net.layers[l].nodes;
    var m := UpdatePass(net, sig, ks[..i]);
    PassVisit(net, sig, ks, i);
    PassHistory(net, sig, ks, i);
    DistinctParts(ks, i);
    PrefixHistory(net, sig, ks, i);
    LayerIsOneLayer(net, l);
    MidPassInput(net, m, ks, i, net.nodes[ks[i]].incoming);
    assert m.nodes[ks[i]] == net.nodes[ks[i]];
  }

  /** After the first `i` steps of a pass over distinct nodes, each node
      visited so far remembers the level it had before the pass. */
  lemma PrefixHistory(net: Net, sig: Sigmoids, ks: seq<nat>, i: nat)
    requires Valid(net) && NodeIndices(net, ks) && Distinct(ks) && i <= |ks|
    ensures forall j :: 0 <= j < i ==> UpdatePass(net, sig, ks[..i]).nodes[ks[j]].prevActivationLevel == net.nodes[ks[j]].activationLevel
  {
    var pre := ks[..i];
    assert Distinct(pre) by {
      forall x, y | 0 <= x < y < |pre| ensures pre[x] != pre[y] {
        assert pre[x] == ks[x] && pre[y] == ks[y];
      }
    }
    forall j | 0 <= j < i
      ensures UpdatePass(net, sig, pre).nodes[ks[j]].prevActivationLevel == net.nodes[ks[j]].activationLevel
    {
      PassHistory(net, sig, pre, j);
      assert pre[j] == ks[j];
    }
  }

  /** The nodes a layer owns all name that layer. */
  lemma LayerIsOneLayer(net: Net, l: nat)
    requires Valid(net) && Owned(net) && l < |net.layers|
    ensures NodeIndices(net, net.layers[l].nodes) && OneLayer(net, net.layers[l].nodes)
  {
    var ks := net.layers[l].nodes;
    forall x, y | 0 <= x < |ks| && 0 <= y < |ks| ensures net.nodes[ks[x]].layer == net.nodes[ks[y]].layer {
      assert net.nodes[ks[x]].layer == l && net.nodes[ks[y]].layer == l;
    }
  }

  /** Every node of `ks` moves its level into its history slot. */
  function ShiftHistory(net: Net, ks: seq<nat>): (r: Net)
    requires Valid(net)
    ensures Valid(r) && r.arcs == net.arcs && r.layers == net.layers && |r.nodes| == |net.nodes|
    ensures forall k :: 0 <= k < |net.nodes| ==>
      && SameWiring(r.nodes[k], net.nodes[k])
      && r.nodes[k].activationLevel == net.nodes[k].activationLevel
      && r.nodes[k].prevActivationLevel == (if k in ks then net.nodes[k].activationLevel else net.nodes[k].prevActivationLevel)
  {
    net.(nodes := seq(|net.nodes|, k requires 0 <= k < |net.nodes| =>
      if k in ks then net.nodes[k].(prevActivationLevel := net.nodes[k].activationLevel) else net.nodes[k]))
  }

  /** Node `k` recomputed against the shifted state `snap`: its level is
      already in the history slot, so only potential and level are written. */
  function Settle(snap: Net, sig: Sigmoids, k: nat): (r: Node)
    requires Valid(snap) && k < |snap.nodes|
    ensures SameWiring(r, snap.nodes[k])
    ensures r.prevActivationLevel == snap.nodes[k].prevActivationLevel
  {
    var n := snap.nodes[k];
    var potential := WeightedInput(snap, k, n.incoming);
    n.(membranePotential := potential, activationLevel := Apply(snap.layers[n.layer].activation, sig, potential))
  }

  /** `update` with the evident intent of the same-layer rule: the whole
      layer first moves its levels into history, then every node is
      recomputed from that one snapshot, so a node of the same layer is read
      at the level it had before the pass whatever its position. An inactive
      layer is left as it is. */
  function Update(net: Net, sig: Sigmoids, l: nat): (r: Net)
    requires Valid(net) && l < |net.layers|
    ensures Valid(r) && r.arcs == net.arcs && r.layers == net.layers && |r.nodes| == |net.nodes|
    ensures !net.layers[l].active ==> r == net
    ensures forall k :: 0 <= k < |net.nodes| ==> SameWiring(r.nodes[k], net.nodes[k])
    ensures forall k :: 0 <= k < |net.nodes| && k !in net.layers[l].nodes ==> r.nodes[k] == net.nodes[k]
    ensures net.layers[l].active ==> forall k :: 0 <= k < |net.nodes| && k in net.layers[l].nodes ==>
      r.nodes[k].prevActivationLevel == net.nodes[k].activationLevel
  {
    if !net.layers[l].active then net
    else
      var ks := net.layers[l].nodes;
      var snap := ShiftHistory(net, ks);
      var r := net.(nodes := seq(|net.nodes|, k requires 0 <= k < |net.nodes| =>
        if k in ks then Settle(snap, sig, k) else net.nodes[k]));
      assert NodesValid(r) by {
        forall k | 0 <= k < |r.nodes| ensures SameWiring(r.nodes[k], net.nodes[k]) {
        }
      }
      r
  }

  /** The weighted sum over `ins` with every active source read at its
      current level: what a node computes when its whole layer updates at
      once. */
  function SnapshotInput(net: Net, ins: seq<nat>): real
    requires Valid(net) && ArcIndices(net, ins)
  {
    if |ins| == 0 then 0.0 else SnapshotTerm(net, ins[0]) + SnapshotInput(net, ins[1..])
  }

  /** What arc `a` adds to that sum: its source's current level times its
      weight, or nothing when the source layer is inactive. */
  function SnapshotTerm(net: Net, a: nat): real
    requires Valid(net) && a < |net.arcs|
  {
    if FromActive(net, a) then net.nodes[net.arcs[a].pre].activationLevel * net.arcs[a].currentWeight else 0.0
  }

  lemma ShiftedInput(net: Net, l: nat, k: nat, ins: seq<nat>)
    requires Valid(net) && Owned(net) && l < |net.layers| && k < |net.nodes| && net.nodes[k].layer == l
    requires ArcIndices(net, ins)
    ensures WeightedInput(ShiftHistory(net, net.layers[l].nodes), k, ins) == SnapshotInput(net, ins)
  {
    var snap := ShiftHistory(net, net.layers[l].nodes);
    forall i | 0 <= i < |ins|
      ensures Contribution(snap, k, ins[i]) == SnapshotTerm(net, ins[i])
    {
      ShiftedContribution(net, l, k, ins[i]);
    }
    ContributionsSum(net, snap, k, ins);
  }

  /** A state in which every arc of `ins` contributes what `SnapshotInput`
      adds for it yields the snapshot sum. */
  lemma {:induction false} ContributionsSum(net: Net, snap: Net, k: nat, ins: seq<nat>)
    requires Valid(net) && Valid(snap) && snap.arcs == net.arcs && snap.layers == net.layers
    requires k < |snap.nodes| && ArcIndices(net, ins)
    requires forall i :: 0 <= i < |ins| ==> Contribution(snap, k, ins[i]) == SnapshotTerm(net, ins[i])
    ensures WeightedInput(snap, k, ins) == SnapshotInput(net, ins)
    decreases |ins|
  {
    if |ins| > 0 {
      assert forall i :: 0 <= i < |ins[1..]| ==> ins[1..][i] == ins[i + 1];
      ContributionsSum(net, snap, k, ins[1..]);
    }
  }

  /** Against the shifted state one arc contributes its active source's
      current level times its weight. */
  lemma ShiftedContribution(net: Net, l: nat, k: nat, a: nat)
    requires Valid(net) && Owned(net) && l < |net.layers| && k < |net.nodes| && net.nodes[k].layer == l
    requires a < |net.arcs|
    ensures var snap := ShiftHistory(net, net.layers[l].nodes);
      Valid(snap) && Contribution(snap, k, a) == SnapshotTerm(net, a)
  {
    var snap := ShiftHistory(net, net.layers[l].nodes);
    var src := net.arcs[a].pre;
    assert snap.nodes[src].layer == net.nodes[src].layer;
    assert snap.nodes[k].layer == l;
    if net.nodes[src].layer == l {
      assert src in net.layers[l].nodes;
    }
  }

  /** In the corrected update every node of an active layer reads each active
      source at the level it had before the pass, so the outcome does not
      depend on the order of the layer's nodes. */
  lemma UpdateReadsSnapshot(net: Net, sig: Sigmoids, l: nat, k: nat)
    requires Valid(net) && Owned(net) && l < |net.layers| && net.layers[l].active
    requires k in net.layers[l].nodes
    ensures k < |net.nodes|
    ensures Update(net, sig, l).nodes[k].membranePotential == SnapshotInput(net, net.nodes[k].incoming)
    ensures Update(net, sig, l).nodes[k].activationLevel == Apply(net.layers[l].activation, sig, Update(net, sig, l).nodes[k].membranePotential)
    ensures Update(net, sig, l).nodes[k].prevActivationLevel == net.nodes[k].activationLevel
  {
    var i :| 0 <= i < |net.layers[l].nodes| && net.layers[l].nodes[i] == k;
    ShiftedInput(net, l, k, net.nodes[k].incoming);
  }

  /** The sources of the arcs `ins` all lie outside layer `l`. */
  ghost predicate FromOtherLayers(net: Net, l: nat, ins: seq<nat>)
    requires Valid(net) && ArcIndices(net, ins)
  {
    forall i :: 0 <= i < |ins| ==> net.nodes[net.arcs[ins[i]].pre].layer != l
  }

  /** No arc entering a node of layer `l` starts in `l`. */
  ghost predicate FeedForward(net: Net, l: nat)
    requires Valid(net) && l < |net.layers|
  {
    forall j :: 0 <= j < |net.layers[l].nodes| ==>
      FromOtherLayers(net, l, net.nodes[net.layers[l].nodes[j]].incoming)
  }

  lemma {:induction false} PassInputFeedForward(net: Net, ks: seq<nat>, i: nat, ins: seq<nat>)
    requires Valid(net) && NodeIndices(net, ks) && i < |ks| && ArcIndices(net, ins)
    requires FromOtherLayers(net, net.nodes[ks[i]].layer, ins)
    ensures PassInput(net, ks, i, ins) == SnapshotInput(net, ins)
    decreases |ins|
  {
    if |ins| > 0 {
      assert FromOtherLayers(net, net.nodes[ks[i]].layer, ins[1..]) by {
        forall x | 0 <= x < |ins[1..]| ensures net.nodes[net.arcs[ins[1..][x]].pre].layer != net.nodes[ks[i]].layer {
          assert ins[1..][x] == ins[x + 1];
        }
      }
      PassInputFeedForward(net, ks, i, ins[1..]);
    }
  }

  /** On a layer with no arcs from itself the node order cannot matter, and
      the as-written update and the corrected one coincide. */
  lemma FeedForwardAgree(net: Net, sig: Sigmoids, l: nat)
    requires Valid(net) && Owned(net) && l < |net.layers| && FeedForward(net, l)
    ensures UpdateAsWritten(net, sig, l) == Update(net, sig, l)
  {
    if net.layers[l].active {
      var a := UpdateAsWritten(net, sig, l);
      var b := Update(net, sig, l);
      var ks := net.layers[l].nodes;
      forall k | 0 <= k < |net.nodes| ensures a.nodes[k] == b.nodes[k] {
        if k in ks {
          var i :| 0 <= i < |ks| && ks[i] == k;
          UpdateAsWrittenReads(net, sig, l, i);
          UpdateReadsSnapshot(net, sig, l, k);
          PassInputFeedForward(net, ks, i, net.nodes[k].incoming);
        }
      }
      assert a.nodes == b.nodes;
    }
  }

  /** A one-node linear layer whose node excites itself with weight 1, at
      level 1 after a round at level 0. */
  function SelfLoop(): (net: Net)
    ensures Valid(net) && Owned(net)
  {
    Net([Node(0, 0.0, 1.0, 0.0, [0], [0])],
        [Arc(0, 0, 1.0, 1.0, None)],
        [Layer("L", [0], Linear, None, [], [], true, true, 0, true)])
  }

  /** The as-written update lets that node read its own level from the round
      before last and drop to 0, while reading the level it holds keeps it at
      1, as the corrected update does. */
  lemma SelfLoopLags(sig: Sigmoids)
    ensures UpdateAsWritten(SelfLoop(), sig, 0).nodes[0].activationLevel == 0.0
    ensures Update(SelfLoop(), sig, 0).nodes[0].activationLevel == 1.0
  {
    SelfLoopAsWritten(sig);
    SelfLoopCorrected(sig);
  }

  lemma SelfLoopAsWritten(sig: Sigmoids)
    ensures UpdateAsWritten(SelfLoop(), sig, 0).nodes[0].activationLevel == 0.0
  {
    var net := SelfLoop();
    UpdateAsWrittenReads(net, sig, 0, 0);
    assert net.layers[0].nodes == [0] && net.nodes[0].incoming == [0];
    assert PassLevel(net, [0], 0, 0) == 0.0;
    assert PassInput(net, [0], 0, [0]) == 0.0;
  }

  lemma SelfLoopCorrected(sig: Sigmoids)
    ensures Update(SelfLoop(), sig, 0).nodes[0].activationLevel == 1.0
  {
    var net := SelfLoop();
    UpdateReadsSnapshot(net, sig, 0, 0);
    assert net.nodes[0].incoming == [0];
    assert SnapshotTerm(net, 0) == 1.0;
    assert SnapshotInput(net, [0]) == 1.0;
  }
}

=== FILE: links.dfy ===
/** The link record as the modules, the network and the exporter use it:
    the pair of layers it joins and its generation and learning settings.
    Unset attributes are `None`, as on a partial `Link()`.
 */
module Links {
  import opened Results

  datatype Link = Link(
    pre: Option<nat>,
    post: Option<nat>,
    topology: Option<string>,
    arcRange: Option<(real, real)>,
    learningRate: Option<real>,
    learningRule: Option<string>,
    initWeights: Option<seq<real>>,
    initArcs: Option<seq<(int, int)>>,
    weights: seq<real>,
    arcs: seq<(int, int)>)

  /** `Link()`: a partial link with every attribute unset and no arcs. */
  const Partial: Link := Link(None, None, None, None, None, None, None, None, [], [])

  /** The caller's link, or a fresh partial one when the caller gave none. */
  function OrPartial(link: Option<Link>): Link {
    link.GetOr(Partial)
  }

  /** The topology names the modules use. */
  const FULL: string := "full"
  const ONE_TO_ONE: string := "1-1"
  const TRIANGULATE: string := "triangulate"
}

=== FILE: motifs.dfy ===
/** The module motifs (ann_modules.py): layers that come with the links
    around them. Each constructor creates the module's layer and completes
    the links the caller passed (or fresh partial ones): some link fields
    are forced, others are filled in only when the caller left them unset.
 */
module Motifs {
  import opened Results
  import opened Activations
  import opened Graph
  import Layers
  import opened Links

  /** The default arguments of the constructors. */
  const DefaultNeg: real := -1.0
  const DefaultPos: real := 1.0
  const GeneralHebb: string := "general_hebb"
  const InhibitorySuffix: string := "_Inhibitory"

  /** What a module adds to its layer. */
  datatype Parts =
    | Plain
    | Inhibition(neg: real, pos: real, source: Option<nat>, target: Option<nat>)
    | Association(inhibitor: Module)

  /** A module: its own layer, the further layers it owns and its links,
      in the order they were appended. */
  datatype Module = Module(layer: nat, layers: seq<nat>, links: seq<Link>, parts: Parts)

  /** The link with `topology` filled in when it had none. */
  function DefaultTopology(link: Link, topology: string): (r: Link)
    ensures link.topology.Some? ==> r == link
    ensures link.topology.None? ==> r == link.(topology := Some(topology))
  {
    if link.topology.None? then link.(topology := Some(topology)) else link
  }

  /** The link with `range` filled in when it had none. */
  function DefaultRange(link: Link, range: (real, real)): (r: Link)
    ensures link.arcRange.Some? ==> r == link
    ensures link.arcRange.None? ==> r == link.(arcRange := Some(range))
  {
    if link.arcRange.None? then link.(arcRange := Some(range)) else link
  }

  /** The layer `l` with quiescent mode and settling rounds set. */
  function Settling(net: Net, l: nat, quiescent: bool, rounds: int): (r: Net)
    requires l < |net.layers|
    ensures r.nodes == net.nodes && r.arcs == net.arcs && |r.layers| == |net.layers|
    ensures r.layers[l] == net.layers[l].(quiescentMode := quiescent, maxSettling := rounds)
    ensures forall i :: 0 <= i < |net.layers| && i != l ==> r.layers[i] == net.layers[i]
  {
    net.(layers := net.layers[l := net.layers[l].(quiescentMode := quiescent, maxSettling := rounds)])
  }

  lemma SettlingValid(net: Net, l: nat, quiescent: bool, rounds: int)
    requires Valid(net) && l < |net.layers|
    ensures Valid(Settling(net, l, quiescent, rounds))
    ensures Owned(net) ==> Owned(Settling(net, l, quiescent, rounds))
  {
  }

  // Competitive

  /** The competitive module's links: a triangulate self-link with one
      `neg` weight per node, a 1-1 self-link with one `pos` weight per node,
      both without learning, then the up-link into and the down-link out of
      the layer. */
  function CompetitiveLinks(me: nat, count: nat, neg: real, pos: real, up: Option<Link>, down: Option<Link>): (r: seq<Link>)
    ensures |r| == 4
    ensures r[0].pre == Some(me) && r[0].post == Some(me) && r[0].topology == Some(TRIANGULATE)
    ensures r[0].learningRate == Some(0.0) && r[0].initWeights == Some(seq(count, _ => neg))
    ensures r[1].pre == Some(me) && r[1].post == Some(me) && r[1].topology == Some(ONE_TO_ONE)
    ensures r[1].learningRate == Some(0.0) && r[1].initWeights == Some(seq(count, _ => pos))
    ensures r[2] == OrPartial(up).(post := Some(me))
    ensures r[3] == OrPartial(down).(pre := Some(me))
  {
    [ Partial.(pre := Some(me), post := Some(me), topology := Some(TRIANGULATE),
               learningRate := Some(0.0), initWeights := Some(seq(count, _ => neg))),
      Partial.(pre := Some(me), post := Some(me), topology := Some(ONE_TO_ONE),
               learningRate := Some(0.0), initWeights := Some(seq(count, _ => pos))),
      OrPartial(up).(post := Some(me)),
      OrPartial(down).(pre := Some(me)) ]
  }

  /** `Competitive(name, nodes, ...)`: a layer of `count` nodes, linear
      unless the caller chose an activation, in quiescent mode with `rounds`
      settling rounds, and its four links. */
  function NewCompetitive(net: Net, name: string, count: int, act: Option<Activation>, neg: real, pos: real,
                          up: Option<Link>, down: Option<Link>, rounds: int): (r: (Net, Module))
    requires Valid(net)
    ensures var (net', m) := r;
      && m.layer == |net.layers| && |net'.layers| == |net.layers| + 1 && net'.layers[..m.layer] == net.layers
      && net'.arcs == net.arcs && |net.nodes| <= |net'.nodes| && net'.nodes[..|net.nodes|] == net.nodes
    ensures var (net', m) := r; var layer := net'.layers[m.layer];
      && layer.name == name && layer.activation == act.GetOr(Linear) && layer.ioType.None?
      && |layer.nodes| == Layers.NodeCount(count)
      && layer.quiescentMode && layer.maxSettling == rounds && layer.active
    ensures var (net', m) := r;
      && m.layers == [] && m.parts == Plain
      && m.links == CompetitiveLinks(m.layer, Layers.NodeCount(count), neg, pos, up, down)
    ensures Valid(r.0) && (Owned(net) ==> Owned(r.0))
  {
    var (net1, me) := Layers.NewLayer(net, name, count, act.GetOr(Linear), None);
    SettlingValid(net1, me, true, rounds);
    (Settling(net1, me, true, rounds),
     Module(me, [], CompetitiveLinks(me, Layers.NodeCount(count), neg, pos, up, down), Plain))
  }

  /** Every link of a competitive module touches its layer, the self-links
      at both ends. */
  lemma CompetitiveLinksTouch(me: nat, count: nat, neg: real, pos: real, up: Option<Link>, down: Option<Link>)
    ensures var links := CompetitiveLinks(me, count, neg, pos, up, down);
      forall i :: 0 <= i < |links| ==> links[i].pre == Some(me) || links[i].post == Some(me)
    ensures var links := CompetitiveLinks(me, count, neg, pos, up, down);
      forall i :: 0 <= i < 2 ==> links[i].learningRate == Some(0.0) && |links[i].initWeights.value| == count
  {
  }

  // Inhibitory

  /** The inhibitor's up-link: into the inhibitor, "full" unless the caller
      chose a topology, never learning, every arc at weight `pos`. */
  function InhibitoryUp(up: Option<Link>, me: nat, pos: real): (r: Link)
    ensures r.post == Some(me) && r.learningRate == Some(0.0) && r.arcRange == Some((pos, pos))
    ensures r.topology == (if up.Some? && up.value.topology.Some? then up.value.topology else Some(FULL))
    ensures r.pre == OrPartial(up).pre && r.learningRule == OrPartial(up).learningRule
    ensures r.weights == OrPartial(up).weights && r.arcs == OrPartial(up).arcs
  {
    DefaultTopology(OrPartial(up).(post := Some(me)), FULL).(learningRate := Some(0.0), arcRange := Some((pos, pos)))
  }

  /** The inhibitor's down-link: out of the inhibitor, "full" unless the
      caller chose a topology, never learning, every arc at weight `neg`. */
  function InhibitoryDown(down: Option<Link>, me: nat, neg: real): (r: Link)
    ensures r.pre == Some(me) && r.learningRate == Some(0.0) && r.arcRange == Some((neg, neg))
    ensures r.topology == (if down.Some? && down.value.topology.Some? then down.value.topology else Some(FULL))
    ensures r.post == OrPartial(down).post && r.learningRule == OrPartial(down).learningRule
    ensures r.weights == OrPartial(down).weights && r.arcs == OrPartial(down).arcs
  {
    DefaultTopology(OrPartial(down).(pre := Some(me)), FULL).(learningRate := Some(0.0), arcRange := Some((neg, neg)))
  }

  /** `Inhibitory(name, ...)`: a single linear node (unless the caller chose
      an activation) that remembers the layer feeding its up-link and the
      layer its down-link inhibits, with its up-link then its down-link. */
  function NewInhibitory(net: Net, name: string, act: Option<Activation>, neg: real, pos: real,
                         up: Option<Link>, down: Option<Link>): (r: (Net, Module))
    requires Valid(net)
    ensures var (net', m) := r;
      && m.layer == |net.layers| && |net'.layers| == |net.layers| + 1 && net'.layers[..m.layer] == net.layers
      && net'.arcs == net.arcs && |net.nodes| <= |net'.nodes| && net'.nodes[..|net.nodes|] == net.nodes
    ensures var (net', m) := r; var layer := net'.layers[m.layer];
      && layer.name == name && layer.activation == act.GetOr(Linear) && |layer.nodes| == 1
      && layer.active && layer.quiescentMode && layer.maxSettling == 0
    ensures var (net', m) := r;
      && m.layers == [] && m.links == [InhibitoryUp(up, m.layer, pos), InhibitoryDown(down, m.layer, neg)]
      && m.parts == Inhibition(neg, pos, OrPartial(up).pre, OrPartial(down).post)
    ensures Valid(r.0) && (Owned(net) ==> Owned(r.0))
  {
    var (net1, me) := Layers.NewLayer(net, name, 1, act.GetOr(Linear), None);
    (net1, Module(me, [], [InhibitoryUp(up, me, pos), InhibitoryDown(down, me, neg)],
                  Inhibition(neg, pos, OrPartial(up).pre, OrPartial(down).post)))
  }

  // Associative

  /** The associative layer's self-link: full, plastic at `rate` under
      `rule` (general Hebbian by default), initial weights drawn from
      `initial`. */
  function AssociativeSelf(me: nat, rate: real, rule: Option<string>, initial: (real, real)): (r: Link)
    ensures r.pre == Some(me) && r.post == Some(me) && r.topology == Some(FULL)
    ensures r.learningRate == Some(rate) && r.arcRange == Some(initial)
    ensures r.learningRule == Some(rule.GetOr(GeneralHebb))
  {
    Partial.(pre := Some(me), post := Some(me), topology := Some(FULL), learningRate := Some(rate),
             learningRule := Some(rule.GetOr(GeneralHebb)), arcRange := Some(initial))
  }

  /** The associative up-link: into the layer, 1-1 unless the caller chose a
      topology, otherwise as the caller left it. */
  function AssociativeUp(up: Option<Link>, me: nat): (r: Link)
    ensures r.post == Some(me)
    ensures r.topology == (if up.Some? && up.value.topology.Some? then up.value.topology else Some(ONE_TO_ONE))
    ensures r.(post := OrPartial(up).post, topology := OrPartial(up).topology) == OrPartial(up)
  {
    DefaultTopology(OrPartial(up).(post := Some(me)), ONE_TO_ONE)
  }

  /** The associative down-link: out of the layer, 1-1 unless the caller
      chose a topology, never learning, weights in (1, 1) unless the caller
      chose a range. */
  function AssociativeDown(down: Option<Link>, me: nat): (r: Link)
    ensures r.pre == Some(me) && r.learningRate == Some(0.0)
    ensures r.topology == (if down.Some? && down.value.topology.Some? then down.value.topology else Some(ONE_TO_ONE))
    ensures r.arcRange == (if down.Some? && down.value.arcRange.Some? then down.value.arcRange else Some((1.0, 1.0)))
    ensures r.post == OrPartial(down).post && r.weights == OrPartial(down).weights
  {
    DefaultRange(DefaultTopology(OrPartial(down).(pre := Some(me)), ONE_TO_ONE).(learningRate := Some(0.0)), (1.0, 1.0))
  }

  /** `Associative(name, nodes, rate, ...)`: a step layer (unless the caller
      chose an activation) with `rounds` settling rounds; its links are the
      self-link, the up-link and the down-link, in that order; it owns an
      inhibitor named after it, fed by `upInhibitory` and inhibiting the
      associative layer. */
  function NewAssociative(net: Net, name: string, count: int, rate: real, act: Option<Activation>,
                          rule: Option<string>, initial: (real, real), up: Option<Link>, down: Option<Link>,
                          upInhibitory: Option<Link>, rounds: int): (r: (Net, Module))
    requires Valid(net)
    ensures var (net', m) := r;
      && m.layer == |net.layers| && |net'.layers| == |net.layers| + 2 && net'.layers[..m.layer] == net.layers
      && net'.arcs == net.arcs && |net.nodes| <= |net'.nodes| && net'.nodes[..|net.nodes|] == net.nodes
    ensures var (net', m) := r; var layer := net'.layers[m.layer];
      && layer.name == name && layer.activation == act.GetOr(Step(DefaultThreshold))
      && |layer.nodes| == Layers.NodeCount(count)
      && layer.quiescentMode && layer.maxSettling == rounds && layer.active
    ensures var (net', m) := r;
      && m.links == [AssociativeSelf(m.layer, rate, rule, initial), AssociativeUp(up, m.layer), AssociativeDown(down, m.layer)]
      && m.parts.Association?
      && m.layers == [m.parts.inhibitor.layer]
    ensures var (net', m) := r; var inh := m.parts.inhibitor;
      && inh.layer == m.layer + 1
      && net'.layers[inh.layer].name == name + InhibitorySuffix
      && net'.layers[inh.layer].activation == Linear
      && |net'.layers[inh.layer].nodes| == 1
      && inh.parts == Inhibition(DefaultNeg, DefaultPos, OrPartial(upInhibitory).pre, Some(m.layer))
      && |inh.links| == 2 && inh.links[1].pre == Some(inh.layer) && inh.links[1].post == Some(m.layer)
    ensures Valid(r.0) && (Owned(net) ==> Owned(r.0))
  {
    var (net1, me) := Layers.NewLayer(net, name, count, act.GetOr(Step(DefaultThreshold)), None);
    var downInhibitory := Partial.(post := Some(me));
    var (net2, inhibitor) :=
      NewInhibitory(net1, name + InhibitorySuffix, None, DefaultNeg, DefaultPos, upInhibitory, Some(downInhibitory));
    assert net2.layers[me] == net1.layers[me];
    SettlingValid(net2, me, true, rounds);
    (Settling(net2, me, true, rounds),
     Module(me, [inhibitor.layer], [AssociativeSelf(me, rate, rule, initial), AssociativeUp(up, me), AssociativeDown(down, me)],
            Association(inhibitor)))
  }

  /** `reset_for_training`: the inhibitor stops and the layer leaves
      quiescent mode; nothing else changes. */
  function ResetForTraining(net: Net, m: Module): (r: Net)
    requires m.parts.Association? && m.layer < |net.layers| && m.parts.inhibitor.layer < |net.layers|
    requires m.layer != m.parts.inhibitor.layer
    ensures r.nodes == net.nodes && r.arcs == net.arcs && |r.layers| == |net.layers|
    ensures !r.layers[m.parts.inhibitor.layer].active && !r.layers[m.layer].quiescentMode
    ensures r.layers[m.parts.inhibitor.layer] == net.layers[m.parts.inhibitor.layer].(active := false)
    ensures r.layers[m.layer] == net.layers[m.layer].(quiescentMode := false)
    ensures forall i :: 0 <= i < |net.layers| && i != m.layer && i != m.parts.inhibitor.layer ==> r.layers[i] == net.layers[i]
  {
    var h := m.parts.inhibitor.layer;
    var net1 := net.(layers := net.layers[h := net.layers[h].(active := false)]);
    net1.(layers := net1.layers[m.layer := net1.layers[m.layer].(quiescentMode := false)])
  }

  /** `reset_for_testing`: the inhibitor runs again and the layer returns to
      quiescent mode; nothing else changes. */
  function ResetForTesting(net: Net, m: Module): (r: Net)
    requires m.parts.Association? && m.layer < |net.layers| && m.parts.inhibitor.layer < |net.layers|
    requires m.layer != m.parts.inhibitor.layer
    ensures r.nodes == net.nodes && r.arcs == net.arcs && |r.layers| == |net.layers|
    ensures r.layers[m.parts.inhibitor.layer].active && r.layers[m.layer].quiescentMode
    ensures r.layers[m.parts.inhibitor.layer] == net.layers[m.parts.inhibitor.layer].(active := true)
    ensures r.layers[m.layer] == net.layers[m.layer].(quiescentMode := true)
    ensures forall i :: 0 <= i < |net.layers| && i != m.layer && i != m.parts.inhibitor.layer ==> r.layers[i] == net.layers[i]
  {
    var h := m.parts.inhibitor.layer;
    var net1 := net.(layers := net.layers[h := net.layers[h].(active := true)]);
    net1.(layers := net1.layers[m.layer := net1.layers[m.layer].(quiescentMode := true)])
  }

  /** Training then testing gives back a freshly built associative module's
      network: the two resets undo each other. */
  lemma TestingUndoesTraining(net: Net, name: string, count: int, rate: real, act: Option<Activation>,
                              rule: Option<string>, initial: (real, real), up: Option<Link>, down: Option<Link>,
                              upInhibitory: Option<Link>, rounds: int)
    requires Valid(net)
    ensures var (net', m) := NewAssociative(net, name, count, rate, act, rule, initial, up, down, upInhibitory, rounds);
      ResetForTesting(ResetForTraining(net', m), m) == net'
  {
    var (net', m) := NewAssociative(net, name, count, rate, act, rule, initial, up, down, upInhibitory, rounds);
    var back := ResetForTesting(ResetForTraining(net', m), m);
    assert back.layers == net'.layers by {
      forall i | 0 <= i < |net'.layers| ensures back.layers[i] == net'.layers[i] {
      }
    }
  }

  /** Each reset is idempotent, and the later of two resets decides the
      module's mode. */
  lemma ResetsIdempotent(net: Net, m: Module)
    requires m.parts.Association? && m.layer < |net.layers| && m.parts.inhibitor.layer < |net.layers|
    requires m.layer != m.parts.inhibitor.layer
    ensures ResetForTraining(ResetForTraining(net, m), m) == ResetForTraining(net, m)
    ensures ResetForTesting(ResetForTesting(net, m), m) == ResetForTesting(net, m)
    ensures ResetForTraining(ResetForTesting(net, m), m) == ResetForTraining(net, m)
    ensures ResetForTesting(ResetForTraining(net, m), m) == ResetForTesting(net, m)
  {
    var h := m.parts.inhibitor.layer;
    assert ResetForTraining(ResetForTraining(net, m), m).layers == ResetForTraining(net, m).layers;
    assert ResetForTesting(ResetForTesting(net, m), m).layers == ResetForTesting(net, m).layers;
    assert ResetForTraining(ResetForTesting(net, m), m).layers == ResetForTraining(net, m).layers;
    assert ResetForTesting(ResetForTraining(net, m), m).layers == ResetForTesting(net, m).layers;
  }

  // Transformer

  /** The transformer's up-link: into the layer, always 1-1 whatever the
      caller chose, never learning, weights in (1, 1) unless the caller
      chose a range. */
  function TransformerUp(up: Option<Link>, me: nat): (r: Link)
    ensures r.post == Some(me) && r.topology == Some(ONE_TO_ONE) && r.learningRate == Some(0.0)
    ensures r.arcRange == (if up.Some? && up.value.arcRange.Some? then up.value.arcRange else Some((1.0, 1.0)))
    ensures r.pre == OrPartial(up).pre && r.learningRule == OrPartial(up).learningRule
  {
    DefaultRange(OrPartial(up).(post := Some(me), topology := Some(ONE_TO_ONE), learningRate := Some(0.0)), (1.0, 1.0))
  }

  /** `Transformer(name, nodes, activation, ...)`: a layer with the caller's
      activation, its up-link then its down-link out of the layer. */
  function NewTransformer(net: Net, name: string, count: int, act: Activation,
                          up: Option<Link>, down: Option<Link>): (r: (Net, Module))
    requires Valid(net)
    ensures var (net', m) := r;
      && m.layer == |net.layers| && |net'.layers| == |net.layers| + 1 && net'.layers[..m.layer] == net.layers
      && net'.arcs == net.arcs && |net.nodes| <= |net'.nodes| && net'.nodes[..|net.nodes|] == net.nodes
    ensures var (net', m) := r; var layer := net'.layers[m.layer];
      && layer.name == name && layer.activation == act && |layer.nodes| == Layers.NodeCount(count)
      && layer.active && layer.quiescentMode && layer.maxSettling == 0
    ensures var (net', m) := r;
      && m.layers == [] && m.parts == Plain
      && m.links == [TransformerUp(up, m.layer), OrPartial(down).(pre := Some(m.layer))]
    ensures Valid(r.0) && (Owned(net) ==> Owned(r.0))
  {
    var (net1, me) := Layers.NewLayer(net, name, count, act, None);
    (net1, Module(me, [], [TransformerUp(up, me), OrPartial(down).(pre := Some(me))], Plain))
  }

  /** Completing a link a second time changes nothing: each completion rule
      is idempotent. */
  lemma CompletionsIdempotent(up: Link, down: Link, me: nat, neg: real, pos: real)
    ensures InhibitoryUp(Some(InhibitoryUp(Some(up), me, pos)), me, pos) == InhibitoryUp(Some(up), me, pos)
    ensures InhibitoryDown(Some(InhibitoryDown(Some(down), me, neg)), me, neg) == InhibitoryDown(Some(down), me, neg)
    ensures AssociativeUp(Some(AssociativeUp(Some(up), me)), me) == AssociativeUp(Some(up), me)
    ensures AssociativeDown(Some(AssociativeDown(Some(down), me)), me) == AssociativeDown(Some(down), me)
    ensures TransformerUp(Some(TransformerUp(Some(up), me)), me) == TransformerUp(Some(up), me)
  {
  }

  /** Threading one link from module `a`, as its down-link, into module
      `b`, as its up-link, gives the link with both ends set: `a`'s
      completion sets the source and `b`'s the target, and `b` keeps the
      fields `a` forced. */
  lemma ChainedLink(link: Link, a: nat, b: nat, pos: real)
    ensures var l := AssociativeUp(Some(AssociativeDown(Some(link), a)), b);
      l.pre == Some(a) && l.post == Some(b) && l.learningRate == Some(0.0)
    ensures var l := TransformerUp(Some(OrPartial(Some(link)).(pre := Some(a))), b);
      l.pre == Some(a) && l.post == Some(b) && l.topology == Some(ONE_TO_ONE)
    ensures var l := InhibitoryUp(Some(AssociativeDown(Some(link), a)), b, pos);
      l.pre == Some(a) && l.post == Some(b) && l.arcRange == Some((pos, pos))
  {
  }

  /** The inhibitory and associative modules keep a topology the caller
      chose; the transformer replaces it with 1-1. */
  lemma CallerTopology(up: Link, me: nat, pos: real, t: string)
    requires up.topology == Some(t)
    ensures InhibitoryUp(Some(up), me, pos).topology == Some(t)
    ensures AssociativeUp(Some(up), me).topology == Some(t)
    ensures TransformerUp(Some(up), me).topology == Some(ONE_TO_ONE)
  {
  }
}

=== FILE: network.dfy ===
/** The network object (ann.py): resolving the execution order, collecting
    the input and output nodes, updating every layer, and binding inputs
    and reading outputs by position.
 */
module Network {
  import opened Results
  import opened Activations
  import opened Graph
  import opened Nodes
  import Layers
  import opened Links
  import Text

  /** An execution-order entry: a layer name as the caller supplies it, or a
      layer itself, which is what `init_nodes` writes back. */
  datatype OrderEntry = ByName(name: string) | ByLayer(layer: nat)

  datatype Ann = Ann(
    layers: seq<nat>,
    links: seq<Link>,
    executionOrder: seq<OrderEntry>,
    inputNodes: Option<seq<nat>>,
    outputNodes: Option<seq<nat>>)

  /** `Ann(layers, links, execution_order)`; the node lists do not exist
      until `init_nodes` creates them. */
  function NewAnn(layers: seq<nat>, links: seq<Link>, order: seq<OrderEntry>): Ann {
    Ann(layers, links, order, None, None)
  }

  /** Every index the network holds points into `net`. */
  ghost predicate Fits(net: Net, ann: Ann) {
    && LayerIndices(net, ann.layers)
    && (ann.inputNodes.Some? ==> NodeIndices(net, ann.inputNodes.value))
    && (ann.outputNodes.Some? ==> NodeIndices(net, ann.outputNodes.value))
  }

  /** The `i`-th layer of `ids` is the last one carrying its name. */
  ghost predicate LastNamed(net: Net, ids: seq<nat>, i: nat)
    requires LayerIndices(net, ids) && i < |ids|
  {
    forall j :: i < j < |ids| ==> net.layers[ids[j]].name != net.layers[ids[i]].name
  }

  /** `layers_map`: each layer under its exact name. */
  function NameMap(net: Net, ids: seq<nat>): (m: map<string, nat>)
    requires LayerIndices(net, ids)
    ensures forall n :: n in m ==> m[n] in ids && net.layers[m[n]].name == n
    ensures forall i :: 0 <= i < |ids| ==> net.layers[ids[i]].name in m
    decreases |ids|
  {
    if |ids| == 0 then map[]
    else
      var front := ids[..|ids| - 1];
      var last := ids[|ids| - 1];
      assert forall i :: 0 <= i < |front| ==> front[i] == ids[i];
      NameMap(net, front)[net.layers[last].name := last]
  }

  /** When two layers share a name the later one wins. */
  lemma {:induction false} NameMapLastWins(net: Net, ids: seq<nat>, i: nat)
    requires LayerIndices(net, ids) && i < |ids| && LastNamed(net, ids, i)
    ensures NameMap(net, ids)[net.layers[ids[i]].name] == ids[i]
    decreases |ids|
  {
    if i < |ids| - 1 {
      var front := ids[..|ids| - 1];
      assert front[i] == ids[i];
      assert LastNamed(net, front, i) by {
        forall j | i < j < |front| ensures net.layers[front[j]].name != net.layers[front[i]].name {
          assert front[j] == ids[j];
        }
      }
      NameMapLastWins(net, front, i);
      assert net.layers[ids[|ids| - 1]].name != net.layers[ids[i]].name;
    }
  }

  /** The layer's declared role, lower-cased, is `tag`. */
  predicate Tagged(layer: Layer, tag: string) {
    layer.ioType.Some? && Text.Lower(layer.ioType.value) == tag
  }

  /** The nodes of the layers of `ids` whose role is `tag`, concatenated in
      layer order; an untagged layer contributes nothing. */
  function TaggedNodes(net: Net, ids: seq<nat>, tag: string): (r: seq<nat>)
    requires Valid(net) && LayerIndices(net, ids)
    ensures NodeIndices(net, r)
    ensures forall k :: k in r <==>
      exists i :: 0 <= i < |ids| && Tagged(net.layers[ids[i]], tag) && k in net.layers[ids[i]].nodes
    decreases |ids|
  {
    if |ids| == 0 then []
    else
      var own := if Tagged(net.layers[ids[0]], tag) then net.layers[ids[0]].nodes else [];
      var rest := TaggedNodes(net, ids[1..], tag);
      assert forall i :: 0 < i < |ids| ==> ids[1..][i - 1] == ids[i];
      assert forall k :: k in rest ==> exists i :: 0 <= i < |ids| && Tagged(net.layers[ids[i]], tag) && k in net.layers[ids[i]].nodes by {
        forall k | k in rest ensures exists i :: 0 <= i < |ids| && Tagged(net.layers[ids[i]], tag) && k in net.layers[ids[i]].nodes {
          var i :| 0 <= i < |ids[1..]| && Tagged(net.layers[ids[1..][i]], tag) && k in net.layers[ids[1..][i]].nodes;
          assert ids[1..][i] == ids[i + 1];
        }
      }
      own + rest
  }

  /** A single layer contributes its whole node list, in its own order and
      with its own repetitions, exactly when it carries the role. */
  lemma TaggedNodesSingle(net: Net, l: nat, tag: string)
    requires Valid(net) && l < |net.layers|
    ensures LayerIndices(net, [l])
    ensures TaggedNodes(net, [l], tag) == if Tagged(net.layers[l], tag) then net.layers[l].nodes else []
  {
    assert [l][0] == l && [l][1..] == [];
  }

  /** Collecting over two runs of layers is collecting over each in turn. */
  lemma {:induction false} TaggedNodesAppend(net: Net, ids1: seq<nat>, ids2: seq<nat>, tag: string)
    requires Valid(net) && LayerIndices(net, ids1) && LayerIndices(net, ids2)
    ensures LayerIndices(net, ids1 + ids2)
    ensures TaggedNodes(net, ids1 + ids2, tag) == TaggedNodes(net, ids1, tag) + TaggedNodes(net, ids2, tag)
    decreases |ids1|
  {
    if |ids1| == 0 {
      assert ids1 + ids2 == ids2;
    } else {
      assert (ids1 + ids2)[0] == ids1[0];
      assert (ids1 + ids2)[1..] == ids1[1..] + ids2;
      TaggedNodesAppend(net, ids1[1..], ids2, tag);
    }
  }

  /** The layer an entry names: through the name map for a name; a layer
      entry is its own layer, unless `asWritten`, where looking a layer up
      in a map keyed by names raises `KeyError`. */
  function ResolveEntry(m: map<string, nat>, e: OrderEntry, asWritten: bool): (r: Result<nat>)
    ensures e.ByName? ==> (r.Ok? <==> e.name in m)
    ensures e.ByName? && r.Ok? ==> r.value == m[e.name]
    ensures e.ByName? && r.Err? ==> r.error == KeyError(e.name)
    ensures e.ByLayer? ==> r == (if asWritten then Err(LayerKeyError(e.layer)) else Ok(e.layer))
  {
    match e
    case ByName(n) => if n in m then Ok(m[n]) else Err(KeyError(n))
    case ByLayer(l) => if asWritten then Err(LayerKeyError(l)) else Ok(l)
  }

  /** Replacing each entry of the execution order by its layer, in place,
      stopping at the first entry that raises. */
  function ResolveOrder(m: map<string, nat>, order: seq<OrderEntry>, asWritten: bool): (r: Result<seq<nat>>)
    ensures r.Ok? <==> forall i :: 0 <= i < |order| ==> ResolveEntry(m, order[i], asWritten).Ok?
    ensures r.Ok? ==> |r.value| == |order|
    ensures r.Ok? ==> forall i :: 0 <= i < |order| ==> r.value[i] == ResolveEntry(m, order[i], asWritten).value
    ensures r.Err? ==> exists i :: FirstFailure(m, order, asWritten, i, r.error)
    decreases |order|
  {
    if |order| == 0 then Ok([])
    else
      match ResolveEntry(m, order[0], asWritten)
      case Err(e) =>
        assert FirstFailure(m, order, asWritten, 0, e);
        Err(e)
      case Ok(head) =>
        var tail := ResolveOrder(m, order[1..], asWritten);
        assert forall i :: 0 < i < |order| ==> order[1..][i - 1] == order[i];
        match tail
        case Err(e) =>
          FailureShift(m, order, asWritten, e);
          Err(e)
        case Ok(rest) => Ok([head] + rest)
  }

  /** Entry `i` is the first entry of `order` that fails, and it raised `e`. */
  predicate FirstFailure(m: map<string, nat>, order: seq<OrderEntry>, asWritten: bool, i: int, e: Exception) {
    && 0 <= i < |order|
    && ResolveEntry(m, order[i], asWritten) == Err(e)
    && forall j :: 0 <= j < i ==> ResolveEntry(m, order[j], asWritten).Ok?
  }

  /** A first failure of the tail, behind an entry that resolves, is the
      first failure of the whole order. */
  lemma FailureShift(m: map<string, nat>, order: seq<OrderEntry>, asWritten: bool, e: Exception)
    requires |order| > 0 && ResolveEntry(m, order[0], asWritten).Ok?
    requires exists i :: FirstFailure(m, order[1..], asWritten, i, e)
    ensures exists i :: FirstFailure(m, order, asWritten, i, e)
  {
    var i :| FirstFailure(m, order[1..], asWritten, i, e);
    forall j | 0 <= j < i + 1 ensures ResolveEntry(m, order[j], asWritten).Ok? {
      if j > 0 {
        assert order[j] == order[1..][j - 1];
      }
    }
    assert FirstFailure(m, order, asWritten, i + 1, e);
  }

  /** The layers of `layers` missing from `order`, in layer order. */
  function Missing(layers: seq<nat>, order: seq<nat>): (r: seq<nat>)
    ensures forall x :: x in r <==> x in layers && x !in order
    ensures |r| <= |layers|
    decreases |layers|
  {
    if |layers| == 0 then []
    else (if layers[0] in order then [] else [layers[0]]) + Missing(layers[1..], order)
  }

  /** Filtering two runs of layers is filtering each in turn, so the missing
      layers keep the order of the layer list. */
  lemma {:induction false} MissingAppend(a: seq<nat>, b: seq<nat>, order: seq<nat>)
    ensures Missing(a + b, order) == Missing(a, order) + Missing(b, order)
    decreases |a|
  {
    if |a| == 0 {
      assert a + b == b;
    } else {
      var t := a[1..];
      var h := if a[0] in order then [] else [a[0]];
      assert a == [a[0]] + t && a + b == [a[0]] + (t + b);
      calc {
        Missing(a + b, order);
      == { MissingCons(a[0], t + b, order); }
        h + Missing(t + b, order);
      == { MissingAppend(t, b, order); }
        h + (Missing(t, order) + Missing(b, order));
      == (h + Missing(t, order)) + Missing(b, order);
      == { MissingCons(a[0], t, order); }
        Missing(a, order) + Missing(b, order);
      }
    }
  }

  /** Filtering a layer in front of a run is filtering it, then the run. */
  lemma MissingCons(x: nat, s: seq<nat>, order: seq<nat>)
    ensures Missing([x] + s, order) == (if x in order then [] else [x]) + Missing(s, order)
  {
    assert ([x] + s)[0] == x && ([x] + s)[1..] == s;
  }

  /** A single layer is missing exactly when the order lacks it. */
  lemma MissingSingle(x: nat, order: seq<nat>)
    ensures Missing([x], order) == if x in order then [] else [x]
  {
    assert [x][1..] == [];
  }

  /** Completing the resolved order: when it is shorter than the layer list,
      the missing layers follow it in layer order. */
  function Complete(order: seq<nat>, layers: seq<nat>): (r: seq<nat>)
    ensures |order| <= |r| && r[..|order|] == order
    ensures |order| < |layers| ==> r[|order|..] == Missing(layers, order)
    ensures |order| >= |layers| ==> r == order
    ensures forall x :: x in r ==> x in order || x in layers
    ensures |order| < |layers| ==> forall x :: x in layers ==> x in r
  {
    if |order| < |layers| then order + Missing(layers, order) else order
  }

  function AsEntries(ids: seq<nat>): (r: seq<OrderEntry>)
    ensures |r| == |ids| && forall i :: 0 <= i < |ids| ==> r[i] == ByLayer(ids[i])
  {
    seq(|ids|, i requires 0 <= i < |ids| => ByLayer(ids[i]))
  }

  /** `final` holds, entry by entry, the layers the entries of `order`
      resolve to, all as layer entries; when `order` is shorter than
      `layers`, every layer follows, otherwise nothing does. */
  ghost predicate ResolvedOrder(m: map<string, nat>, order: seq<OrderEntry>, asWritten: bool, layers: seq<nat>, final: seq<OrderEntry>)
    requires forall i :: 0 <= i < |order| ==> ResolveEntry(m, order[i], asWritten).Ok?
  {
    && |order| <= |final|
    && (|order| >= |layers| ==> |final| == |order|)
    && (forall i :: 0 <= i < |final| ==> final[i].ByLayer?)
    && (forall i :: 0 <= i < |order| ==> final[i] == ByLayer(ResolveEntry(m, order[i], asWritten).value))
    && (|order| < |layers| ==> forall x :: x in layers ==> ByLayer(x) in final)
  }

  /** The body of `init_nodes`, with execution-order entries looked up as
      `ResolveEntry` does: the node lists are collected, each entry is
      replaced by its layer, the first entry that fails aborts the call, and
      a resolved order shorter than the layer list is completed with every
      layer; an order at least as long is kept as resolved. */
  function InitWith(net: Net, ann: Ann, asWritten: bool): (r: Result<Ann>)
    requires Valid(net) && LayerIndices(net, ann.layers)
    ensures var m := NameMap(net, ann.layers);
      r.Ok? <==> forall i :: 0 <= i < |ann.executionOrder| ==> ResolveEntry(m, ann.executionOrder[i], asWritten).Ok?
    ensures r.Err? ==> exists i :: FirstFailure(NameMap(net, ann.layers), ann.executionOrder, asWritten, i, r.error)
    ensures r.Ok? ==> r.value.layers == ann.layers && r.value.links == ann.links
    ensures r.Ok? ==> r.value.inputNodes == Some(TaggedNodes(net, ann.layers, "input"))
    ensures r.Ok? ==> r.value.outputNodes == Some(TaggedNodes(net, ann.layers, "output"))
    ensures r.Ok? ==> ResolvedOrder(NameMap(net, ann.layers), ann.executionOrder, asWritten, ann.layers, r.value.executionOrder)
  {
    var m := NameMap(net, ann.layers);
    match ResolveOrder(m, ann.executionOrder, asWritten)
    case Err(e) => Err(e)
    case Ok(resolved) =>
      CompletedEntries(resolved, ann.layers);
      Ok(ann.(executionOrder := AsEntries(Complete(resolved, ann.layers)),
              inputNodes := Some(TaggedNodes(net, ann.layers, "input")),
              outputNodes := Some(TaggedNodes(net, ann.layers, "output"))))
  }

  /** `init_nodes` as written: the execution order is overwritten in place
      with layers, so a later call looks layers up by name and fails. */
  function InitNodesAsWritten(net: Net, ann: Ann): (r: Result<Ann>)
    requires Valid(net) && LayerIndices(net, ann.layers)
    ensures r.Ok? <==> forall i :: 0 <= i < |ann.executionOrder| ==>
      ann.executionOrder[i].ByName? && ann.executionOrder[i].name in NameMap(net, ann.layers)
    ensures r.Ok? ==> r.value.layers == ann.layers && r.value.links == ann.links
  {
    InitWith(net, ann, true)
  }

  /** `e` names no layer in `m`, and looking it up raised `error`. */
  predicate UnknownName(m: map<string, nat>, e: OrderEntry, error: Exception) {
    e.ByName? && e.name !in m && error == KeyError(e.name)
  }

  /** Entry `i` is the first unknown name of `order`, and looking it up
      raised `error`. */
  predicate FirstUnknown(m: map<string, nat>, order: seq<OrderEntry>, i: int, error: Exception) {
    && 0 <= i < |order|
    && UnknownName(m, order[i], error)
    && forall j :: 0 <= j < i && order[j].ByName? ==> order[j].name in m
  }

  /** Which calls of `init_nodes` raise, and what. */
  lemma InitOutcome(net: Net, ann: Ann)
    requires Valid(net) && LayerIndices(net, ann.layers)
    ensures var m := NameMap(net, ann.layers); var r := InitWith(net, ann, false);
      r.Ok? <==> forall i :: 0 <= i < |ann.executionOrder| && ann.executionOrder[i].ByName? ==> ann.executionOrder[i].name in m
    ensures var r := InitWith(net, ann, false);
      r.Err? ==> exists i :: FirstUnknown(NameMap(net, ann.layers), ann.executionOrder, i, r.error)
  {
    var m := NameMap(net, ann.layers);
    var order := ann.executionOrder;
    var r := InitWith(net, ann, false);
    if r.Err? {
      var i :| FirstFailure(m, order, false, i, r.error);
      forall j | 0 <= j < i && order[j].ByName? ensures order[j].name in m {
        assert ResolveEntry(m, order[j], false).Ok?;
      }
      assert FirstUnknown(m, order, i, r.error);
    } else {
      forall i | 0 <= i < |order| && order[i].ByName? ensures order[i].name in m {
        assert ResolveEntry(m, order[i], false).Ok?;
      }
    }
  }

  /** The order `init_nodes` leaves behind. */
  lemma InitOrder(net: Net, ann: Ann)
    requires Valid(net) && LayerIndices(net, ann.layers)
    requires InitWith(net, ann, false).Ok?
    ensures var m := NameMap(net, ann.layers); var order := ann.executionOrder;
      var final := InitWith(net, ann, false).value.executionOrder;
        && |order| <= |final|
        && (forall i :: 0 <= i < |final| ==> final[i].ByLayer?)
        && (forall i :: 0 <= i < |order| && order[i].ByName? ==> order[i].name in m && final[i] == ByLayer(m[order[i].name]))
        && (forall i :: 0 <= i < |order| && order[i].ByLayer? ==> final[i] == order[i])
        && (|order| < |ann.layers| ==> forall x :: x in ann.layers ==> ByLayer(x) in final)
  {
    var m := NameMap(net, ann.layers);
    var order := ann.executionOrder;
    var resolved := ResolveOrder(m, order, false).value;
    var final := InitWith(net, ann, false).value.executionOrder;
    assert final == AsEntries(Complete(resolved, ann.layers));
    CompletedEntries(resolved, ann.layers);
    forall i | 0 <= i < |order| ensures final[i] == ByLayer(ResolveEntry(m, order[i], false).value) {
      assert final[i] == ByLayer(resolved[i]);
    }
  }

  /** The completed order as entries: the resolved prefix, then every
      layer. */
  lemma CompletedEntries(resolved: seq<nat>, layers: seq<nat>)
    ensures var final := AsEntries(Complete(resolved, layers));
      && |resolved| <= |final|
      && (forall i :: 0 <= i < |final| ==> final[i].ByLayer?)
      && (forall i :: 0 <= i < |resolved| ==> final[i] == ByLayer(resolved[i]))
      && (|resolved| < |layers| ==> forall x :: x in layers ==> ByLayer(x) in final)
  {
    var full := Complete(resolved, layers);
    var final := AsEntries(full);
    forall i | 0 <= i < |resolved| ensures final[i] == ByLayer(resolved[i]) {
      assert full[..|resolved|][i] == resolved[i];
    }
    forall x | x in layers && |resolved| < |layers| ensures ByLayer(x) in final {
      var i :| 0 <= i < |full| && full[i] == x;
      assert final[i] == ByLayer(x);
    }
  }

  /** `init_nodes`: input and output nodes are collected from the layers
      tagged "input" and "output"; every named entry of the execution order
      is replaced by the layer of that exact name (an unknown name raises
      `KeyError`) and a layer entry stays itself; when the result is shorter
      than the layer list, the missing layers are appended in layer order. */
  function InitNodes(net: Net, ann: Ann): (r: Result<Ann>)
    requires Valid(net) && LayerIndices(net, ann.layers)
    ensures var m := NameMap(net, ann.layers);
      r.Ok? <==> forall i :: 0 <= i < |ann.executionOrder| && ann.executionOrder[i].ByName? ==> ann.executionOrder[i].name in m
    ensures r.Err? ==> exists i :: FirstUnknown(NameMap(net, ann.layers), ann.executionOrder, i, r.error)
    ensures r.Ok? ==> r.value.layers == ann.layers && r.value.links == ann.links
    ensures r.Ok? ==> r.value.inputNodes == Some(TaggedNodes(net, ann.layers, "input"))
    ensures r.Ok? ==> r.value.outputNodes == Some(TaggedNodes(net, ann.layers, "output"))
    ensures r.Ok? ==> Fits(net, r.value)
    ensures var m := NameMap(net, ann.layers); var order := ann.executionOrder;
      r.Ok? ==>
        && |order| <= |r.value.executionOrder|
        && (forall i :: 0 <= i < |r.value.executionOrder| ==> r.value.executionOrder[i].ByLayer?)
        && (forall i :: 0 <= i < |order| && order[i].ByName? ==> order[i].name in m && r.value.executionOrder[i] == ByLayer(m[order[i].name]))
        && (forall i :: 0 <= i < |order| && order[i].ByLayer? ==> r.value.executionOrder[i] == order[i])
        && (|order| < |ann.layers| ==> forall x :: x in ann.layers ==> ByLayer(x) in r.value.executionOrder)
  {
    InitOutcome(net, ann);
    if InitWith(net, ann, false).Ok? then InitOrder(net, ann); InitWith(net, ann, false)
    else InitWith(net, ann, false)
  }

  /** As written, a second `init_nodes` on an initialised network with at
      least one layer raises: the first call left layers, not names, in the
      execution order. */
  lemma ReinitFailsAsWritten(net: Net, ann: Ann)
    requires Valid(net) && LayerIndices(net, ann.layers) && |ann.layers| > 0
    requires InitNodesAsWritten(net, ann).Ok?
    ensures InitNodesAsWritten(net, InitNodesAsWritten(net, ann).value).Err?
    ensures InitNodesAsWritten(net, InitNodesAsWritten(net, ann).value).error.LayerKeyError?
  {
    var once := InitNodesAsWritten(net, ann).value;
    var order := once.executionOrder;
    assert order == AsEntries(Complete(ResolveOrder(NameMap(net, ann.layers), ann.executionOrder, true).value, ann.layers));
    assert |order| > 0;
    assert order[0].ByLayer?;
    var r := InitNodesAsWritten(net, once);
    assert ResolveEntry(NameMap(net, once.layers), order[0], true).Err?;
    var i :| 0 <= i < |order| && ResolveEntry(NameMap(net, once.layers), order[i], true) == Err(r.error);
  }

  /** On a first call, whose execution order holds names only, the written
      and the corrected `init_nodes` agree. */
  lemma AsWrittenAgreesOnNames(net: Net, ann: Ann)
    requires Valid(net) && LayerIndices(net, ann.layers)
    requires forall i :: 0 <= i < |ann.executionOrder| ==> ann.executionOrder[i].ByName?
    ensures InitNodesAsWritten(net, ann) == InitNodes(net, ann)
  {
    var m := NameMap(net, ann.layers);
    forall i | 0 <= i < |ann.executionOrder|
      ensures ResolveEntry(m, ann.executionOrder[i], true) == ResolveEntry(m, ann.executionOrder[i], false)
    {
    }
    ResolveAgrees(m, ann.executionOrder);
  }

  lemma {:induction false} ResolveAgrees(m: map<string, nat>, order: seq<OrderEntry>)
    requires forall i :: 0 <= i < |order| ==> ResolveEntry(m, order[i], true) == ResolveEntry(m, order[i], false)
    ensures ResolveOrder(m, order, true) == ResolveOrder(m, order, false)
    decreases |order|
  {
    if |order| > 0 {
      assert forall i :: 0 <= i < |order[1..]| ==> order[1..][i] == order[i + 1];
      ResolveAgrees(m, order[1..]);
    }
  }

  /** Nothing is missing from an order that already holds every layer. */
  lemma NoneMissing(layers: seq<nat>, order: seq<nat>)
    requires forall x :: x in layers ==> x in order
    ensures Missing(layers, order) == []
  {
  }

  /** The corrected `init_nodes` is idempotent: calling it on the network
      it produced changes nothing. */
  lemma InitIdempotent(net: Net, ann: Ann)
    requires Valid(net) && LayerIndices(net, ann.layers)
    requires InitNodes(net, ann).Ok?
    ensures InitNodes(net, InitNodes(net, ann).value) == InitNodes(net, ann)
  {
    var once := InitNodes(net, ann).value;
    assert once.layers == ann.layers;
    InitIsInitWith(net, once);
    ReinitKeepsOrder(net, ann, once);
  }

  lemma InitIsInitWith(net: Net, ann: Ann)
    requires Valid(net) && LayerIndices(net, ann.layers)
    ensures InitNodes(net, ann) == InitWith(net, ann, false)
  {
  }

  /** Re-running the corrected resolution on the order `init_nodes` left
      gives that order back. */
  lemma ReinitKeepsOrder(net: Net, ann: Ann, once: Ann)
    requires Valid(net) && LayerIndices(net, ann.layers)
    requires InitNodes(net, ann) == Ok(once)
    ensures InitWith(net, once, false) == Ok(once)
  {
    var order := once.executionOrder;
    assert |order| < |once.layers| ==> |ann.executionOrder| < |ann.layers|;
    ResolvedKept(NameMap(net, once.layers), order, once.layers);
  }

  /** An order of layer entries that already holds every layer when it is
      shorter than the layer list resolves and completes to itself. */
  lemma ResolvedKept(m: map<string, nat>, order: seq<OrderEntry>, layers: seq<nat>)
    requires forall i :: 0 <= i < |order| ==> order[i].ByLayer?
    requires |order| < |layers| ==> forall x :: x in layers ==> ByLayer(x) in order
    ensures ResolveOrder(m, order, false).Ok?
    ensures Complete(ResolveOrder(m, order, false).value, layers) == ResolveOrder(m, order, false).value
    ensures AsEntries(ResolveOrder(m, order, false).value) == order
  {
    LayerEntriesResolve(m, order);
    var resolved := ResolveOrder(m, order, false).value;
    if |order| < |layers| {
      forall x | x in layers ensures x in resolved {
        var i :| 0 <= i < |order| && order[i] == ByLayer(x);
        assert resolved[i] == x;
      }
      NoneMissing(layers, resolved);
    }
  }

  /** An order of layer entries resolves to those layers, unchanged. */
  lemma LayerEntriesResolve(m: map<string, nat>, order: seq<OrderEntry>)
    requires forall i :: 0 <= i < |order| ==> order[i].ByLayer?
    ensures ResolveOrder(m, order, false).Ok?
    ensures AsEntries(ResolveOrder(m, order, false).value) == order
  {
    forall i | 0 <= i < |order| ensures ResolveEntry(m, order[i], false).Ok? {
    }
  }

  /** Dropping the layers already in the order keeps distinct layers
      distinct. */
  lemma {:induction false} MissingDistinct(layers: seq<nat>, order: seq<nat>)
    requires Distinct(layers)
    ensures Distinct(Missing(layers, order))
    decreases |layers|
  {
    if |layers| > 0 {
      assert Distinct(layers[1..]) by {
        forall i, j | 0 <= i < j < |layers[1..]| ensures layers[1..][i] != layers[1..][j] {
          assert layers[1..][i] == layers[i + 1] && layers[1..][j] == layers[j + 1];
        }
      }
      MissingDistinct(layers[1..], order);
    }
  }

  /** Distinct names resolve to distinct layers: a layer carries the name
      it is mapped under. */
  lemma ResolvedDistinct(net: Net, ids: seq<nat>, order: seq<OrderEntry>)
    requires LayerIndices(net, ids) && Distinct(order)
    requires forall i :: 0 <= i < |order| ==> order[i].ByName?
    requires ResolveOrder(NameMap(net, ids), order, false).Ok?
    ensures Distinct(ResolveOrder(NameMap(net, ids), order, false).value)
  {
    var m := NameMap(net, ids);
    var resolved := ResolveOrder(m, order, false).value;
    forall i, j | 0 <= i < j < |resolved| ensures resolved[i] != resolved[j] {
      assert resolved[i] == m[order[i].name] && resolved[j] == m[order[j].name];
      assert net.layers[resolved[i]].name == order[i].name;
      assert net.layers[resolved[j]].name == order[j].name;
      assert order[i] != order[j];
    }
  }

  /** Two repetition-free sequences with no common element concatenate to a
      repetition-free one. */
  lemma DistinctAppend(a: seq<nat>, b: seq<nat>)
    requires Distinct(a) && Distinct(b) && forall x :: x in b ==> x !in a
    ensures Distinct(a + b)
  {
    var ab := a + b;
    forall i, j | 0 <= i < j < |ab| ensures ab[i] != ab[j] {
      if i < |a| <= j {
        assert ab[j] == b[j - |a|] && ab[j] in b;
      } else if |a| <= i {
        assert ab[i] == b[i - |a|] && ab[j] == b[j - |a|];
      }
    }
  }

  /** With distinct layers and an execution order of distinct names,
      `init_nodes` schedules every layer exactly once: the final order is
      repetition-free and holds precisely the layers. When the order names
      fewer layers than there are, the rest are appended; when it names as
      many, they are already all of them. */
  lemma InitExactlyOnce(net: Net, ann: Ann)
    requires Valid(net) && LayerIndices(net, ann.layers)
    requires Distinct(ann.layers) && Distinct(ann.executionOrder)
    requires forall i :: 0 <= i < |ann.executionOrder| ==> ann.executionOrder[i].ByName?
    requires InitNodes(net, ann).Ok?
    ensures Distinct(InitNodes(net, ann).value.executionOrder)
    ensures forall x :: ByLayer(x) in InitNodes(net, ann).value.executionOrder <==> x in ann.layers
  {
    var m := NameMap(net, ann.layers);
    var resolved := ResolveOrder(m, ann.executionOrder, false).value;
    var full := Complete(resolved, ann.layers);
    assert InitNodes(net, ann).value.executionOrder == AsEntries(full);
    ResolvedDistinct(net, ann.layers, ann.executionOrder);
    forall x | x in resolved ensures x in ann.layers {
      var k :| 0 <= k < |resolved| && resolved[k] == x;
      assert resolved[k] == m[ann.executionOrder[k].name];
    }
    if |resolved| < |ann.layers| {
      MissingDistinct(ann.layers, resolved);
      DistinctAppend(resolved, Missing(ann.layers, resolved));
    } else {
      Pigeonhole(resolved, ann.layers);
    }
    EntriesOf(full);
  }

  /** The elements of a sequence. */
  function Elems(s: seq<nat>): (r: set<nat>)
    ensures forall x :: x in r <==> x in s
  {
    set x | x in s
  }

  /** A sequence has at most as many distinct elements as entries, and
      exactly as many when it is repetition-free. */
  lemma {:induction false} ElemsCard(s: seq<nat>)
    ensures |Elems(s)| <= |s|
    ensures Distinct(s) ==> |Elems(s)| == |s|
    decreases |s|
  {
    if |s| > 0 {
      var t := s[1..];
      ElemsCard(t);
      assert Elems(s) == Elems(t) + {s[0]};
      if Distinct(s) {
        assert Distinct(t) && s[0] !in t by {
          DistinctTail(s);
        }
      }
    }
  }

  lemma DistinctTail(s: seq<nat>)
    requires |s| > 0 && Distinct(s)
    ensures Distinct(s[1..]) && s[0] !in s[1..]
  {
    forall i, j | 0 <= i < j < |s[1..]| ensures s[1..][i] != s[1..][j] {
      assert s[1..][i] == s[i + 1] && s[1..][j] == s[j + 1];
    }
    forall j | 0 <= j < |s[1..]| ensures s[1..][j] != s[0] {
      assert s[1..][j] == s[j + 1];
    }
  }

  /** A subset at least as large as its superset is the whole of it. */
  lemma {:induction false} SubsetFull(a: set<nat>, b: set<nat>)
    requires a <= b && |a| >= |b|
    ensures a == b
    decreases |b|
  {
    if b != {} {
      var x :| x in b;
      if x in a {
        SubsetFull(a - {x}, b - {x});
        assert a == (a - {x}) + {x} && b == (b - {x}) + {x};
      } else {
        assert a <= b - {x};
        SubsetCard(a, b - {x});
      }
    }
  }

  lemma {:induction false} SubsetCard(a: set<nat>, b: set<nat>)
    requires a <= b
    ensures |a| <= |b|
    decreases |b|
  {
    if a != {} {
      var x :| x in a;
      SubsetCard(a - {x}, b - {x});
    }
  }

  /** A repetition-free sequence drawn from `b` and at least as long as `b`
      holds every element of `b`. */
  lemma Pigeonhole(a: seq<nat>, b: seq<nat>)
    requires Distinct(a) && |a| >= |b|
    requires forall x :: x in a ==> x in b
    ensures forall x :: x in b ==> x in a
  {
    ElemsCard(a);
    ElemsCard(b);
    SubsetFull(Elems(a), Elems(b));
  }

  /** Wrapping layers as entries keeps them distinct and keeps membership. */
  lemma EntriesOf(ids: seq<nat>)
    requires Distinct(ids)
    ensures Distinct(AsEntries(ids))
    ensures forall x :: ByLayer(x) in AsEntries(ids) <==> x in ids
  {
    var e := AsEntries(ids);
    forall x | ByLayer(x) in e ensures x in ids {
      var i :| 0 <= i < |e| && e[i] == ByLayer(x);
      assert ids[i] == x;
    }
    forall x | x in ids ensures ByLayer(x) in e {
      var i :| 0 <= i < |ids| && ids[i] == x;
      assert e[i] == ByLayer(x);
    }
  }

  /** Updating each layer of `ids` in turn, the layers' own order. */
  function UpdateLayers(net: Net, sig: Sigmoids, ids: seq<nat>): (r: Net)
    requires Valid(net) && LayerIndices(net, ids)
    ensures Valid(r) && r.arcs == net.arcs && r.layers == net.layers && |r.nodes| == |net.nodes|
    ensures forall k :: 0 <= k < |net.nodes| ==> SameWiring(r.nodes[k], net.nodes[k])
    ensures forall k :: 0 <= k < |net.nodes| && (forall i :: 0 <= i < |ids| ==> k !in net.layers[ids[i]].nodes) ==>
      r.nodes[k] == net.nodes[k]
    decreases |ids|
  {
    if |ids| == 0 then net
    else
      var once := Layers.Update(net, sig, ids[0]);
      assert forall i :: 0 <= i < |ids[1..]| ==> ids[1..][i] == ids[i + 1];
      UpdateLayers(once, sig, ids[1..])
  }

  /** Updating two runs of layers is updating the first, then the second. */
  lemma {:induction false} UpdateLayersAppend(net: Net, sig: Sigmoids, a: seq<nat>, b: seq<nat>)
    requires Valid(net) && LayerIndices(net, a) && LayerIndices(net, b)
    ensures LayerIndices(net, a + b)
    ensures UpdateLayers(net, sig, a + b) == UpdateLayers(UpdateLayers(net, sig, a), sig, b)
    decreases |a|
  {
    if |a| == 0 {
      assert a + b == b;
    } else {
      var once := Layers.Update(net, sig, a[0]);
      assert (a + b)[0] == a[0] && (a + b)[1..] == a[1..] + b;
      assert LayerIndices(net, a[1..]) by {
        forall i | 0 <= i < |a[1..]| ensures a[1..][i] < |net.layers| {
          assert a[1..][i] == a[i + 1];
        }
      }
      UpdateLayersAppend(once, sig, a[1..], b);
    }
  }

  /** A node of layer `l` belongs to no other layer. */
  lemma OwnedLayerOf(net: Net, k: nat)
    requires Valid(net) && Owned(net) && k < |net.nodes|
    ensures forall l :: 0 <= l < |net.layers| && k in net.layers[l].nodes ==> l == net.nodes[k].layer
  {
    forall l | 0 <= l < |net.layers| && k in net.layers[l].nodes ensures l == net.nodes[k].layer {
      var j :| 0 <= j < |net.layers[l].nodes| && net.layers[l].nodes[j] == k;
    }
  }

  /** The store right after the `i`-th layer of `ids` has been updated. */
  function Visited(net: Net, sig: Sigmoids, ids: seq<nat>, i: nat): (r: Net)
    requires Valid(net) && LayerIndices(net, ids) && i < |ids|
    ensures Valid(r) && r.layers == net.layers && |r.nodes| == |net.nodes|
  {
    assert LayerIndices(net, ids[..i]);
    Layers.Update(UpdateLayers(net, sig, ids[..i]), sig, ids[i])
  }

  /** Updating the layers up to the `i`-th ends at `Visited`: the `i`-th
      layer is updated last, on the store the layers before it left. */
  lemma VisitedPrefix(net: Net, sig: Sigmoids, ids: seq<nat>, i: nat)
    requires Valid(net) && LayerIndices(net, ids) && i < |ids|
    ensures LayerIndices(net, ids[..i + 1])
    ensures UpdateLayers(net, sig, ids[..i + 1]) == Visited(net, sig, ids, i)
  {
    assert ids[..i + 1] == ids[..i] + [ids[i]];
    assert LayerIndices(net, ids[..i]) && LayerIndices(net, [ids[i]]);
    UpdateLayersAppend(net, sig, ids[..i], [ids[i]]);
    var mid := UpdateLayers(net, sig, ids[..i]);
    assert UpdateLayers(mid, sig, [ids[i]]) == UpdateLayers(Layers.Update(mid, sig, ids[i]), sig, []);
  }

  /** With no layer listed twice, a node of the `i`-th layer belongs to no
      layer listed after it. */
  lemma LaterLayersSkip(net: Net, ids: seq<nat>, i: nat, k: nat)
    requires Valid(net) && Owned(net) && LayerIndices(net, ids) && Distinct(ids)
    requires i < |ids| && k < |net.nodes| && k in net.layers[ids[i]].nodes
    ensures forall j :: i < j < |ids| ==> k !in net.layers[ids[j]].nodes
  {
    OwnedLayerOf(net, k);
  }

  /** With each node owned by one layer and no layer listed twice, a node of
      the `i`-th layer ends as that layer's update left it, applied after
      the layers listed before it: later layers do not touch it. */
  lemma UpdateLayersVisit(net: Net, sig: Sigmoids, ids: seq<nat>, i: nat, k: nat)
    requires Valid(net) && Owned(net) && LayerIndices(net, ids) && Distinct(ids)
    requires i < |ids| && k < |net.nodes| && k in net.layers[ids[i]].nodes
    ensures UpdateLayers(net, sig, ids).nodes[k] == Visited(net, sig, ids, i).nodes[k]
  {
    VisitedPrefix(net, sig, ids, i);
    LaterLayersSkip(net, ids, i, k);
    SkipAfter(net, sig, ids, i, k);
  }

  /** When no layer listed after the `i`-th holds node `k`, the node ends as
      the first `i + 1` layers left it. */
  lemma SkipAfter(net: Net, sig: Sigmoids, ids: seq<nat>, i: nat, k: nat)
    requires Valid(net) && LayerIndices(net, ids) && i < |ids| && k < |net.nodes|
    requires forall j :: i < j < |ids| ==> k !in net.layers[ids[j]].nodes
    ensures UpdateLayers(net, sig, ids).nodes[k] == UpdateLayers(net, sig, ids[..i + 1]).nodes[k]
  {
    var upto := ids[..i + 1];
    var rest := ids[i + 1..];
    assert ids == upto + rest;
    assert forall j :: 0 <= j < |rest| ==> rest[j] == ids[i + 1 + j];
    SkipTail(net, sig, upto, rest, k);
  }

  /** Layers that do not hold node `k` leave it as it was. */
  lemma SkipTail(net: Net, sig: Sigmoids, upto: seq<nat>, rest: seq<nat>, k: nat)
    requires Valid(net) && LayerIndices(net, upto) && LayerIndices(net, rest) && k < |net.nodes|
    requires forall j :: 0 <= j < |rest| ==> k !in net.layers[rest[j]].nodes
    ensures LayerIndices(net, upto + rest)
    ensures UpdateLayers(net, sig, upto + rest).nodes[k] == UpdateLayers(net, sig, upto).nodes[k]
  {
    UpdateLayersAppend(net, sig, upto, rest);
  }

  /** `Ann.update`: every layer of the network, in the order of its layer
      list (not the execution order). When every node belongs to one layer
      and no layer is listed twice, each node ends as its own layer's update
      left it, run after the layers listed before; a node of no listed
      layer is untouched. */
  function Update(net: Net, sig: Sigmoids, ann: Ann): (r: Net)
    requires Valid(net) && LayerIndices(net, ann.layers)
    ensures Valid(r) && r.arcs == net.arcs && r.layers == net.layers && |r.nodes| == |net.nodes|
    ensures forall k :: 0 <= k < |net.nodes| && (forall i :: 0 <= i < |ann.layers| ==> k !in net.layers[ann.layers[i]].nodes) ==>
      r.nodes[k] == net.nodes[k]
    ensures Owned(net) && Distinct(ann.layers) ==>
      forall i, k :: 0 <= i < |ann.layers| && 0 <= k < |net.nodes| && k in net.layers[ann.layers[i]].nodes ==>
        r.nodes[k] == Visited(net, sig, ann.layers, i).nodes[k]
  {
    UpdateInListOrder(net, sig, ann.layers);
    UpdateLayers(net, sig, ann.layers)
  }

  lemma UpdateInListOrder(net: Net, sig: Sigmoids, ids: seq<nat>)
    requires Valid(net) && LayerIndices(net, ids)
    ensures Owned(net) && Distinct(ids) ==>
      forall i, k :: 0 <= i < |ids| && 0 <= k < |net.nodes| && k in net.layers[ids[i]].nodes ==>
        UpdateLayers(net, sig, ids).nodes[k] == Visited(net, sig, ids, i).nodes[k]
  {
    if Owned(net) && Distinct(ids) {
      forall i, k | 0 <= i < |ids| && 0 <= k < |net.nodes| && k in net.layers[ids[i]].nodes
        ensures UpdateLayers(net, sig, ids).nodes[k] == Visited(net, sig, ids, i).nodes[k]
      {
        UpdateLayersVisit(net, sig, ids, i, k);
      }
    }
  }

  /** The active layers of `ids`, in order. */
  function ActiveLayers(net: Net, ids: seq<nat>): (r: seq<nat>)
    requires LayerIndices(net, ids)
    ensures LayerIndices(net, r)
    ensures forall l :: l in r <==> l in ids && net.layers[l].active
    decreases |ids|
  {
    if |ids| == 0 then []
    else
      assert forall i :: 0 <= i < |ids[1..]| ==> ids[1..][i] == ids[i + 1];
      (if net.layers[ids[0]].active then [ids[0]] else []) + ActiveLayers(net, ids[1..])
  }

  /** A deactivated layer takes no part in an update: updating every layer
      is updating the active ones. */
  lemma {:induction false} UpdateSkipsInactive(net: Net, sig: Sigmoids, ids: seq<nat>)
    requires Valid(net) && LayerIndices(net, ids)
    ensures UpdateLayers(net, sig, ids) == UpdateLayers(net, sig, ActiveLayers(net, ids))
    decreases |ids|
  {
    if |ids| > 0 {
      var once := Layers.Update(net, sig, ids[0]);
      var rest := ActiveLayers(net, ids[1..]);
      assert LayerIndices(net, ids[1..]);
      UpdateSkipsInactive(once, sig, ids[1..]);
      SameActiveLayers(net, once, ids[1..]);
      if net.layers[ids[0]].active {
        UpdateLayersCons(net, sig, ids[0], rest);
      } else {
        assert ActiveLayers(net, ids) == rest;
      }
    }
  }

  /** Updating a layer and then a run of layers. */
  lemma UpdateLayersCons(net: Net, sig: Sigmoids, l: nat, ids: seq<nat>)
    requires Valid(net) && l < |net.layers| && LayerIndices(net, ids)
    ensures LayerIndices(net, [l] + ids)
    ensures UpdateLayers(net, sig, [l] + ids) == UpdateLayers(Layers.Update(net, sig, l), sig, ids)
  {
    assert ([l] + ids)[0] == l && ([l] + ids)[1..] == ids;
  }

  /** Which layers are active depends on the layers alone. */
  lemma {:induction false} SameActiveLayers(a: Net, b: Net, ids: seq<nat>)
    requires a.layers == b.layers && LayerIndices(a, ids)
    ensures ActiveLayers(a, ids) == ActiveLayers(b, ids)
    decreases |ids|
  {
    if |ids| > 0 {
      SameActiveLayers(a, b, ids[1..]);
    }
  }

  /** Writing `v` to node `k` through the activation-level setter. */
  function WriteOne(net: Net, k: nat, v: real): (r: Net)
    requires Valid(net) && k < |net.nodes|
    ensures Valid(r) && r.arcs == net.arcs && r.layers == net.layers && |r.nodes| == |net.nodes|
    ensures r.nodes[k] == SetActivation(net.nodes[k], v)
    ensures forall j :: 0 <= j < |net.nodes| && j != k ==> r.nodes[j] == net.nodes[j]
  {
    net.(nodes := net.nodes[k := SetActivation(net.nodes[k], v)])
  }

  /** Writing `vs[i]` to node `ks[i]` through the activation-level setter,
      in order: only the written nodes change, and only their levels. */
  function WriteLevels(net: Net, ks: seq<nat>, vs: seq<real>): (r: Net)
    requires Valid(net) && NodeIndices(net, ks) && |ks| <= |vs|
    ensures Valid(r) && r.arcs == net.arcs && r.layers == net.layers && |r.nodes| == |net.nodes|
    ensures forall k :: 0 <= k < |net.nodes| ==> SameWiring(r.nodes[k], net.nodes[k])
    ensures forall k :: 0 <= k < |net.nodes| ==> r.nodes[k].membranePotential == net.nodes[k].membranePotential
    ensures forall k :: 0 <= k < |net.nodes| && k !in ks ==> r.nodes[k] == net.nodes[k]
    decreases |ks|
  {
    if |ks| == 0 then net
    else
      assert NodeIndices(net, ks[1..]) by {
        forall i | 0 <= i < |ks[1..]| ensures ks[1..][i] < |net.nodes| {
          assert ks[1..][i] == ks[i + 1];
        }
      }
      WriteLevels(WriteOne(net, ks[0], vs[0]), ks[1..], vs[1..])
  }

  /** A node written for the last time at step `i` holds `vs[i]`. */
  lemma {:induction false} WriteLevelsLast(net: Net, ks: seq<nat>, vs: seq<real>, i: nat)
    requires Valid(net) && NodeIndices(net, ks) && |ks| <= |vs|
    requires i < |ks| && ks[i] !in ks[i + 1..]
    ensures WriteLevels(net, ks, vs).nodes[ks[i]].activationLevel == vs[i]
    decreases i
  {
    var once := WriteOne(net, ks[0], vs[0]);
    if i == 0 {
      assert ks[0] !in ks[1..];
    } else {
      assert ks[1..][i - 1] == ks[i] && ks[1..][i..] == ks[i + 1..] && vs[1..][i - 1] == vs[i];
      WriteLevelsLast(once, ks[1..], vs[1..], i - 1);
    }
  }

  /** A node written only at step `i` remembers, as its previous level, the
      level it had before the writes. */
  lemma {:induction false} WriteLevelsHistory(net: Net, ks: seq<nat>, vs: seq<real>, i: nat)
    requires Valid(net) && NodeIndices(net, ks) && |ks| <= |vs|
    requires i < |ks| && ks[i] !in ks[i + 1..] && ks[i] !in ks[..i]
    ensures WriteLevels(net, ks, vs).nodes[ks[i]].prevActivationLevel == net.nodes[ks[i]].activationLevel
    decreases i
  {
    var once := WriteOne(net, ks[0], vs[0]);
    if i == 0 {
      assert ks[0] !in ks[1..];
    } else {
      assert ks[0] in ks[..i];
      assert ks[1..][i - 1] == ks[i] && ks[1..][i..] == ks[i + 1..] && ks[1..][..i - 1] == ks[1..i];
      assert ks[i] !in ks[1..i] by {
        assert ks[1..i] == ks[..i][1..];
      }
      WriteLevelsHistory(once, ks[1..], vs[1..], i - 1);
    }
  }

  /** Both facts for every step of the writes. */
  lemma WriteLevelsAll(net: Net, ks: seq<nat>, vs: seq<real>)
    requires Valid(net) && NodeIndices(net, ks) && |ks| <= |vs|
    ensures forall i :: 0 <= i < |ks| && ks[i] !in ks[i + 1..] ==> WriteLevels(net, ks, vs).nodes[ks[i]].activationLevel == vs[i]
    ensures forall i :: 0 <= i < |ks| && ks[i] !in ks[i + 1..] && ks[i] !in ks[..i] ==>
      WriteLevels(net, ks, vs).nodes[ks[i]].prevActivationLevel == net.nodes[ks[i]].activationLevel
  {
    forall i | 0 <= i < |ks| && ks[i] !in ks[i + 1..]
      ensures WriteLevels(net, ks, vs).nodes[ks[i]].activationLevel == vs[i]
    {
      WriteLevelsLast(net, ks, vs, i);
    }
    forall i | 0 <= i < |ks| && ks[i] !in ks[i + 1..] && ks[i] !in ks[..i]
      ensures WriteLevels(net, ks, vs).nodes[ks[i]].prevActivationLevel == net.nodes[ks[i]].activationLevel
    {
      WriteLevelsHistory(net, ks, vs, i);
    }
  }

  /** `set_inputs`: the `i`-th input is written to the `i`-th input node
      through the history-keeping setter; extra inputs are ignored, too few
      raise `IndexError`, and a network that was never initialised has no
      input nodes yet. */
  function SetInputs(net: Net, ann: Ann, inputs: seq<real>): (r: Result<Net>)
    requires Valid(net) && Fits(net, ann)
    ensures ann.inputNodes.None? ==> r == Err(AttributeError("input_nodes"))
    ensures ann.inputNodes.Some? ==> (r.Err? <==> |inputs| < |ann.inputNodes.value|)
    ensures r.Err? && ann.inputNodes.Some? ==> r.error == IndexError
    ensures r.Ok? ==> Valid(r.value) && r.value.arcs == net.arcs && r.value.layers == net.layers && |r.value.nodes| == |net.nodes|
    ensures r.Ok? ==> forall k :: 0 <= k < |net.nodes| && k !in ann.inputNodes.value ==> r.value.nodes[k] == net.nodes[k]
    ensures r.Ok? ==> forall i :: 0 <= i < |ann.inputNodes.value| && ann.inputNodes.value[i] !in ann.inputNodes.value[i + 1..] ==>
      r.value.nodes[ann.inputNodes.value[i]].activationLevel == inputs[i]
  {
    match ann.inputNodes
    case None => Err(AttributeError("input_nodes"))
    case Some(ks) =>
      if |inputs| < |ks| then Err(IndexError)
      else
        WriteLevelsAll(net, ks, inputs);
        Ok(WriteLevels(net, ks, inputs))
  }

  /** With distinct input nodes, each input node's previous level is the
      level it held before the inputs were bound. */
  lemma SetInputsKeepsHistory(net: Net, ann: Ann, inputs: seq<real>)
    requires Valid(net) && Fits(net, ann) && ann.inputNodes.Some?
    requires Distinct(ann.inputNodes.value) && |ann.inputNodes.value| <= |inputs|
    ensures SetInputs(net, ann, inputs).Ok?
    ensures var ks := ann.inputNodes.value;
      forall i :: 0 <= i < |ks| ==> SetInputs(net, ann, inputs).value.nodes[ks[i]].prevActivationLevel == net.nodes[ks[i]].activationLevel
  {
    var ks := ann.inputNodes.value;
    WriteLevelsAll(net, ks, inputs);
    forall i | 0 <= i < |ks| ensures ks[i] !in ks[i + 1..] && ks[i] !in ks[..i] {
    }
  }

  /** `get_output`: the activation levels of the output nodes, in order. */
  function GetOutput(net: Net, ann: Ann): (r: Result<seq<real>>)
    requires Fits(net, ann)
    ensures ann.outputNodes.None? <==> r.Err?
    ensures r.Err? ==> r.error == AttributeError("output_nodes")
    ensures r.Ok? ==> |r.value| == |ann.outputNodes.value|
    ensures r.Ok? ==> forall i :: 0 <= i < |r.value| ==> r.value[i] == net.nodes[ann.outputNodes.value[i]].activationLevel
  {
    match ann.outputNodes
    case None => Err(AttributeError("output_nodes"))
    case Some(ks) => Ok(seq(|ks|, i requires 0 <= i < |ks| => net.nodes[ks[i]].activationLevel))
  }

  /** Reading back what was set: an output node that is also an input node
      reports the input bound to it, and every other output node reports
      what it held before. */
  lemma SetThenGet(net: Net, ann: Ann, inputs: seq<real>)
    requires Valid(net) && Fits(net, ann) && ann.inputNodes.Some? && ann.outputNodes.Some?
    requires Distinct(ann.inputNodes.value) && |ann.inputNodes.value| <= |inputs|
    ensures SetInputs(net, ann, inputs).Ok?
    ensures var ins := ann.inputNodes.value; var outs := ann.outputNodes.value;
      var got := GetOutput(SetInputs(net, ann, inputs).value, ann).value;
      && (forall i, j :: 0 <= i < |outs| && 0 <= j < |ins| && outs[i] == ins[j] ==> got[i] == inputs[j])
      && (forall i :: 0 <= i < |outs| && outs[i] !in ins ==> got[i] == net.nodes[outs[i]].activationLevel)
  {
    var ins := ann.inputNodes.value;
    WriteLevelsAll(net, ins, inputs);
    forall j | 0 <= j < |ins| ensures ins[j] !in ins[j + 1..] {
    }
  }
}

=== FILE: nodes.dfy ===
/** A node's levels and its activation rule (node.py). */
module Nodes {
  import opened Activations
  import opened Graph

  /** Membrane potential, activation and previous activation are all zero. */
  predicate IsReset(n: Node) {
    n.membranePotential == 0.0 && n.activationLevel == 0.0 && n.prevActivationLevel == 0.0
  }

  /** `Node(layer)`: a node of `layer` with zero levels and no arcs yet. */
  function NewNode(layer: nat): (n: Node)
    ensures n.layer == layer
    ensures n.incoming == [] && n.outgoing == []
    ensures IsReset(n)
  {
    Node(layer, 0.0, 0.0, 0.0, [], [])
  }

  /** `reset_levels`: clears the three levels and touches nothing else. */
  function ResetLevels(n: Node): (r: Node)
    ensures IsReset(r)
    ensures SameWiring(r, n)
  {
    n.(membranePotential := 0.0, activationLevel := 0.0, prevActivationLevel := 0.0)
  }

  /** The `activation_level` setter: the old level moves into the history
      slot before the new one is stored. */
  function SetActivation(n: Node, v: real): (r: Node)
    ensures r.activationLevel == v
    ensures r.prevActivationLevel == n.activationLevel
    ensures r.membranePotential == n.membranePotential
    ensures SameWiring(r, n)
  {
    n.(prevActivationLevel := n.activationLevel, activationLevel := v)
  }

  /** Writing `a` and then `b` leaves `b` current and `a` as the only history:
      exactly one round is retained, whatever came before. */
  lemma TwoWrites(n: Node, a: real, b: real)
    ensures SetActivation(SetActivation(n, a), b).activationLevel == b
    ensures SetActivation(SetActivation(n, a), b).prevActivationLevel == a
    ensures SetActivation(SetActivation(n, a), b) == SetActivation(SetActivation(ResetLevels(n), a), b).(membranePotential := n.membranePotential)
  {
  }

  /** Resetting is idempotent, and a fresh node is already reset. */
  lemma ResetProperties(n: Node, layer: nat)
    ensures ResetLevels(ResetLevels(n)) == ResetLevels(n)
    ensures ResetLevels(NewNode(layer)) == NewNode(layer)
  {
  }

  /** Arc `a` and the node `self` it is read for are both in the store. */
  ghost predicate ArcReadable(net: Net, self: nat, a: nat) {
    Valid(net) && self < |net.nodes| && a < |net.arcs|
  }

  /** The level `self` reads from the source of arc `a`: the source's
      previous level when both lie in one layer, its current level otherwise. */
  function SourceValue(net: Net, self: nat, a: nat): real
    requires ArcReadable(net, self, a)
  {
    var src := net.nodes[net.arcs[a].pre];
    if src.layer == net.nodes[self].layer then src.prevActivationLevel else src.activationLevel
  }

  /** The source of arc `a` lies in a layer that is currently active. */
  predicate FromActive(net: Net, a: nat)
    requires Valid(net) && a < |net.arcs|
  {
    net.layers[net.nodes[net.arcs[a].pre].layer].active
  }

  /** What one incoming arc adds to the weighted sum of `self`: nothing when
      its source layer is inactive. */
  function Contribution(net: Net, self: nat, a: nat): real
    requires ArcReadable(net, self, a)
  {
    if !FromActive(net, a) then 0.0 else SourceValue(net, self, a) * net.arcs[a].currentWeight
  }

  ghost predicate ArcIndices(net: Net, ins: seq<nat>) {
    forall i :: 0 <= i < |ins| ==> ins[i] < |net.arcs|
  }

  /** The weighted sum `activate` accumulates over the arcs `ins`. */
  function WeightedInput(net: Net, self: nat, ins: seq<nat>): real
    requires Valid(net) && self < |net.nodes| && ArcIndices(net, ins)
  {
    if |ins| == 0 then 0.0 else Contribution(net, self, ins[0]) + WeightedInput(net, self, ins[1..])
  }

  /** A source written through the setter is read by a node of its own
      layer (itself included, through a self-arc) at the level it held
      before the write, and by a node of any other layer at the written
      level; through an arc from an inactive layer it adds nothing, and
      otherwise that level times the arc's weight. */
  lemma ReadAfterWrite(net: Net, self: nat, a: nat, v: real)
    requires ArcReadable(net, self, a)
    ensures var src := net.arcs[a].pre;
      var written := net.(nodes := net.nodes[src := SetActivation(net.nodes[src], v)]);
      var level := if net.nodes[src].layer == net.nodes[self].layer then net.nodes[src].activationLevel else v;
      && ArcReadable(written, self, a)
      && SourceValue(written, self, a) == level
      && Contribution(written, self, a) == if FromActive(net, a) then level * net.arcs[a].currentWeight else 0.0
  {
    var src := net.arcs[a].pre;
    var written := net.(nodes := net.nodes[src := SetActivation(net.nodes[src], v)]);
    assert NodesValid(written) by {
      forall k | 0 <= k < |written.nodes| ensures SameWiring(written.nodes[k], net.nodes[k]) {
      }
    }
  }

  /** The weighted input is a sum over the arcs: splitting the arc list
      splits the sum, and one arc gives its own contribution. */
  lemma {:induction false} WeightedInputAppend(net: Net, self: nat, a: seq<nat>, b: seq<nat>)
    requires Valid(net) && self < |net.nodes| && ArcIndices(net, a) && ArcIndices(net, b)
    ensures ArcIndices(net, a + b)
    ensures WeightedInput(net, self, a + b) == WeightedInput(net, self, a) + WeightedInput(net, self, b)
    ensures |a| == 1 ==> WeightedInput(net, self, a) == Contribution(net, self, a[0])
    decreases |a|
  {
    if |a| == 0 {
      assert a + b == b;
    } else {
      assert (a + b)[0] == a[0] && (a + b)[1..] == a[1..] + b;
      assert ArcIndices(net, a[1..]) by {
        forall i | 0 <= i < |a[1..]| ensures a[1..][i] < |net.arcs| {
          assert a[1..][i] == a[i + 1];
        }
      }
      WeightedInputAppend(net, self, a[1..], b);
      assert |a| == 1 ==> a[1..] == [];
    }
  }

  /** The arcs of `ins` whose source layer is active, in their order. */
  function ActiveArcs(net: Net, ins: seq<nat>): (r: seq<nat>)
    requires Valid(net) && ArcIndices(net, ins)
    ensures ArcIndices(net, r)
    ensures forall a :: a in r <==> a in ins && FromActive(net, a)
  {
    if |ins| == 0 then []
    else if FromActive(net, ins[0]) then [ins[0]] + ActiveArcs(net, ins[1..])
    else ActiveArcs(net, ins[1..])
  }

  /** The plain weighted sum over `ins`, with no test of layer activity. */
  function RawInput(net: Net, self: nat, ins: seq<nat>): real
    requires Valid(net) && self < |net.nodes| && ArcIndices(net, ins)
  {
    if |ins| == 0 then 0.0 else SourceValue(net, self, ins[0]) * net.arcs[ins[0]].currentWeight + RawInput(net, self, ins[1..])
  }

  /** Skipping arcs from inactive layers is the same as summing plainly over
      the arcs whose source layer is active. */
  lemma {:induction false} WeightedInputSkipsInactive(net: Net, self: nat, ins: seq<nat>)
    requires Valid(net) && self < |net.nodes| && ArcIndices(net, ins)
    ensures WeightedInput(net, self, ins) == RawInput(net, self, ActiveArcs(net, ins))
    decreases |ins|
  {
    if |ins| > 0 {
      WeightedInputSkipsInactive(net, self, ins[1..]);
      if FromActive(net, ins[0]) {
        var r := ActiveArcs(net, ins);
        assert r[0] == ins[0] && r[1..] == ActiveArcs(net, ins[1..]);
      }
    }
  }

  /** Node `k` after `activate` has run in `net`. */
  function Activated(net: Net, sig: Sigmoids, k: nat): (r: Node)
    requires Valid(net) && k < |net.nodes|
    ensures r.membranePotential == WeightedInput(net, k, net.nodes[k].incoming)
    ensures r.activationLevel == Apply(net.layers[net.nodes[k].layer].activation, sig, r.membranePotential)
    ensures r.prevActivationLevel == net.nodes[k].activationLevel
    ensures SameWiring(r, net.nodes[k])
  {
    var n := net.nodes[k];
    var potential := WeightedInput(net, k, n.incoming);
    SetActivation(n.(membranePotential := potential), Apply(net.layers[n.layer].activation, sig, potential))
  }

  /** `activate` on node `k`: only that node's levels change. */
  function Activate(net: Net, sig: Sigmoids, k: nat): (r: Net)
    requires Valid(net) && k < |net.nodes|
    ensures Valid(r)
    ensures r.arcs == net.arcs && r.layers == net.layers
    ensures |r.nodes| == |net.nodes|
    ensures r.nodes[k] == Activated(net, sig, k)
    ensures forall j :: 0 <= j < |net.nodes| && j != k ==> r.nodes[j] == net.nodes[j]
  {
    net.(nodes := net.nodes[k := Activated(net, sig, k)])
  }

  /** A node with no incoming arcs gets potential 0 and the activation of 0. */
  lemma ActivateUnconnected(net: Net, sig: Sigmoids, k: nat)
    requires Valid(net) && k < |net.nodes|
    requires net.nodes[k].incoming == []
    ensures Activated(net, sig, k).membranePotential == 0.0
    ensures Activated(net, sig, k).activationLevel == Apply(net.layers[net.nodes[k].layer].activation, sig, 0.0)
  {
  }
}

=== FILE: parser.dfy ===
/** The configuration side of the library (parser.py): classifying
    sections, the `fail` normalisation of looked-up values, the activation
    name table, layer lookup, and which fields the exporter writes.

    A configuration read from a file is a list of sections whose options map
    to strings; what the exporter builds is a list of sections whose options
    hold Python values, in the order they were set.
 */
module Parser {
  import opened Results
  import opened Activations
  import opened Graph
  import opened Links
  import opened Text

  /** The Python values the getters return and the exporter stores. */
  datatype Value =
    | NoneValue
    | Str(s: string)
    | Int(i: int)
    | Real(r: real)
    | Fn(f: Activation)
    | Range(lo: real, hi: real)
    | Reals(rs: seq<real>)
    | Pairs(ps: seq<(int, int)>)

  /** A section read from a file. */
  datatype Section = Section(title: string, options: map<string, string>)

  type Config = seq<Section>

  /** A section as the exporter fills it. */
  datatype Written = Written(title: string, options: seq<(string, Value)>)

  const LayerPrefix: string := "Layer"
  const LinkPrefix: string := "Link"
  const ExecutionOrder: string := "Execution Order"
  const LayerTitle: string := "Layer "
  const LinkTitle: string := "Link "

  /** Title `s` appears in `cfg` before the first section titled `t`. */
  predicate AppearsBefore(cfg: Config, s: string, t: string) {
    exists i :: 0 <= i < |cfg| && cfg[i].title == s && forall j :: 0 <= j <= i ==> cfg[j].title != t
  }

  /** `sections()` filtered by `keep`: reading a file merges the sections
      that repeat a title, so each title comes once, in the order of its
      first section. */
  function Titles(cfg: Config, keep: string -> bool): (r: seq<string>)
    ensures forall t :: t in r <==> (exists i :: 0 <= i < |cfg| && cfg[i].title == t) && keep(t)
    ensures forall i, j :: 0 <= i < j < |r| ==> r[i] != r[j] && AppearsBefore(cfg, r[i], r[j])
    ensures |r| <= |cfg|
    decreases |cfg|
  {
    if |cfg| == 0 then []
    else
      var front := cfg[..|cfg| - 1];
      var t := cfg[|cfg| - 1].title;
      var r := Titles(front, keep);
      TitlesGrow(cfg, front, r);
      if keep(t) && t !in r then
        TitlesNew(cfg, front, r, t);
        r + [t]
      else r
  }

  /** An order established on a prefix holds in the whole configuration. */
  lemma TitlesGrow(cfg: Config, front: Config, r: seq<string>)
    requires |cfg| > 0 && front == cfg[..|cfg| - 1]
    requires forall i, j :: 0 <= i < j < |r| ==> AppearsBefore(front, r[i], r[j])
    ensures forall i, j :: 0 <= i < j < |r| ==> AppearsBefore(cfg, r[i], r[j])
  {
    forall i, j | 0 <= i < j < |r| ensures AppearsBefore(cfg, r[i], r[j]) {
      assert AppearsBefore(front, r[i], r[j]);
      var p :| 0 <= p < |front| && front[p].title == r[i] && forall q :: 0 <= q <= p ==> front[q].title != r[j];
      assert cfg[p] == front[p];
      assert forall q :: 0 <= q <= p ==> cfg[q] == front[q];
    }
  }

  /** A title that first appears in the last section comes after every
      title of the sections before it. */
  lemma TitlesNew(cfg: Config, front: Config, r: seq<string>, t: string)
    requires |cfg| > 0 && front == cfg[..|cfg| - 1] && t == cfg[|cfg| - 1].title
    requires forall s :: s in r ==> exists i :: 0 <= i < |front| && front[i].title == s
    requires forall i :: 0 <= i < |front| ==> front[i].title != t
    ensures forall i :: 0 <= i < |r| ==> AppearsBefore(cfg, r[i], t)
  {
    forall i | 0 <= i < |r| ensures AppearsBefore(cfg, r[i], t) {
      assert r[i] in r;
      var p :| 0 <= p < |front| && front[p].title == r[i];
      assert cfg[p] == front[p];
      assert forall q :: 0 <= q <= p ==> cfg[q] == front[q];
    }
  }

  /** The layer sections: titles starting with "Layer", each once, in the
      order of their first section. */
  function LayerSections(cfg: Config): (r: seq<string>)
    ensures forall t :: t in r <==> (exists i :: 0 <= i < |cfg| && cfg[i].title == t) && StartsWith(t, LayerPrefix)
    ensures forall i, j :: 0 <= i < j < |r| ==> r[i] != r[j] && AppearsBefore(cfg, r[i], r[j])
  {
    Titles(cfg, t => StartsWith(t, LayerPrefix))
  }

  /** The link sections: titles starting with "Link", each once, in the
      order of their first section. */
  function LinkSections(cfg: Config): (r: seq<string>)
    ensures forall t :: t in r <==> (exists i :: 0 <= i < |cfg| && cfg[i].title == t) && StartsWith(t, LinkPrefix)
    ensures forall i, j :: 0 <= i < j < |r| ==> r[i] != r[j] && AppearsBefore(cfg, r[i], r[j])
  {
    Titles(cfg, t => StartsWith(t, LinkPrefix))
  }

  /** The execution-order sections: titles equal to "Execution Order". */
  function ExecutionOrderSections(cfg: Config): (r: seq<string>)
    ensures forall t :: t in r <==> (exists i :: 0 <= i < |cfg| && cfg[i].title == t) && t == ExecutionOrder
  {
    Titles(cfg, t => t == ExecutionOrder)
  }

  /** No title is both a layer and a link section, and the execution order
      is neither. */
  lemma SectionKindsDisjoint(t: string)
    ensures !(StartsWith(t, LayerPrefix) && StartsWith(t, LinkPrefix))
    ensures !StartsWith(ExecutionOrder, LayerPrefix) && !StartsWith(ExecutionOrder, LinkPrefix)
  {
    assert LayerPrefix[1] != LinkPrefix[1];
    assert ExecutionOrder[0] == 'E';
  }

  /** `_parse_layer`'s name: the title with every "Layer " removed. */
  function LayerName(title: string): (r: string)
    ensures |r| <= |title|
  {
    RemoveAll(title, LayerTitle)
  }

  /** A layer's name survives the trip through its section title when it
      does not itself contain "Layer ". */
  lemma LayerNameRoundTrip(name: string)
    requires !Occurs(name, LayerTitle)
    ensures LayerName(LayerTitle + name) == name
  {
    RemoveLeading(LayerTitle, name);
    RemoveAbsent(name, LayerTitle);
  }

  /** Python's truth test on the values the getters return. */
  predicate Falsy(v: Value) {
    match v
    case NoneValue => true
    case Str(s) => s == ""
    case Int(i) => i == 0
    case Real(r) => r == 0.0
    case Fn(_) => false
    case Range(_, _) => false
    case Reals(rs) => rs == []
    case Pairs(ps) => ps == []
  }

  /** The `fail` wrapper around a getter: a raised exception gives the
      default, the string "None" and every falsy value give `None`, and
      anything else passes through. */
  function Fail(attempt: Result<Value>, default: Value): (r: Value)
    ensures attempt.Err? ==> r == default
    ensures attempt.Ok? ==> (r == NoneValue <==> attempt.value == Str("None") || Falsy(attempt.value))
    ensures attempt.Ok? && r != NoneValue ==> r == attempt.value
  {
    match attempt
    case Err(_) => default
    case Ok(v) => if v == Str("None") || Falsy(v) then NoneValue else v
  }

  /** A value that went through `fail` once comes out of it unchanged, and
      it is never falsy unless it is `None`. */
  lemma FailIdempotent(v: Value, default: Value)
    ensures Fail(Ok(Fail(Ok(v), default)), default) == Fail(Ok(v), default)
    ensures Fail(Ok(v), default) == NoneValue || !Falsy(Fail(Ok(v), default))
  {
  }

  /** Section `i` of `cfg` has title `section` and sets `key`. */
  predicate Sets(cfg: Config, i: nat, section: string, key: string)
    requires i < |cfg|
  {
    cfg[i].title == section && key in cfg[i].options
  }

  /** Section `i` is the last of `cfg` that sets `key` under `section`. */
  predicate SetsLast(cfg: Config, i: nat, section: string, key: string)
    requires i < |cfg|
  {
    Sets(cfg, i, section, key) && forall j :: i < j < |cfg| ==> !Sets(cfg, j, section, key)
  }

  /** `ConfigParser.get`. Reading a file merges the sections that repeat a
      title into one, a later setting of an option replacing an earlier
      one, so the value is the one the last section titled `section` gives
      `key`; with no such title it raises `NoSectionError`, and when no
      section of that title sets the key, `NoOptionError`. */
  function Get(cfg: Config, section: string, key: string): (r: Result<string>)
    ensures r.Err? <==> forall i :: 0 <= i < |cfg| ==> !Sets(cfg, i, section, key)
    ensures r.Ok? ==> exists i :: 0 <= i < |cfg| && SetsLast(cfg, i, section, key) && cfg[i].options[key] == r.value
    ensures r.Err? ==> r.error == NoSectionError(section) || r.error == NoOptionError(section, key)
    ensures r.Err? ==> (r.error.NoSectionError? <==> forall i :: 0 <= i < |cfg| ==> cfg[i].title != section)
    decreases |cfg|
  {
    if |cfg| == 0 then Err(NoSectionError(section))
    else
      var last := |cfg| - 1;
      if Sets(cfg, last, section, key) then Ok(cfg[last].options[key])
      else
        var front := cfg[..last];
        assert forall i :: 0 <= i < last ==> front[i] == cfg[i] && Sets(front, i, section, key) == Sets(cfg, i, section, key);
        var r := Get(front, section, key);
        if r.Err? && cfg[last].title == section then Err(NoOptionError(section, key)) else r
  }

  /** `get_string`. */
  function GetString(cfg: Config, section: string, key: string, default: Value): (r: Value)
    ensures Get(cfg, section, key).Err? ==> r == default
    ensures Get(cfg, section, key).Ok? ==>
      r == (if Get(cfg, section, key).value in {"None", ""} then NoneValue else Str(Get(cfg, section, key).value))
  {
    Fail(match Get(cfg, section, key) case Ok(s) => Ok(Str(s)) case Err(e) => Err(e), default)
  }

  /** `get_int`: a string that is not an integer raises inside the wrapper,
      which gives the default; zero gives `None`. */
  function GetInt(cfg: Config, section: string, key: string, default: Value): (r: Value)
    ensures Get(cfg, section, key).Err? ==> r == default
    ensures Get(cfg, section, key).Ok? && ParseInt(Get(cfg, section, key).value).None? ==> r == default
    ensures Get(cfg, section, key).Ok? && ParseInt(Get(cfg, section, key).value).Some? ==>
      var i := ParseInt(Get(cfg, section, key).value).value;
      r == (if i == 0 then NoneValue else Int(i))
  {
    var attempt := match Get(cfg, section, key)
      case Err(e) => Err(e)
      case Ok(s) => match ParseInt(s) case None => Err(ValueError("invalid literal for int()")) case Some(i) => Ok(Int(i));
    Fail(attempt, default)
  }

  /** The `funcs` table: configuration names of the activation functions. */
  const Funcs: seq<(string, Activation)> := [
    ("log", SigmoidLog),
    ("tanh", SigmoidTanh),
    ("step_0", Step(0.0)),
    ("step_5", Step(0.5)),
    ("step_8", Step(0.8)),
    ("linear", Linear),
    ("pos_linear", PosLinear)
  ]

  /** `funcs[name]`: `None` stands for the `KeyError`. */
  function Lookup(name: string): (r: Option<Activation>)
    ensures r.Some? <==> exists i :: 0 <= i < |Funcs| && Funcs[i].0 == name
    ensures r.Some? ==> exists i :: 0 <= i < |Funcs| && Funcs[i] == (name, r.value)
  {
    LookupIn(Funcs, name)
  }

  function LookupIn(table: seq<(string, Activation)>, name: string): (r: Option<Activation>)
    ensures r.Some? <==> exists i :: 0 <= i < |table| && table[i].0 == name
    ensures r.Some? ==> exists i :: 0 <= i < |table| && table[i] == (name, r.value)
  {
    if |table| == 0 then None
    else if table[0].0 == name then Some(table[0].1)
    else
      assert forall i :: 0 < i < |table| ==> table[1..][i - 1] == table[i];
      LookupIn(table[1..], name)
  }

  /** `reverse_func_lookup`: the name under which the table holds `f`, or
      `None` when it holds no such function. */
  function ReverseLookup(f: Activation): (r: Option<string>)
    ensures r.Some? ==> exists i :: 0 <= i < |Funcs| && Funcs[i] == (r.value, f)
    ensures r.None? <==> forall i :: 0 <= i < |Funcs| ==> Funcs[i].1 != f
  {
    ReverseIn(Funcs, f)
  }

  function ReverseIn(table: seq<(string, Activation)>, f: Activation): (r: Option<string>)
    ensures r.Some? ==> exists i :: 0 <= i < |table| && table[i] == (r.value, f)
    ensures r.None? <==> forall i :: 0 <= i < |table| ==> table[i].1 != f
  {
    if |table| == 0 then None
    else if table[0].1 == f then Some(table[0].0)
    else
      assert forall i :: 0 < i < |table| ==> table[1..][i - 1] == table[i];
      ReverseIn(table[1..], f)
  }

  /** In a table whose functions are distinct, each entry's function
      reverse-looks-up to its own name. */
  lemma {:induction false} ReverseInAt(table: seq<(string, Activation)>, i: nat)
    requires i < |table|
    requires forall j, k :: 0 <= j < k < |table| ==> table[j].1 != table[k].1
    ensures ReverseIn(table, table[i].1) == Some(table[i].0)
    decreases i
  {
    if i > 0 {
      assert table[1..][i - 1] == table[i];
      ReverseInAt(table[1..], i - 1);
    }
  }

  /** In a table whose names are distinct, each entry's name looks up to
      its own function. */
  lemma {:induction false} LookupInAt(table: seq<(string, Activation)>, i: nat)
    requires i < |table|
    requires forall j, k :: 0 <= j < k < |table| ==> table[j].0 != table[k].0
    ensures LookupIn(table, table[i].0) == Some(table[i].1)
    decreases i
  {
    if i > 0 {
      assert table[1..][i - 1] == table[i];
      LookupInAt(table[1..], i - 1);
    }
  }

  /** The table in both directions: every entry's function reverse-looks-up
      to its own name and that name looks up to the function; a function
      the table does not hold, such as a step at any other threshold, has
      no name. */
  lemma TableRoundTrip()
    ensures forall i :: 0 <= i < |Funcs| ==> ReverseLookup(Funcs[i].1) == Some(Funcs[i].0)
    ensures forall i :: 0 <= i < |Funcs| ==> Lookup(Funcs[i].0) == Some(Funcs[i].1)
    ensures forall t: real :: t != 0.0 && t != 0.5 && t != 0.8 ==> ReverseLookup(Step(t)).None?
  {
    assert forall j, k :: 0 <= j < k < |Funcs| ==> Funcs[j].1 != Funcs[k].1;
    assert forall j, k :: 0 <= j < k < |Funcs| ==> Funcs[j].0 != Funcs[k].0;
    forall i | 0 <= i < |Funcs| ensures ReverseLookup(Funcs[i].1) == Some(Funcs[i].0) {
      ReverseInAt(Funcs, i);
    }
    forall i | 0 <= i < |Funcs| ensures Lookup(Funcs[i].0) == Some(Funcs[i].1) {
      LookupInAt(Funcs, i);
    }
    forall t: real | t != 0.0 && t != 0.5 && t != 0.8 ensures ReverseLookup(Step(t)).None? {
      OtherStep(t);
    }
  }

  lemma OtherStep(t: real)
    requires t != 0.0 && t != 0.5 && t != 0.8
    ensures forall i :: 0 <= i < |Funcs| ==> Funcs[i].1 != Step(t)
  {
    forall i | 0 <= i < |Funcs| ensures Funcs[i].1 != Step(t) {
      assert Funcs[i].1 in [SigmoidLog, SigmoidTanh, Step(0.0), Step(0.5), Step(0.8), Linear, PosLinear];
    }
  }

  /** `get_func`: the function named by the option, or the default when the
      option or the name is missing. */
  function GetFunc(cfg: Config, section: string, key: string, default: Value): (r: Value)
    ensures Get(cfg, section, key).Err? ==> r == default
    ensures Get(cfg, section, key).Ok? ==>
      r == (match Lookup(Get(cfg, section, key).value) case Some(f) => Fn(f) case None => default)
  {
    var attempt := match Get(cfg, section, key)
      case Err(e) => Err(e)
      case Ok(s) => match Lookup(s) case None => Err(KeyError(s)) case Some(f) => Ok(Fn(f));
    Fail(attempt, default)
  }

  /** What `_parse_layer` hands to the layer constructor. */
  datatype LayerDecl = LayerDecl(name: string, nodes: int, activation: Activation, ioType: Option<string>)

  /** `_parse_layer`: the name from the title, the node count (a missing,
      unreadable or zero count reaches the constructor as `None`, which it
      cannot iterate), the activation (tanh when missing or unknown) and the
      role (`None` when missing, empty or "None"). */
  function ParseLayer(cfg: Config, title: string): (r: Result<LayerDecl>)
    ensures var nodes := GetInt(cfg, title, "nodes", NoneValue);
      r.Err? <==> nodes == NoneValue
    ensures r.Err? ==> r.error.TypeError?
    ensures r.Ok? ==> r.value.name == LayerName(title) && r.value.nodes != 0
    ensures r.Ok? ==> GetInt(cfg, title, "nodes", NoneValue) == Int(r.value.nodes)
    ensures r.Ok? ==> r.value.activation == (match Get(cfg, title, "activation")
      case Ok(s) => Lookup(s).GetOr(SigmoidTanh) case Err(_) => SigmoidTanh)
    ensures r.Ok? ==> r.value.ioType == (match Get(cfg, title, "io_type")
      case Ok(s) => if s == "None" || s == "" then None else Some(s) case Err(_) => None)
  {
    var io := GetString(cfg, title, "io_type", NoneValue);
    var nodes := GetInt(cfg, title, "nodes", NoneValue);
    var act := GetFunc(cfg, title, "activation", Fn(SigmoidTanh));
    match nodes
    case Int(n) =>
      Ok(LayerDecl(LayerName(title), n, if act.Fn? then act.f else SigmoidTanh, if io.Str? then Some(io.s) else None))
    case _ => Err(TypeError("'NoneType' object is not iterable"))
  }

  /** `find_layer`: the first of the parsed layers whose name matches
      `name` ignoring case. */
  function FindLayer(layers: seq<LayerDecl>, name: string): (r: Option<nat>)
    ensures r.Some? ==> r.value < |layers| && Lower(layers[r.value].name) == Lower(name)
    ensures r.Some? ==> forall j :: 0 <= j < r.value ==> Lower(layers[j].name) != Lower(name)
    ensures r.None? <==> forall j :: 0 <= j < |layers| ==> Lower(layers[j].name) != Lower(name)
  {
    if |layers| == 0 then None
    else if Lower(layers[0].name) == Lower(name) then Some(0)
    else
      assert forall j :: 0 < j < |layers| ==> layers[1..][j - 1] == layers[j];
      match FindLayer(layers[1..], name)
      case None => None
      case Some(i) => Some(i + 1)
  }

  /** `get_layer`: the layer the option names; no match raises
      `ValueError` naming the option. */
  function GetLayer(cfg: Config, layers: seq<LayerDecl>, section: string, key: string): (r: Result<nat>)
    ensures Get(cfg, section, key).Err? ==> r == Err(Get(cfg, section, key).error)
    ensures Get(cfg, section, key).Ok? ==> (r.Ok? <==> FindLayer(layers, Get(cfg, section, key).value).Some?)
    ensures Get(cfg, section, key).Ok? && r.Err? ==>
      r.error == ValueError("No valid layer selected in " + section + "." + key)
    ensures r.Ok? ==> r.value < |layers| && Lower(layers[r.value].name) == Lower(Get(cfg, section, key).value)
  {
    match Get(cfg, section, key)
    case Err(e) => Err(e)
    case Ok(s) =>
      match FindLayer(layers, s)
      case None => Err(ValueError("No valid layer selected in " + section + "." + key))
      case Some(i) => Ok(i)
  }

  /** `insert_layer`: the activation's table name (`None` when it has
      none), the node count, and the role only when the layer has one. */
  function InsertLayer(layer: Layer): (r: Written)
    ensures r.title == LayerTitle + layer.name
    ensures |r.options| >= 2 && r.options[0].0 == "activation" && r.options[1] == ("nodes", Int(|layer.nodes|))
    ensures r.options[0].1 == (match ReverseLookup(layer.activation) case Some(k) => Str(k) case None => NoneValue)
    ensures (exists i :: 0 <= i < |r.options| && r.options[i].0 == "io_type") <==> layer.ioType.Some? && layer.ioType.value != ""
    ensures layer.ioType.Some? && layer.ioType.value != "" ==> r.options == r.options[..2] + [("io_type", Str(layer.ioType.value))]
    ensures !(layer.ioType.Some? && layer.ioType.value != "") ==> |r.options| == 2
  {
    var act := match ReverseLookup(layer.activation) case Some(k) => Str(k) case None => NoneValue;
    var base := [("activation", act), ("nodes", Int(|layer.nodes|))];
    assert layer.ioType.Some? && layer.ioType.value != "" ==> (base + [("io_type", Str(layer.ioType.value))])[2].0 == "io_type";
    Written(LayerTitle + layer.name,
            if layer.ioType.Some? && layer.ioType.value != "" then base + [("io_type", Str(layer.ioType.value))] else base)
  }

  /** `str` of the values a layer section holds: the text the file gets. */
  function Render(v: Value): Option<string> {
    match v
    case NoneValue => Some("None")
    case Str(s) => Some(s)
    case Int(i) => Some(ShowInt(i))
    case _ => None
  }

  /** A written section as it reads back, when every value renders. */
  function ReadBack(w: Written): (r: Option<Section>)
    ensures r.Some? ==> r.value.title == w.title
    ensures r.Some? ==> forall i :: 0 <= i < |w.options| ==> w.options[i].0 in r.value.options
  {
    if forall i :: 0 <= i < |w.options| ==> Render(w.options[i].1).Some? then
      Some(Section(w.title, OptionMap(w.options)))
    else None
  }

  /** The options as a map, later settings overriding earlier ones. */
  function OptionMap(options: seq<(string, Value)>): (m: map<string, string>)
    requires forall i :: 0 <= i < |options| ==> Render(options[i].1).Some?
    ensures forall i :: 0 <= i < |options| ==> options[i].0 in m
    decreases |options|
  {
    if |options| == 0 then map[]
    else
      var front := options[..|options| - 1];
      var last := options[|options| - 1];
      assert forall i :: 0 <= i < |front| ==> front[i] == options[i];
      OptionMap(front)[last.0 := Render(last.1).value]
  }

  /** The name under which the exporter writes a layer's activation. */
  function ActivationKey(f: Activation): string {
    match ReverseLookup(f) case Some(k) => k case None => "None"
  }

  /** The options of an exported layer section as they read back. */
  lemma LayerSectionOptions(layer: Layer)
    ensures ReadBack(InsertLayer(layer)).Some?
    ensures var opts := ReadBack(InsertLayer(layer)).value.options;
      && "nodes" in opts && opts["nodes"] == ShowInt(|layer.nodes|)
      && "activation" in opts && opts["activation"] == ActivationKey(layer.activation)
      && ("io_type" in opts <==> layer.ioType.Some? && layer.ioType.value != "")
      && ("io_type" in opts ==> opts["io_type"] == layer.ioType.value)
      && opts.Keys == {"activation", "nodes"} + (if "io_type" in opts then {"io_type"} else {})
  {
    var w := InsertLayer(layer);
    var act := match ReverseLookup(layer.activation) case Some(k) => Str(k) case None => NoneValue;
    var io := if layer.ioType.Some? && layer.ioType.value != "" then layer.ioType else None;
    assert w.options == [("activation", act), ("nodes", Int(|layer.nodes|))] + (if io.Some? then [("io_type", Str(io.value))] else []);
    ShapedOptions(w.options, act, |layer.nodes|, io);
    assert Render(act) == Some(ActivationKey(layer.activation));
  }

  /** The map a section of this shape reads back as. */
  lemma ShapedOptions(options: seq<(string, Value)>, act: Value, n: int, io: Option<string>)
    requires act.NoneValue? || act.Str?
    requires options == [("activation", act), ("nodes", Int(n))] + (if io.Some? then [("io_type", Str(io.value))] else [])
    ensures forall i :: 0 <= i < |options| ==> Render(options[i].1).Some?
    ensures var m := OptionMap(options);
      && "nodes" in m && m["nodes"] == ShowInt(n)
      && "activation" in m && m["activation"] == Render(act).value
      && ("io_type" in m <==> io.Some?)
      && (io.Some? ==> m["io_type"] == io.value)
      && m.Keys == {"activation", "nodes"} + (if io.Some? then {"io_type"} else {})
  {
    var base := map["activation" := Render(act).value, "nodes" := ShowInt(n)];
    ShapedMap(options, act, n, io, base);
    ShapedKeys(OptionMap(options), Render(act).value, ShowInt(n), io);
  }

  /** Reading the written-out map of such a section. */
  lemma ShapedKeys(m: map<string, string>, act: string, nodes: string, io: Option<string>)
    requires m == var base := map["activation" := act, "nodes" := nodes];
      if io.Some? then base["io_type" := io.value] else base
    ensures "nodes" in m && m["nodes"] == nodes && "activation" in m && m["activation"] == act
    ensures ("io_type" in m <==> io.Some?) && (io.Some? ==> m["io_type"] == io.value)
    ensures m.Keys == {"activation", "nodes"} + (if io.Some? then {"io_type"} else {})
  {
  }

  /** The map such a section reads back as, written out. */
  lemma ShapedMap(options: seq<(string, Value)>, act: Value, n: int, io: Option<string>, base: map<string, string>)
    requires act.NoneValue? || act.Str?
    requires options == [("activation", act), ("nodes", Int(n))] + (if io.Some? then [("io_type", Str(io.value))] else [])
    requires base == map["activation" := Render(act).value, "nodes" := ShowInt(n)]
    ensures forall i :: 0 <= i < |options| ==> Render(options[i].1).Some?
    ensures OptionMap(options) == if io.Some? then base["io_type" := io.value] else base
  {
    var two := [("activation", act), ("nodes", Int(n))];
    assert OptionMap(two) == base by {
      var one := [("activation", act)];
      assert two[..1] == one && one[..0] == [];
      assert OptionMap(one) == map["activation" := Render(act).value];
    }
    if io.Some? {
      assert options[..2] == two && options[2] == ("io_type", Str(io.value));
    } else {
      assert options == two;
    }
  }

  /** Looking an option up in a one-section configuration. */
  lemma GetSingle(section: Section, key: string)
    ensures Get([section], section.title, key) ==
      if key in section.options then Ok(section.options[key]) else Err(NoOptionError(section.title, key))
  {
  }

  /** The configuration an exported layer reads back as. */
  function ExportedConfig(layer: Layer): (cfg: Config)
    ensures |cfg| == 1 && cfg[0].title == LayerTitle + layer.name
  {
    LayerSectionOptions(layer);
    [ReadBack(InsertLayer(layer)).value]
  }

  /** The node count reads back, except that zero reads as `None`. */
  lemma ExportedNodes(layer: Layer)
    ensures GetInt(ExportedConfig(layer), LayerTitle + layer.name, "nodes", NoneValue) ==
      if |layer.nodes| == 0 then NoneValue else Int(|layer.nodes|)
  {
    LayerSectionOptions(layer);
    var cfg := ExportedConfig(layer);
    GetSingle(cfg[0], "nodes");
    ParseShowInt(|layer.nodes|);
  }

  /** The activation reads back when the table names it, as tanh otherwise. */
  lemma ExportedActivation(layer: Layer)
    ensures GetFunc(ExportedConfig(layer), LayerTitle + layer.name, "activation", Fn(SigmoidTanh)) ==
      Fn(if ReverseLookup(layer.activation).Some? then layer.activation else SigmoidTanh)
  {
    LayerSectionOptions(layer);
    var cfg := ExportedConfig(layer);
    GetSingle(cfg[0], "activation");
    assert Lookup(ActivationKey(layer.activation)) == (if ReverseLookup(layer.activation).Some? then Some(layer.activation) else None) by {
      TableRoundTrip();
      if ReverseLookup(layer.activation).Some? {
        var i :| 0 <= i < |Funcs| && Funcs[i] == (ReverseLookup(layer.activation).value, layer.activation);
        assert Lookup(Funcs[i].0) == Some(Funcs[i].1);
      } else {
        NoneNotAName();
      }
    }
  }

  /** The role reads back when it is set to anything but "None". */
  lemma ExportedRole(layer: Layer)
    requires layer.ioType != Some("None")
    ensures GetString(ExportedConfig(layer), LayerTitle + layer.name, "io_type", NoneValue) ==
      if layer.ioType.Some? && layer.ioType.value != "" then Str(layer.ioType.value) else NoneValue
  {
    LayerSectionOptions(layer);
    var cfg := ExportedConfig(layer);
    GetSingle(cfg[0], "io_type");
  }

  /** Exporting a layer and parsing its section back gives the layer's
      name, node count and role, and its activation when the table names
      it (tanh otherwise); a layer with no nodes cannot be read back. */
  lemma LayerExportRoundTrip(layer: Layer)
    requires !Occurs(layer.name, LayerTitle)
    requires layer.ioType != Some("None")
    ensures ParseLayer(ExportedConfig(layer), LayerTitle + layer.name) ==
      if |layer.nodes| == 0 then Err(TypeError("'NoneType' object is not iterable"))
      else Ok(LayerDecl(layer.name, |layer.nodes|,
                        if ReverseLookup(layer.activation).Some? then layer.activation else SigmoidTanh,
                        if layer.ioType.Some? && layer.ioType.value != "" then layer.ioType else None))
  {
    LayerNameRoundTrip(layer.name);
    ExportedNodes(layer);
    ExportedActivation(layer);
    ExportedRole(layer);
  }

  /** "None" is not a name in the table. */
  lemma NoneNotAName()
    ensures Lookup("None").None?
  {
    forall i | 0 <= i < |Funcs| ensures Funcs[i].0 != "None" {
      assert Funcs[i].0 in ["log", "tanh", "step_0", "step_5", "step_8", "linear", "pos_linear"];
    }
  }

  /** The options a link section can hold. */
  datatype LinkField = ArcRangeField | RuleField | RateField | TopologyField | WeightsField | ArcsField | PostField | PreField

  /** The option name of each field. */
  function FieldName(f: LinkField): string {
    match f
    case ArcRangeField => "arc_range"
    case RuleField => "learning_rule"
    case RateField => "learning_rate"
    case TopologyField => "topology"
    case WeightsField => "weights"
    case ArcsField => "arcs"
    case PostField => "post"
    case PreField => "pre"
  }

  /** The fields in the order `insert_link` sets them. */
  const LinkFields: seq<LinkField> :=
    [ArcRangeField, RuleField, RateField, TopologyField, WeightsField, ArcsField, PostField, PreField]

  lemma LinkFieldsComplete()
    ensures Distinct(LinkFields)
    ensures forall f :: f in LinkFields
  {
    forall f ensures f in LinkFields {
      match f
      case ArcRangeField => assert LinkFields[0] == f;
      case RuleField => assert LinkFields[1] == f;
      case RateField => assert LinkFields[2] == f;
      case TopologyField => assert LinkFields[3] == f;
      case WeightsField => assert LinkFields[4] == f;
      case ArcsField => assert LinkFields[5] == f;
      case PostField => assert LinkFields[6] == f;
      case PreField => assert LinkFields[7] == f;
    }
  }

  /** A link section as the exporter fills it. */
  datatype LinkSection = LinkSection(title: string, options: seq<(LinkField, Value)>)

  function Fields(options: seq<(LinkField, Value)>): (r: seq<LinkField>)
    ensures |r| == |options| && forall i :: 0 <= i < |options| ==> r[i] == options[i].0
  {
    seq(|options|, i requires 0 <= i < |options| => options[i].0)
  }

  /** The section with option names for fields. */
  function Named(section: LinkSection): (r: Written)
    ensures r.title == section.title && |r.options| == |section.options|
    ensures forall i :: 0 <= i < |r.options| ==> r.options[i] == (FieldName(section.options[i].0), section.options[i].1)
  {
    Written(section.title, seq(|section.options|, i requires 0 <= i < |section.options| =>
      (FieldName(section.options[i].0), section.options[i].1)))
  }

  /** `(f, value(f))` for each field `f` of `fields` that `writes`, in
      order. */
  function Select(fields: seq<LinkField>, writes: LinkField -> bool, value: LinkField -> Value): (r: seq<(LinkField, Value)>)
    ensures forall f :: f in Fields(r) <==> f in fields && writes(f)
    ensures forall j :: 0 <= j < |r| ==> r[j].1 == value(r[j].0)
    ensures Distinct(fields) ==> Distinct(Fields(r))
  {
    if |fields| == 0 then []
    else
      var rest := Select(fields[1..], writes, value);
      DistinctTail(fields);
      if writes(fields[0]) then
        FieldsCons((fields[0], value(fields[0])), rest);
        ConsDistinct(fields[0], Fields(rest));
        [(fields[0], value(fields[0]))] + rest
      else
        rest
  }

  lemma ConsDistinct<T>(x: T, s: seq<T>)
    ensures x !in s && Distinct(s) ==> Distinct([x] + s)
  {
    DistinctTail([x] + s);
    assert ([x] + s)[1..] == s;
  }

  lemma FieldsCons(p: (LinkField, Value), rest: seq<(LinkField, Value)>)
    ensures Fields([p] + rest) == [p.0] + Fields(rest)
  {
  }

  /** The tail of a repetition-free sequence is repetition-free and lacks
      the head. */
  lemma DistinctTail<T>(s: seq<T>)
    requires |s| > 0
    ensures Distinct(s) ==> s[0] !in s[1..] && Distinct(s[1..])
    ensures s[0] !in s[1..] && Distinct(s[1..]) ==> Distinct(s)
  {
    if s[0] !in s[1..] && Distinct(s[1..]) {
      forall i, j | 0 <= i < j < |s| ensures s[i] != s[j] {
        assert s[j] == s[1..][j - 1];
        if i > 0 {
          assert s[i] == s[1..][i - 1];
        }
      }
    }
  }

  /** Whether `insert_link` sets a field: the arc range and both ends
      always; the rule, rate and topology only when truthy; weights and arcs
      always when writing the updated values, otherwise only when the
      initial ones are non-empty. */
  predicate Writes(link: Link, useUpdated: bool, f: LinkField) {
    match f
    case RuleField => link.learningRule.Some? && link.learningRule.value != ""
    case RateField => link.learningRate.Some? && link.learningRate.value != 0.0
    case TopologyField => link.topology.Some? && link.topology.value != ""
    case WeightsField => useUpdated || (link.initWeights.Some? && link.initWeights.value != [])
    case ArcsField => useUpdated || (link.initArcs.Some? && link.initArcs.value != [])
    case _ => true
  }

  /** The value `insert_link` sets for a field. */
  function FieldValue(net: Net, link: Link, useUpdated: bool, f: LinkField): Value
    requires link.pre.Some? && link.pre.value < |net.layers|
    requires link.post.Some? && link.post.value < |net.layers|
  {
    match f
    case ArcRangeField => (match link.arcRange case Some(p) => Range(p.0, p.1) case None => NoneValue)
    case RuleField => Str(link.learningRule.GetOr(""))
    case RateField => Real(link.learningRate.GetOr(0.0))
    case TopologyField => Str(link.topology.GetOr(""))
    case WeightsField => Reals(if useUpdated then link.weights else link.initWeights.GetOr([]))
    case ArcsField => Pairs(if useUpdated then link.arcs else link.initArcs.GetOr([]))
    case PostField => Str(net.layers[link.post.value].name)
    case PreField => Str(net.layers[link.pre.value].name)
  }

  /** `insert_link`: section "Link i" holding, once each, exactly the
      fields `Writes` selects, with the values `FieldValue` gives; a link
      missing an end has no layer name to write. */
  function InsertLink(net: Net, link: Link, i: int, useUpdated: bool): (r: Result<LinkSection>)
    requires link.pre.Some? ==> link.pre.value < |net.layers|
    requires link.post.Some? ==> link.post.value < |net.layers|
    ensures r.Err? <==> link.pre.None? || link.post.None?
    ensures r.Err? ==> r.error == AttributeError("name")
    ensures r.Ok? ==> r.value.title == LinkTitle + ShowInt(i)
    ensures r.Ok? ==> forall f :: f in Fields(r.value.options) <==> Writes(link, useUpdated, f)
    ensures r.Ok? ==> Distinct(Fields(r.value.options))
    ensures r.Ok? ==> forall j :: 0 <= j < |r.value.options| ==> r.value.options[j].1 == FieldValue(net, link, useUpdated, r.value.options[j].0)
  {
    if link.pre.None? || link.post.None? then Err(AttributeError("name"))
    else
      LinkFieldsComplete();
      Ok(LinkSection(LinkTitle + ShowInt(i),
        Select(LinkFields, f => Writes(link, useUpdated, f), f => FieldValue(net, link, useUpdated, f))))
  }

  /** Field by field, which options `insert_link` sets: the arc range and
      the two ends always; the rule, rate and topology only when they are
      truthy; the weights and arcs always when exporting the updated values,
      otherwise only when the initial ones are non-empty. */
  lemma LinkFieldChoice(net: Net, link: Link, i: int, useUpdated: bool)
    requires link.pre.Some? && link.pre.value < |net.layers|
    requires link.post.Some? && link.post.value < |net.layers|
    ensures InsertLink(net, link, i, useUpdated).Ok?
    ensures FieldsChosen(link, useUpdated, Fields(InsertLink(net, link, i, useUpdated).value.options))
  {
    ChosenFields(link, useUpdated, Fields(InsertLink(net, link, i, useUpdated).value.options));
  }

  /** `fs` holds the fields `insert_link` sets for `link`, in the source's
      own terms. */
  predicate FieldsChosen(link: Link, useUpdated: bool, fs: seq<LinkField>) {
    && ArcRangeField in fs && PreField in fs && PostField in fs
    && (RuleField in fs <==> link.learningRule.Some? && link.learningRule.value != "")
    && (RateField in fs <==> link.learningRate.Some? && link.learningRate.value != 0.0)
    && (TopologyField in fs <==> link.topology.Some? && link.topology.value != "")
    && (WeightsField in fs <==> useUpdated || (link.initWeights.Some? && link.initWeights.value != []))
    && (ArcsField in fs <==> useUpdated || (link.initArcs.Some? && link.initArcs.value != []))
  }

  lemma ChosenFields(link: Link, useUpdated: bool, fs: seq<LinkField>)
    requires forall f :: f in fs <==> Writes(link, useUpdated, f)
    ensures FieldsChosen(link, useUpdated, fs)
  {
    assert ArcRangeField in fs <==> Writes(link, useUpdated, ArcRangeField);
    assert PreField in fs <==> Writes(link, useUpdated, PreField);
    assert PostField in fs <==> Writes(link, useUpdated, PostField);
    assert RuleField in fs <==> Writes(link, useUpdated, RuleField);
    assert RateField in fs <==> Writes(link, useUpdated, RateField);
    assert TopologyField in fs <==> Writes(link, useUpdated, TopologyField);
    assert WeightsField in fs <==> Writes(link, useUpdated, WeightsField);
    assert ArcsField in fs <==> Writes(link, useUpdated, ArcsField);
  }

  /** The values `insert_link` sets: each end's layer name, and the learned
      weights and arcs when exporting the updated values, the initial ones
      otherwise. */
  lemma LinkFieldValues(net: Net, link: Link, i: int, useUpdated: bool)
    requires link.pre.Some? && link.pre.value < |net.layers|
    requires link.post.Some? && link.post.value < |net.layers|
    ensures InsertLink(net, link, i, useUpdated).Ok?
    ensures forall p :: p in InsertLink(net, link, i, useUpdated).value.options ==> ValueSet(net, link, useUpdated, p)
  {
    var w := InsertLink(net, link, i, useUpdated).value.options;
    forall p | p in w ensures ValueSet(net, link, useUpdated, p) {
      var j :| 0 <= j < |w| && w[j] == p;
      assert Fields(w)[j] == p.0;
      SetValue(net, link, useUpdated, p);
    }
  }

  /** The option `p` carries the value `insert_link` gives its field. */
  predicate ValueSet(net: Net, link: Link, useUpdated: bool, p: (LinkField, Value))
    requires link.pre.Some? && link.pre.value < |net.layers|
    requires link.post.Some? && link.post.value < |net.layers|
  {
    && (p.0 == PreField ==> p.1 == Str(net.layers[link.pre.value].name))
    && (p.0 == PostField ==> p.1 == Str(net.layers[link.post.value].name))
    && (p.0 == WeightsField && useUpdated ==> p.1 == Reals(link.weights))
    && (p.0 == WeightsField && !useUpdated ==> link.initWeights.Some? && p.1 == Reals(link.initWeights.value))
    && (p.0 == ArcsField && useUpdated ==> p.1 == Pairs(link.arcs))
    && (p.0 == ArcsField && !useUpdated ==> link.initArcs.Some? && p.1 == Pairs(link.initArcs.value))
  }

  lemma SetValue(net: Net, link: Link, useUpdated: bool, p: (LinkField, Value))
    requires link.pre.Some? && link.pre.value < |net.layers|
    requires link.post.Some? && link.post.value < |net.layers|
    requires Writes(link, useUpdated, p.0) && p.1 == FieldValue(net, link, useUpdated, p.0)
    ensures ValueSet(net, link, useUpdated, p)
  {
  }

  /** Exporting the updated values always writes the learned weights and
      arcs; a link with no initial weights or arcs exported without the
      updated values writes neither; the arc range and both ends are always
      written. */
  lemma ExportedWeights(net: Net, link: Link, i: int)
    requires link.pre.Some? && link.pre.value < |net.layers|
    requires link.post.Some? && link.post.value < |net.layers|
    ensures var w := InsertLink(net, link, i, true).value.options;
      && WeightsField in Fields(w) && ArcsField in Fields(w)
      && forall j :: 0 <= j < |w| && w[j].0 == WeightsField ==> w[j].1 == Reals(link.weights)
    ensures link.initWeights.None? && link.initArcs.None? ==>
      var w := InsertLink(net, link, i, false).value.options;
      WeightsField !in Fields(w) && ArcsField !in Fields(w)
    ensures var w := InsertLink(net, link, i, false).value.options;
      ArcRangeField in Fields(w) && PostField in Fields(w) && PreField in Fields(w)
  {
    var w := InsertLink(net, link, i, true).value.options;
    assert Writes(link, true, WeightsField) && Writes(link, true, ArcsField);
    var v := InsertLink(net, link, i, false).value.options;
    assert Writes(link, false, ArcRangeField) && Writes(link, false, PostField) && Writes(link, false, PreField);
  }

  /** The titles the exporter writes are read back as the right kind of
      section. */
  lemma ExportedTitlesClassify(name: string, i: int)
    ensures StartsWith(LayerTitle + name, LayerPrefix) && !StartsWith(LayerTitle + name, LinkPrefix)
    ensures StartsWith(LinkTitle + ShowInt(i), LinkPrefix) && !StartsWith(LinkTitle + ShowInt(i), LayerPrefix)
  {
    SectionKindsDisjoint(LayerTitle + name);
    SectionKindsDisjoint(LinkTitle + ShowInt(i));
    assert (LayerTitle + name)[..|LayerPrefix|] == LayerPrefix;
    assert (LinkTitle + ShowInt(i))[..|LinkPrefix|] == LinkPrefix;
  }
}

=== FILE: results.dfy ===
/** Failure-carrying datatypes shared by the whole model: Python's `None`
    becomes `Option.None`, and a raised exception becomes `Result.Err`
    carrying the exception the source raises.
 */
module Results {

  datatype Option<+T> = None | Some(value: T) {

    /** The value in `Some`, or `default` when this is `None`. */
    function GetOr(default: T): T {
      match this
      case Some(v) => v
      case None => default
    }
  }

  /** The exceptions the modelled code raises or lets propagate. */
  datatype Exception =
    | KeyError(key: string)
    | LayerKeyError(layer: nat)
    | ValueError(message: string)
    | IndexError
    | AttributeError(attribute: string)
    | TypeError(message: string)
    | NoSectionError(section: string)
    | NoOptionError(section: string, option: string)

  datatype Result<+T> = Ok(value: T) | Err(error: Exception) {

    predicate IsFailure() {
      Err?
    }

    function PropagateFailure<U>(): Result<U>
      requires Err?
    {
      Err(error)
    }

    function Extract(): T
      requires Ok?
    {
      value
    }
  }
}

=== FILE: text.dfy ===
/** String helpers with Python 2 semantics: ASCII `str.lower`, `startswith`,
    `str.replace(p, "")`, `str(int)` and `int(str)` on plain decimals.
 */
module Text {
  import opened Results

  /** `str.lower` on one byte-string character: only ASCII letters change. */
  function LowerChar(c: char): char {
    if 'A' <= c <= 'Z' then (c as int + 32) as char else c
  }

  function Lower(s: string): (r: string)
    ensures |r| == |s|
  {
    seq(|s|, i requires 0 <= i < |s| => LowerChar(s[i]))
  }

  predicate StartsWith(s: string, prefix: string) {
    |prefix| <= |s| && s[..|prefix|] == prefix
  }

  /** `p` occurs in `s` starting at index `i`. */
  predicate OccursAt(s: string, p: string, i: nat) {
    i + |p| <= |s| && s[i..i + |p|] == p
  }

  predicate Occurs(s: string, p: string) {
    exists i: nat | i <= |s| :: OccursAt(s, p, i)
  }

  /** `s.replace(p, "")`: scans left to right and drops every non-overlapping
      occurrence of `p`; the text left behind is not rescanned. */
  function RemoveAll(s: string, p: string): (r: string)
    requires |p| > 0
    ensures |r| <= |s|
    decreases |s|
  {
    if |s| < |p| then s
    else if s[..|p|] == p then RemoveAll(s[|p|..], p)
    else [s[0]] + RemoveAll(s[1..], p)
  }

  /** Removing a pattern that does not occur leaves the string unchanged. */
  lemma {:induction false} RemoveAbsent(s: string, p: string)
    requires |p| > 0
    requires !Occurs(s, p)
    ensures RemoveAll(s, p) == s
    decreases |s|
  {
    if |s| < |p| {
    } else {
      assert !OccursAt(s, p, 0);
      assert s[..|p|] != p;
      forall i: nat | OccursAt(s[1..], p, i)
        ensures false
      {
        assert s[1..][i..i + |p|] == s[i + 1..i + 1 + |p|];
        assert OccursAt(s, p, i + 1);
      }
      RemoveAbsent(s[1..], p);
    }
  }

  /** A leading copy of `p` is dropped, and the rest is treated as if it
      stood alone. */
  lemma RemoveLeading(p: string, rest: string)
    requires |p| > 0
    ensures RemoveAll(p + rest, p) == RemoveAll(rest, p)
  {
    assert (p + rest)[..|p|] == p;
    assert (p + rest)[|p|..] == rest;
  }

  predicate IsDigit(c: char) {
    '0' <= c <= '9'
  }

  predicate AllDigits(s: string) {
    forall i :: 0 <= i < |s| ==> IsDigit(s[i])
  }

  function DigitChar(d: nat): (c: char)
    requires d < 10
    ensures IsDigit(c)
  {
    (48 + d) as char
  }

  function DigitValue(c: char): (d: nat)
    requires IsDigit(c)
    ensures d < 10
  {
    c as int - 48
  }

  /** `str(n)` for a natural number: its decimal digits, most significant
      first, with no leading zero. */
  function ShowNat(n: nat): (r: string)
    ensures |r| > 0 && AllDigits(r)
  {
    if n < 10 then [DigitChar(n)] else ShowNat(n / 10) + [DigitChar(n % 10)]
  }

  /** `str(i)` for an integer. */
  function ShowInt(i: int): (r: string)
    ensures |r| > 0
    ensures r[0] == '-' <==> i < 0
  {
    if i < 0 then "-" + ShowNat(-i) else ShowNat(i)
  }

  /** The number a string of decimal digits denotes. */
  function DigitsValue(s: string): nat
    requires AllDigits(s)
  {
    if |s| == 0 then 0 else DigitsValue(s[..|s| - 1]) * 10 + DigitValue(s[|s| - 1])
  }

  /** `int(s)` on an optional minus sign followed by decimal digits; any other
      string makes Python raise, which is `None` here. */
  function ParseInt(s: string): Option<int> {
    if |s| > 1 && s[0] == '-' && AllDigits(s[1..]) then Some(-(DigitsValue(s[1..]) as int))
    else if |s| > 0 && AllDigits(s) then Some(DigitsValue(s))
    else None
  }

  lemma {:induction false} DigitsOfShowNat(n: nat)
    ensures DigitsValue(ShowNat(n)) == n
  {
    if n >= 10 {
      var s := ShowNat(n / 10) + [DigitChar(n % 10)];
      assert s[..|s| - 1] == ShowNat(n / 10);
      DigitsOfShowNat(n / 10);
    }
  }

  /** `int(str(i)) == i`: printing an integer and reading it back is the
      identity. */
  lemma ParseShowInt(i: int)
    ensures ParseInt(ShowInt(i)) == Some(i)
  {
    if i < 0 {
      var s := ShowInt(i);
      assert s[1..] == ShowNat(-i);
      DigitsOfShowNat(-i);
    } else {
      DigitsOfShowNat(i);
    }
  }
}
